=== FILE: README.md ===
# jahackathon game core in Dafny

jahackathon is a small pygame game on a tile grid. A player walks a
delivery map and collects coins and food. They deliver dishes to clients'
houses while enemies patrol and chase them with A*. The game has two
generations of code:

- the chase game itself: `tilemap.py`, `enemy.py`, `player.py`,
  `spawnfunc.py`, the collectables in `coin.py` and `food.py`, the
  delivery square in `deliveryzone.py`, the screens in `game_state.py`,
  and the character-map levels in `wall.py` and `test.py`;
- the reusable "game systems" in `games_systems/`: an inventory manager,
  orders with time limits and rewards, food spawning and food zones,
  delivery and save zones with activation timers, and a CSV map reader
  with three tile-code configurations.

This project models that core. It proves what each operation guarantees:

- Walking never enters a blocked tile.
- A* returns a shortest path, or nothing when there is none.
- Timers activate a zone once per stay.
- Orders debit exactly what they ask for and never drive a count negative.
- The counters of the systems agree with one another.

Modelling conventions:

- **Time** is an integer number of milliseconds, passed in as `now`. The
  source's seconds-valued settings (`give_time`, activation times) are
  written in milliseconds.
- **Randomness** (`random.randint`, `random.choice`) is a nondeterministic
  choice (`:|`) inside the method. Each contract holds for every possible
  draw.
- **Rectangles** are integer `Rect`s. Overlap is pygame's strict
  `colliderect`.
- **Distances** are compared squared, so no square root is needed. This
  covers the aggro radius, the enemy's 1-pixel return test, the 32-pixel
  food spacing and the delivery tolerance.
- **Tile sizes:**
  - The tile map uses 16-pixel tiles (`TileMap.TILE`).
  - The CSV reader takes its tile size as a parameter (16 by default).
  - The character-map levels take theirs as a parameter (40 in `test.py`).
  - The screen is 1024 x 768 (`Settings`).
- **The player as the game systems see it.** Those systems accept any
  object and probe it with `hasattr`. That object is the class
  `Carriers.Carrier`. Its optional fields are `inventory`, `coin` and
  `coins`. It has a flag for an `add_item` method, and it records the
  calls made to that method.
- **The enemy's `update`.** In `src/enemy.py:331` it is written at module
  level, with the helper methods nested inside it. Its body is modelled as
  the enemy's per-frame method `Enemies.Enemy.Update`.
- **Enemy movement.** `intentar_mover_con_tiles` is defined twice. The
  second definition (`src/enemy.py:228`) replaces the first, so that is
  the one modelled.

Module layout, one file per module:

| file | module | source |
|---|---|---|
| geometry.dfy | Geometry | rectangles, overlap, squared distance, directions |
| settings.dfy | Settings | screen size of `settings.py` |
| tilemap.dfy | TileMap | `src/tilemap.py` |
| movement.dfy | Movement | the one-axis move rule of `enemy.py` / `player.py` |
| astar.dfy | Pathfinding | `Enemy.a_star` |
| enemy.dfy | Enemies | `src/enemy.py` |
| player.dfy | Players | `src/player.py` |
| snap.dfy | Snapping | `Jugador` of `src/test.py` |
| charwalls.dfy | CharWalls | `cargar_mapa` of `src/wall.py` and `src/test.py` |
| spawn.dfy | Spawning | `src/spawnfunc.py` |
| pickups.dfy | Pickups | `src/coin.py`, `src/food.py` |
| deliveryzone.dfy | Delivery | `src/deliveryzone.py` |
| gamestate.dfy | GameStates | `src/game_state.py` |
| items.dfy | Items | item-to-count dictionaries |
| carrier.dfy | Carriers | the duck-typed player of `games_systems` |
| inventory.dfy | InventorySystem | `games_systems/inventory.py` |
| orders.dfy | Orders | `games_systems/order_system.py` |
| foodsystem.dfy | FoodSystems | `games_systems/food_system.py` |
| deliverysystem.dfy | DeliverySystems | `games_systems/delivery_system.py` |
| csvmapper.dfy | CsvMapping | `games_systems/csv_mapper.py` |

## Model

| member | source | states |
|---|---|---|
| TileMap.PixelToTile | src/tilemap.py:54-56 | the tile returned is the one whose pixel span contains the point on both axes (floor division) |
| TileMap.PixelToTileUnique | src/tilemap.py:54-56 | the owning tile is unique: any tile whose span holds the pixel is the one pixel_a_tile returns |
| TileMap.RowsMember | src/tilemap.py:58-62 | a cell is in the block comprehension exactly when its column and row are within the inclusive bounds |
| TileMap.RowsSorted | src/tilemap.py:58-62 | the block comprehension lists its cells in strict row-major order (row outer, column inner) |
| TileMap.RectTilesExact | src/tilemap.py:58-62 | for a non-empty rectangle, rect_a_tiles holds exactly the tiles that share a pixel with it, in strict row-major order |
| TileMap.FitsInsideMap | src/tilemap.py:58-68 | a non-empty rectangle all of whose tiles are walkable lies inside the map's pixel area, and every pixel of it is on a walkable tile |
| TileMap.FitsPixel | src/tilemap.py:58-68 | every pixel of a rectangle accepted by the walkability test lies on a walkable tile |
| TileMap.FitsBounds | src/tilemap.py:64-68 | an accepted non-empty rectangle lies within the map's pixel bounds, since out-of-bounds tiles count as solid |
| TileMap.GenerateWalls | src/tilemap.py:70-84 | the nested loops produce the row-major list of walls of the whole map |
| TileMap.RowWallsMember | src/tilemap.py:70-84 | a wall of a row prefix is exactly a tile square on a cell coded 0 of that prefix |
| TileMap.WallsBeforeSound | src/tilemap.py:70-84 | every generated wall stands on an obstacle cell (code 0) |
| TileMap.WallsBeforeComplete | src/tilemap.py:70-84 | every obstacle cell has its wall |
| TileMap.WallsMatchObstacles | src/tilemap.py:64-84 | a cell has a wall iff it is coded 0; a walled cell is not walkable; on a 0/1 map, walkable iff unwalled |
| TileMap.FirstRagged | src/tilemap.py:45-50 | the index found is the first row, from i on, whose length differs from the width |
| TileMap.LoadMap | src/tilemap.py:27-52 | a text cell is an error; no rows of numbers is an error, and the only cause of that error; a row whose length differs from the first is an error naming the first such row; otherwise the map is the blank-free rows, with width and height their dimensions |
| Movement.UnitStepsWalk | src/enemy.py:239-251 | every pixel step taken lands on walkable tiles; stopping early means the next step is blocked; never more than the request |
| Movement.SlideSound | src/enemy.py:228-276 | one axis of the enemy move changes only that coordinate, moves toward the request and no further, takes the whole step when it fits, and lands on walkable tiles when it moves |
| Movement.CreepSound | src/enemy.py:239-251 | the pixel-by-pixel fallback moves toward the request by less than its magnitude and only onto walkable tiles |
| Movement.PlayerSlideSound | src/player.py:75-125 | the player's axis move keeps the other coordinate, never overshoots the request, and takes the full step when the tiles are walkable or the wall list is non-empty and untouched |
| Movement.NoCornerCutting | src/enemy.py:228-276 | when neither axis can take its full step or its first pixel, the X-then-Y move leaves the rectangle where it was |
| Movement.FirstStepBlocksCreep | src/enemy.py:239-251 | when the first pixel toward the request is blocked, the creep does not move |
| Pathfinding.CandidatesAreNeighbours | src/enemy.py:283-287 | vecinos lists exactly the four 4-adjacent cells |
| Pathfinding.PopMin | src/enemy.py:297-298 | heappop takes an entry that is least in Python's tuple order |
| Pathfinding.Reverse | src/enemy.py:299-306 | the reconstructed list is reversed element by element |
| Pathfinding.ManhattanRemaining | src/enemy.py:289-290 | the Manhattan heuristic never exceeds the number of steps left on any path (admissible) |
| Pathfinding.SettledExtend | src/enemy.py:307-313 | relaxing one more neighbour extends the settled prefix of the neighbour list |
| Pathfinding.SettledAll | src/enemy.py:307-313 | once all four candidates are settled, every neighbour of the expanded cell is known one step past its cost |
| Pathfinding.NeighbourSettled | src/enemy.py:307-313 | an open neighbour of a fully expanded cell has a recorded cost of at most one more |
| Pathfinding.FrontierEntry | src/enemy.py:292-313 | along any path to the goal, some open-list entry has an f no larger than that path's length |
| Pathfinding.Universe | src/enemy.py:278-314 | a finite list of cells covers every cell the search can ever record |
| Pathfinding.Start | src/enemy.py:292-295 | the search's initial tables and open list satisfy the loop invariant |
| Pathfinding.StartTables | src/enemy.py:292-295 | the initial gscore/came_from/open list form a valid tree, heap and frontier |
| Pathfinding.PopKeeps | src/enemy.py:297-299 | popping a non-goal entry leaves the state the neighbour loop needs |
| Pathfinding.RelaxKeeps | src/enemy.py:307-313 | an improving relaxation keeps the neighbour-loop invariant and strictly lowers the termination measure |
| Pathfinding.RelaxLowersPot | src/enemy.py:307-313 | lowering or adding a cost strictly lowers the termination measure |
| Pathfinding.RelaxKeepsTree | src/enemy.py:307-313 | recording the new parent keeps came_from a tree of unit steps rooted at start, consistent with gscore |
| Pathfinding.RelaxKeepsHeap | src/enemy.py:307-313 | pushing (f, g, nb) keeps every open-list entry consistent with gscore |
| Pathfinding.RelaxKeepsExpanded | src/enemy.py:307-313 | lowering a cost keeps the record of expanded cells valid |
| Pathfinding.RelaxKeepsWaiting | src/enemy.py:307-313 | every improved cell still has its entry waiting in the open list |
| Pathfinding.CloseNode | src/enemy.py:297-313 | after all neighbours of the popped cell are relaxed, the main-loop invariant holds again |
| Pathfinding.GoalCostOptimal | src/enemy.py:297-299 | when the goal is popped as a least entry, its cost is at most the length of every path to it |
| Pathfinding.NoPathLeft | src/enemy.py:297-314 | when the open list is exhausted without reaching the goal, no path exists |
| Pathfinding.AStar | src/enemy.py:278-314 | the result is a shortest walk of 4-adjacent open cells from start to goal, or empty exactly when no such walk exists; a_star(s, s) is [s] |
| Pathfinding.Finish | src/enemy.py:299-306 | the rebuilt path is a walk from start to goal no longer than any other |
| Pathfinding.Expand | src/enemy.py:297-313 | one non-goal iteration keeps the invariant and lowers the termination measure, or leaves the tables alone and shrinks the open list |
| Pathfinding.RelaxNeighbours | src/enemy.py:307-313 | after the neighbour loop every neighbour is settled, no open entry is lost and the measure drops unless nothing changed |
| Pathfinding.Relax | src/enemy.py:307-313 | a neighbour is improved iff it is open and unknown or reachable more cheaply; then gscore, came_from and the open list are updated, else nothing changes |
| Pathfinding.RelaxStep | src/enemy.py:307-313 | one relaxation keeps the neighbour-loop invariant, settles that neighbour, and never raises a cost |
| Pathfinding.Rebuild | src/enemy.py:299-306 | following came_from from the goal gives a walk from start to goal of at most its recorded cost plus one cells |
| Enemies.FacingFor | src/enemy.py:453-459 | a zero vector keeps the facing; otherwise the facing points along the vector, along its larger-magnitude axis |
| Enemies.CentreRoundTrip | src/enemy.py:319-326 | taking the tile under the centre of a sprite centred on a tile gives that tile back |
| Enemies.MoveSound | src/enemy.py:228-276 | the move keeps the size; a zero request on an axis keeps that coordinate; each axis moves toward its request and no further; X takes its full step when the stepped rectangle fits, and Y takes its full step when the rectangle stepped after the X move fits; any move lands on walkable tiles |
| Enemies.NoMapStandsStill | src/enemy.py:383-389 | with the `[[0]]` stand-in map a sprite cannot move at all |
| Enemies.CanMoveRectIsPlayerTest | src/enemy.py:506-514 | _can_move_rect is the player's whole-step test: accepted means the full step, refused means the pixel creep |
| Enemies.Enemy.constructor | src/enemy.py:12-127 | a new enemy patrols from its origin facing down, with no path, no waypoint and the patrol sense +1 |
| Enemies.Enemy.MoveAxis | src/enemy.py:228-276 | one axis of the move takes the full step when its tiles are walkable, or creeps pixel by pixel |
| Enemies.Enemy.TryMove | src/enemy.py:228-276 | the enemy's rectangle is moved by X first, then Y |
| Enemies.Enemy.Aggro | src/enemy.py:345-374 | repaths only with the player in range and the cooldown strictly passed; the path is A*'s, or empty when an end tile is unwalkable; the state becomes chasing only for a non-empty path, and the waypoint is its second (or only) tile's centre |
| Enemies.Enemy.Patrol | src/enemy.py:377-391 | the patrol moves along its axis and reverses its sense once the distance from the origin reaches distancia |
| Enemies.MoveToward | src/enemy.py:228-276 | a step that heads toward a target (zero where the offset is zero, the offset's sign, at most the limit) still heads toward it after the tiles cut it short |
| Enemies.Enemy.Chase | src/enemy.py:393-423 | reaching the waypoint drops the head of the path and aims at the next tile, clearing path and waypoint at the end; otherwise it moves by the rounded steering step toward the waypoint, or toward the player when there is no path, and falls back to returning; the actual displacement heads toward the waypoint or player (away for a negative speed), by at most the speed on each axis |
| Enemies.Enemy.ReturnHome | src/enemy.py:425-432 | more than one pixel from the origin it moves by the steering step toward the origin; within one pixel it switches to patrolling; the displacement heads toward the origin (away for a negative speed), by at most the speed on each axis |
| Enemies.Enemy.Behave | src/enemy.py:377-432 | each state does its own step: patrol (or stand still without a map), chase or return by the steering step toward the waypoint, player or origin, or nothing when idle; any move lands on walkable tiles |
| Enemies.Enemy.Face | src/enemy.py:442-459 | the facing follows the vector toward the waypoint (or the path), and only the facing changes |
| Enemies.Enemy.Update | src/enemy.py:331-474 | one frame keeps the enemy's invariant; any move lands on walkable tiles of the given map, and without a map the enemy does not move |
| Players.NewDirection | src/player.py:128-143 | not moving keeps the direction; moving faces along the motion, and any horizontal motion gives left or right (horizontal wins) |
| Players.NextFrame | src/player.py:145-153 | the next frame index is the following one, wrapping to 0 after the last, always below the frame count |
| Players.WalkedKeepsSize | src/player.py:75-125 | moving on both axes keeps the rectangle's size |
| Players.Clamp | src/player.py:172-175 | the clamped rectangle keeps its size, stays left of and above the screen's far edges, starts at or after 0 when it fits, and is unchanged when already on screen |
| Players.ClampIdempotent | src/player.py:172-175 | clamping a clamped rectangle changes nothing |
| Players.Player.constructor | src/player.py:11-73 | a new player stands idle facing down with 3 lives, no coins, zero lomito and empanada, and its spawn point at its start |
| Players.Player.MoveAxis | src/player.py:75-125 | intentar_mover_x / _y: the player's rectangle becomes the player's slide on that axis and nothing else changes |
| Players.Player.CreepAxis | src/player.py:89-99 | the one-pixel loop leaves the rectangle where the creep puts it |
| Players.Player.SetStateDirection | src/player.py:128-143 | walking iff moving, direction by NewDirection; the frame index restarts exactly when state or direction changes |
| Players.Player.AdvanceFrame | src/player.py:145-153 | once the frame delay has passed (and there are frames) the index moves to NextFrame and the time is recorded; otherwise nothing changes |
| Players.Player.MoveBoth | src/player.py:165-166 | the rectangle is walked X first, then Y, keeping the invariant |
| Players.Player.ClampToScreen | src/player.py:172-175 | after the clamps the rectangle lies within [0, WIDTH] x [0, HEIGHT] |
| Players.Player.Update | src/player.py:156-187 | LEFT beats RIGHT and UP beats DOWN; the rectangle ends on screen or, after touching an enemy, at the spawn point with exactly one life fewer; game over iff no lives are left; the animation restarts on a change of state or direction and otherwise advances one frame once the frame delay has passed |
| Players.Player.AddItem | src/player.py:189-193 | the item's count becomes old + amount (amount when absent); other entries are unchanged |
| Snapping.Jugador.constructor | src/test.py:35-40 | a 30 x 30 square with speed 5 |
| Snapping.Jugador.SnapAxis | src/test.py:54-63 | one loop over the walls applies each wall's snap in group order |
| Snapping.Jugador.Update | src/test.py:42-63 | the X displacement is applied and snapped before the Y displacement |
| Snapping.SnapOneFlush | src/test.py:54-63 | after a snap against a wall the sprite is flush with the wall's near edge on the moving axis |
| Snapping.NoMotionNoSnap | src/test.py:56-63 | with no motion on an axis there is no correction, even inside a wall |
| Snapping.SnapBacksOff | src/test.py:54-63 | the corrections only push back against the motion and keep the other coordinate |
| Snapping.VerticalKeepsX | src/test.py:59-63 | the vertical phase never changes x |
| Snapping.KeyRulesDiffer | src/test.py:43-51 | the two players read the keys differently exactly when two opposite keys are held (later assignment wins here, first test wins in player.py) |
| CharWalls.LoadWalls | src/wall.py:11-18 | the nested loops produce the walls of the map strings row by row |
| CharWalls.LineWallsCount | src/wall.py:13-17 | a line gives exactly as many walls as it has '#' characters |
| CharWalls.MapWallsCount | src/test.py:80-87 | a map gives exactly one wall per '#' |
| CharWalls.LineWallsMember | src/wall.py:14-16 | a wall of a line is a tile-sized square at (col * TILE, row * TILE) of a '#' of that line, and every '#' has one |
| CharWalls.MapWallsMember | src/test.py:82-86 | the walls are exactly the TILE squares at (col * TILE, row * TILE) of the '#' characters; other characters give none |
| Spawning.MaxCorner | src/spawnfunc.py:20-25 | the largest corner drawn lets the sprite end at the map's far edge, or is 0 when the sprite is larger than the map |
| Spawning.SpawnOnPath | src/spawnfunc.py:8-31 | an empty map is an error; a found corner lies in [0, max(0, w*TILE - size)] on each axis and covers only walkable tiles; failure comes after exactly max_attempts draws |
| Spawning.SpawnInsideMap | src/spawnfunc.py:26-30 | a spawned sprite lies inside the map and every pixel of it is on a walkable tile |
| Pickups.Coin.constructor | src/coin.py:4-8 | a live coin with the given rectangle |
| Pickups.Coin.Update | src/coin.py:10-15 | with a touching player the coin gives exactly one coin and dies; otherwise nothing changes |
| Pickups.Food.constructor | src/food.py:4-8 | live food with the given rectangle and item |
| Pickups.Food.Update | src/food.py:10-14 | with a touching player, one of its item is added and it dies; otherwise nothing changes |
| Pickups.UntouchedMembers | src/coin.py:10-15 | the coins left are exactly those not touched |
| Pickups.UntouchedFoodMembers | src/food.py:10-14 | the food left is exactly the food not touched |
| Pickups.CreditedCounts | src/food.py:13 | each touched piece adds one of its item: the count rises by the number of touched pieces of that item |
| Pickups.UpdateCoins | src/coin.py:10-15 | over a group, a coin dies iff the player touches it, each touched coin pays once, and the survivors are the untouched coins |
| Pickups.UpdateFoods | src/food.py:10-14 | over a group, food dies iff the player touches it, each touched piece is given once, and the survivors are the untouched pieces |
| Delivery.Choice | src/deliveryzone.py:26 | the chosen item is held; it is lomito when any is held, else empanada |
| Delivery.Handed | src/deliveryzone.py:29-33 | a finished delivery takes one of the item when its count is positive, and changes nothing else |
| Delivery.HandedKeepsCounts | src/deliveryzone.py:29-33 | no count becomes negative in a delivery |
| Delivery.DeliveryZone.constructor | src/deliveryzone.py:5-14 | a new zone is not delivering and has no item |
| Delivery.DeliveryZone.Update | src/deliveryzone.py:16-39 | on the zone with something to deliver the timer starts once and after the delivery time the item is handed; off the zone or empty-handed the delivery resets without touching the inventory |
| GameStates.Navigate | src/game_state.py:35-38 | UP moves up to no lower than 0, DOWN moves down to no higher than 1, other keys keep the selection; 0..1 is kept |
| GameStates.NavigateStaysInRange | src/game_state.py:35-38 | whatever keys are pressed, the selection stays 0 or 1 |
| GameStates.GameStateManager.constructor | src/game_state.py:13-19 | the game starts in the menu with the first entry selected |
| GameStates.GameStateManager.HandleMenuInput | src/game_state.py:32-51 | non-key events do nothing; UP/DOWN only navigate; Enter/Space start (entry 0) or quit (entry 1); W/A/S/D/LEFT/RIGHT start the game |
| GameStates.GameStateManager.HandleGameOverInput | src/game_state.py:53-73 | non-key events do nothing; R restarts; Q quits; Enter on entry 0 restarts and on entry 1 returns to the menu with the selection reset |
| GameStates.GameStateManager.SetState | src/game_state.py:148-151 | any state, with the selection reset to 0 |
| GameStates.GameStateManager.TriggerGameOver | src/game_state.py:153-156 | the game-over screen, with the selection reset to 0 |
| Items.Added | src/games_systems/inventory.py:61-71 | the item's count becomes old + amount (amount when absent); other items keep their presence and counts |
| Items.Removed | src/games_systems/inventory.py:89-98 | a removable item's count drops by exactly amount and stays non-negative; the keys and the other counts stay |
| Items.AddedThenRemoved | src/games_systems/inventory.py:49-102 | removing what was just added is allowed and restores the counts |
| Carriers.Carrier.constructor | src/games_systems/food_system.py:81-90 | a player as the systems probe it: its inventory, coin and coins attributes if present, and whether it has add_item |
| InventorySystem.Merged | src/games_systems/inventory.py:41-47 | the merged inventory has the old keys and the chosen default keys; old counts are kept; missing keys get the default |
| InventorySystem.MergedUnique | src/games_systems/inventory.py:41-47 | any inventory with those keys and counts is the merged one |
| InventorySystem.Initialized | src/games_systems/inventory.py:34-47 | without an inventory the defaults are copied; otherwise only the missing default keys are added and existing counts are untouched |
| InventorySystem.InitializedIdempotent | src/games_systems/inventory.py:34-47 | initializing twice is the same as once |
| InventorySystem.InitializedNonNegative | src/games_systems/inventory.py:34-47 | non-negative defaults and counts stay non-negative |
| InventorySystem.Cleared | src/games_systems/inventory.py:163-166 | every key is kept and every count is zero |
| InventorySystem.AddMissing | src/games_systems/inventory.py:45-47 | the loop adds exactly the missing defaults and keeps every existing count |
| InventorySystem.InventoryManager.constructor | src/games_systems/inventory.py:17-32 | the defaults are the given items unless absent or empty, else the seven dishes at zero |
| InventorySystem.InventoryManager.Initialize | src/games_systems/inventory.py:34-47 | the player's inventory becomes its initialized form |
| InventorySystem.InventoryManager.AddItem | src/games_systems/inventory.py:49-75 | always succeeds; the item's count rises by amount in the initialized inventory |
| InventorySystem.InventoryManager.RemoveItem | src/games_systems/inventory.py:77-102 | succeeds iff the item has an entry holding at least amount, then debits exactly amount; otherwise the initialized inventory is unchanged |
| InventorySystem.InventoryManager.HasItem | src/games_systems/inventory.py:104-120 | true iff the count (0 when absent) is at least amount |
| InventorySystem.InventoryManager.GetItemCount | src/games_systems/inventory.py:122-137 | the count, 0 when absent, and the stored count when present |
| InventorySystem.InventoryManager.Summary | src/games_systems/inventory.py:139-153 | a value copy of the initialized inventory, so later edits of it cannot reach the player |
| InventorySystem.InventoryManager.ClearInventory | src/games_systems/inventory.py:155-168 | every item of the initialized inventory is kept at count zero |
| InventorySystem.InventoryManager.Transfer | src/games_systems/inventory.py:170-191 | fails with nothing debited when the source lacks the amount; otherwise the source drops and the target rises by amount, preserving the combined total |
| Orders.TemplatesWellFormed | src/games_systems/order_system.py:178-186 | every template names each dish once with a positive amount and asks for 2 or 3 dishes in all |
| Orders.DebitedCounts | src/games_systems/order_system.py:101-103 | the debit takes exactly the requested amount of each item and nothing of the others |
| Orders.NeededEntry | src/games_systems/order_system.py:78-80 | in a well-formed request the amount needed of a listed item is its listed amount |
| Orders.NeededAbsent | src/games_systems/order_system.py:78-80 | an unlisted item is not needed |
| Orders.DebitNeverNegative | src/games_systems/order_system.py:101-103 | completing a satisfiable request leaves no count negative and unlisted items unchanged |
| Orders.OrderRequest.constructor | src/games_systems/order_system.py:19-45 | a new order is active, created now, with no completion time |
| Orders.OrderRequest.RemainingTime | src/games_systems/order_system.py:47-54 | never negative; 0 for a finished or overdue order, else the limit minus the elapsed time |
| Orders.OrderRequest.IsExpired | src/games_systems/order_system.py:56-58 | exactly the active orders whose limit has run out |
| Orders.OrderRequest.CompleteOrder | src/games_systems/order_system.py:83-114 | succeeds iff active and satisfiable; then debits exactly the request, pays the reward into coin/coins and completes; otherwise nothing changes |
| Orders.OrderRequest.CanBeCompletedBy | src/games_systems/order_system.py:68-81 | true iff every requested count (0 when absent) is at least the required amount |
| Orders.Debit | src/games_systems/order_system.py:101-103 | the debit loop computes the debited inventory |
| Orders.NeededPrefix | src/games_systems/order_system.py:101-103 | in a well-formed request the entries before an item never name it, so each loop step debits a fresh item |
| Orders.PopAll | src/games_systems/order_system.py:250-251 | popping the ids removes exactly them, keeps every other order, and shrinks the dictionary by their number |
| Orders.CompletablesMembers | src/games_systems/order_system.py:288-294 | the filtered list holds exactly the orders the inventory satisfies, in ascending id order when the input is |
| Orders.OrderSystem.constructor | src/games_systems/order_system.py:155-186 | no orders, next id 1, last generation 0 |
| Orders.OrderSystem.Generate | src/games_systems/order_system.py:188-227 | nothing at capacity or without clients; otherwise a fresh active order with the next id, reward 50 per dish and limit 30000 + 5000 per dish, and the id advances by one |
| Orders.OrderSystem.MarkExpired | src/games_systems/order_system.py:243-248 | exactly the overdue orders are collected, in ascending id order, and marked expired; the others stay active |
| Orders.OrderSystem.RemoveExpired | src/games_systems/order_system.py:250-251 | the collected ids leave the active orders and are counted as expired; the rest are untouched |
| Orders.OrderSystem.GenerationTick | src/games_systems/order_system.py:236-240 | once the interval has passed the clock is reset (even at capacity) and an order is generated when there is room and a client |
| Orders.OrderSystem.Update | src/games_systems/order_system.py:229-252 | the clock is reset when the interval has passed; old orders leave iff overdue, the rest are kept; a new order has the next id and is not overdue; the invariant (ids unique, below the next id, within capacity) is kept |
| Orders.OrderSystem.TryCompleteAtPosition | src/games_systems/order_system.py:254-282 | succeeds iff some active order within tolerance is satisfiable; then exactly one such order (the lowest id) is completed and moved to the completed list; otherwise nothing changes |
| Orders.OrderSystem.CompleteFirst | src/games_systems/order_system.py:267-282 | the loop completes the first completable order in id order and stops |
| Orders.OrderSystem.ActiveBelowMembers | src/games_systems/order_system.py:284-286 | the listing holds each active order below the bound once, stored under its own id, in ascending id order |
| Orders.OrderSystem.GetActiveOrders | src/games_systems/order_system.py:284-286 | the active orders whose status is active, in id order |
| Orders.OrderSystem.GetOrdersForPlayer | src/games_systems/order_system.py:288-294 | the active orders the player's inventory can complete, in id order |
| Orders.OrderSystem.Statistics | src/games_systems/order_system.py:307-315 | the counts add up: every order ever created is active, completed or expired; active never exceeds capacity |
| FoodSystems.Credit | src/games_systems/food_system.py:81-95 | a player with an inventory gets one more of the item; one with add_item gets the call; one with neither gets nothing and the credit reports failure |
| FoodSystems.FoodItem.constructor | src/games_systems/food_system.py:19-64 | a FOOD_SIZE square centred on the given point, not collected |
| FoodSystems.FoodItem.Pickup | src/games_systems/food_system.py:66-99 | succeeds iff not yet collected and the player can receive items; then credits one and is collected; a repeat pickup changes nothing |
| FoodSystems.Tick | src/games_systems/food_system.py:141-158 | a player is timed only while needing the item and on the zone; the item is granted exactly when the give time has passed; other players' timers are untouched |
| FoodSystems.HolderNotGranted | src/games_systems/food_system.py:141-158 | a player already holding the item is never given another |
| FoodSystems.GrantedAtMostOnce | src/games_systems/food_system.py:141-158 | over any run of frames a player gets the item from a zone at most once |
| FoodSystems.FoodZone.constructor | src/games_systems/food_system.py:107-128 | a zone with no timers |
| FoodSystems.FoodZone.Update | src/games_systems/food_system.py:130-170 | the zone's timers and the player's inventory follow Tick, granting one item when due |
| FoodSystems.PickedTypes | src/games_systems/food_system.py:314-318 | a player who cannot receive picks nothing |
| FoodSystems.Kept | src/games_systems/food_system.py:314-318 | every item is either picked or kept; nothing is taken from a player who cannot receive |
| FoodSystems.KeptFrom | src/games_systems/food_system.py:314-318 | the kept items are untouched items of the group, each once |
| FoodSystems.AddedEachCounts | src/games_systems/food_system.py:81-95 | crediting a list of names raises each count by its multiplicity |
| FoodSystems.TallyCounts | src/games_systems/food_system.py:330-336 | each type is counted as often as it occurs, and only occurring types appear |
| FoodSystems.SumRemove | src/games_systems/food_system.py:330-336 | the sum of counts does not depend on the order entries are taken |
| FoodSystems.SumAdded | src/games_systems/food_system.py:330-336 | counting one more item adds one to the sum |
| FoodSystems.TallySum | src/games_systems/food_system.py:330-336 | the counts add up to the number of items |
| FoodSystems.TooClose | src/games_systems/food_system.py:253-258 | true iff some existing item's centre is within MIN_DISTANCE |
| FoodSystems.PickupOne | src/games_systems/food_system.py:314-318 | one round of the pickup loop takes the item iff the player can receive and touches it, crediting it |
| FoodSystems.PickupEach | src/games_systems/food_system.py:314-319 | the loop picks exactly the touched items when the player can receive, credits each, and keeps the rest in order |
| FoodSystems.FoodSystem.constructor | src/games_systems/food_system.py:178-206 | an empty system whose food types are the given ones unless absent or empty |
| FoodSystems.FoodSystem.AddFoodZone | src/games_systems/food_system.py:208-221 | one new zone at the end, with no timers |
| FoodSystems.FoodSystem.SpawnFoodItem | src/games_systems/food_system.py:223-276 | fails at the maximum or without restaurants; a forced position always succeeds below the maximum; a success adds exactly one uncollected item of a known type, centred on the forced point or on a restaurant at least MIN_DISTANCE from every other item |
| FoodSystems.FoodSystem.SpawnTick | src/games_systems/food_system.py:287-291 | spawns only after more than the interval and below the maximum, adding one item and resetting the clock |
| FoodSystems.FoodSystem.UpdateZones | src/games_systems/food_system.py:293-296 | a player is timed in a zone only while overlapping it; other players' timers are untouched |
| FoodSystems.FoodSystem.CheckFoodPickup | src/games_systems/food_system.py:302-319 | the items the player touches are picked and credited, the rest stay in order |
| FoodSystems.FoodSystem.Update | src/games_systems/food_system.py:278-300 | the spawn clock only advances when it spawns; without a player at most one item is added; the player's rectangle and coins are untouched |
| FoodSystems.FoodSystem.GetFoodByType | src/games_systems/food_system.py:330-336 | each type's count is its multiplicity among the items, and the counts sum to the number of items |
| DeliverySystems.Step | src/games_systems/delivery_system.py:82-105 | a zone's frame keeps "activated players have timers" |
| DeliverySystems.StepEvents | src/games_systems/delivery_system.py:82-105 | entering starts a timer at now; activation comes once the time has passed; exiting drops both the timer and the activation |
| DeliverySystems.Visit | src/games_systems/delivery_system.py:79-80 | without a player nothing changes |
| DeliverySystems.ActivatesOncePerStay | src/games_systems/delivery_system.py:85-97 | during one stay the zone activates at most once, never for a player already activated; the timer keeps its start time; an activation happens only at a frame at least the activation time after that start |
| DeliverySystems.DeliveryZone.constructor | src/games_systems/delivery_system.py:18-57 | the id is the given one, or the object's identity for a missing or zero id; no timers, no activations |
| DeliverySystems.DeliveryZone.Save | src/games_systems/delivery_system.py:133-151 | a "save" zone with the save activation time, the save callback and no save yet |
| DeliverySystems.DeliveryZone.Update | src/games_systems/delivery_system.py:72-105 | without a player nothing changes; with one, timers and activations follow Step, and the invariant is kept |
| DeliverySystems.DeliveryZone.ActivationProgress | src/games_systems/delivery_system.py:107-121 | 0 without a timer, never above 1, exactly 1 once the time has passed |
| DeliverySystems.DeliveryZone.IsPlayerActivated | src/games_systems/delivery_system.py:123-125 | true iff the player is activated, and then the player is being timed |
| DeliverySystems.DeliveryZone.HandleSave | src/games_systems/delivery_system.py:153-168 | nothing within the cooldown; otherwise the callback is called and the save time moves to now unless it raises |
| DeliverySystems.DeliveriesBounded | src/games_systems/delivery_system.py:267-283 | a frame delivers at most once per zone, never without an order system, never without an activation |
| DeliverySystems.OfType | src/games_systems/delivery_system.py:308-310 | every zone of the type is kept and only zones of the type; no longer than the input |
| DeliverySystems.OfTypeAppend | src/games_systems/delivery_system.py:308-310 | the filter keeps the zones in their order and with their multiplicity: an appended zone is appended to the result exactly when it has the type |
| DeliverySystems.FirstWithId | src/games_systems/delivery_system.py:301-306 | the first zone with the id, or null iff there is none |
| DeliverySystems.DeliverySystem.constructor | src/games_systems/delivery_system.py:176-200 | no zones and all counters at zero |
| DeliverySystems.DeliverySystem.AddDeliveryZone | src/games_systems/delivery_system.py:202-220 | one new zone with the given geometry, type and callback at the end of the list |
| DeliverySystems.DeliverySystem.AddSaveZone | src/games_systems/delivery_system.py:222-238 | one new save zone listed both as a save zone and as a zone |
| DeliverySystems.DeliverySystem.CreateClientDeliveryZones | src/games_systems/delivery_system.py:240-265 | one client-delivery zone per house, centred on it, with the house id and the client activation time, appended in order |
| DeliverySystems.DeliverySystem.HandleClientDelivery | src/games_systems/delivery_system.py:267-283 | a delivery and an activation are counted together, only with an order system and a delivered order |
| DeliverySystems.DeliverySystem.VisitZone | src/games_systems/delivery_system.py:293-299 | the zone takes its step, and its activation callback counts a delivery or saves |
| DeliverySystems.DeliverySystem.UpdateZones | src/games_systems/delivery_system.py:293-299 | every zone takes its step in order; deliveries and activations rise together by the deliveries of the frame |
| DeliverySystems.DeliverySystem.Update | src/games_systems/delivery_system.py:285-299 | zones step in order and deliveries are counted; with a food system and a player the picked-up items are counted; the player's rectangle is untouched |
| DeliverySystems.DeliverySystem.PickUpFood | src/games_systems/delivery_system.py:296-299 | the picked-up counter rises by the number of items that left the food system |
| DeliverySystems.DeliverySystem.GetZoneById | src/games_systems/delivery_system.py:301-306 | the first zone with the id, or null |
| DeliverySystems.DeliverySystem.GetZonesByType | src/games_systems/delivery_system.py:308-310 | exactly the zones of the type |
| DeliverySystems.DeliverySystem.GetPlayerProgressInZones | src/games_systems/delivery_system.py:312-326 | one entry per non-zero zone id, each the progress in the last zone with that id, never above 1 |
| DeliverySystems.DeliverySystem.ClearAllZones | src/games_systems/delivery_system.py:328-332 | no zones and no save zones are left |
| DeliverySystems.DeliverySystem.Statistics | src/games_systems/delivery_system.py:334-342 | the zone counts and counters, with deliveries equal to activations and both non-negative |
| CsvMapping.ParseRow | src/games_systems/csv_mapper.py:51-58 | a parsed row has one code per cell, a non-integer cell giving 0 |
| CsvMapping.ParsedRowsShape | src/games_systems/csv_mapper.py:49-63 | the matrix has no empty row, at most one row per CSV row, and exactly those rows when none is empty |
| CsvMapping.RowFoundMember | src/games_systems/csv_mapper.py:85-96 | a row's positions are exactly the encodings of its cells holding the code |
| CsvMapping.FoundMember | src/games_systems/csv_mapper.py:72-98 | the positions are exactly the encodings of the cells holding the code |
| CsvMapping.CentreInTile | src/games_systems/csv_mapper.py:89-91 | a tile centre lies in its own tile |
| CsvMapping.FormatNamed | src/games_systems/csv_mapper.py:216-220 | an unknown configuration name falls back to ypane_unified |
| CsvMapping.NamesSelectTheirFormat | src/games_systems/csv_mapper.py:177-199 | each configuration is selected by its own name |
| CsvMapping.WallsNotWalkable | src/games_systems/csv_mapper.py:177-199 | in every configuration no collision code is walkable |
| CsvMapping.ScanRow | src/games_systems/csv_mapper.py:113-123 | one row of the scan appends to each code's list exactly that row's positions; IndexError when the row is shorter than the width |
| CsvMapping.ZoneExtractor.constructor | src/games_systems/csv_mapper.py:18-28 | an empty matrix of size 0 x 0, one matrix row per unit of height |
| CsvMapping.ZoneExtractor.LoadRows | src/games_systems/csv_mapper.py:30-70 | the matrix is the parsed non-empty rows; height is its row count and width its first row's length |
| CsvMapping.ZoneExtractor.ExtractByCode | src/games_systems/csv_mapper.py:72-98 | the cells holding the code, row-major, as tile centres in pixels or as (col, row); IndexError exactly when some row is shorter than the width |
| CsvMapping.ZoneExtractor.ExtractMultiple | src/games_systems/csv_mapper.py:100-125 | one key per requested code, each with the single-code extraction; IndexError exactly when some row is shorter than the width |
| CsvMapping.ZoneExtractor.TileAt | src/games_systems/csv_mapper.py:127-149 | None outside width x height, else the code at the tile of the point; defined whenever the looked-up row is long enough, ragged map or not |
| CsvMapping.FoundThenLookedUp | src/games_systems/csv_mapper.py:72-149 | looking up an extracted position gives back its code |
| CsvMapping.CsvMapper.constructor | src/games_systems/csv_mapper.py:201-227 | the configuration by name with fallback; loaded iff the file could be read, with the extractor loaded from its rows |
| CsvMapping.CsvMapper.ZonePositions | src/games_systems/csv_mapper.py:229-275 | nothing without a load; otherwise each code's positions, code after code, or IndexError exactly when some row is shorter than the width |
| CsvMapping.CsvMapper.IsPositionWalkable | src/games_systems/csv_mapper.py:277-300 | true without a load, false outside the map, else true iff the code is walkable, restaurant, client house or safe zone; defined whenever the looked-up row is long enough |
| CsvMapping.CsvMapper.CreateCollisionRects | src/games_systems/csv_mapper.py:316-337 | one tile square per collision position, its corner the tile corner; IndexError, passed on from the scan, exactly when a map is loaded and some row is shorter than the width |
| CsvMapping.CollisionRectIsTile | src/games_systems/csv_mapper.py:328-333 | the centre-to-corner step inverts the centre encoding |
| CsvMapping.DetectAsWritten | src/games_systems/csv_mapper.py:353-378 | detect_csv_format as written, including the failure on an empty map |
| CsvMapping.EmptyCsvRaises | src/games_systems/csv_mapper.py:369-375 | a file of blank lines loads to an empty matrix, and detection then takes the maximum of no codes |
| CsvMapping.DetectFormat | src/games_systems/csv_mapper.py:353-378 | ypane_unified on a failed or empty load or with both 963 and 973; else simple iff every code is at most 10, else alexis |

## Left out

- Images, animation surfaces, fonts and every draw method. This includes
  `advance_frame_time`, `set_shared_frames` and the frame loading of the
  enemy's constructor. The player's frame count is a parameter.
- File I/O. `cargar_mapa_csv` and `load_csv` are modelled from the rows
  a reader has already produced, and `CsvMapper` takes those rows as an
  optional parameter. The separator sniffing and the `tmj`/JSON loaders
  are not part of this model.
- Floating point:
  - `Vector2.normalize()` and `length()` in the enemy's chase and return
    steps. The rounded step `round(normalize(target - pos) * velocidad)`
    is a parameter (`steer`), constrained only by what rounding a scaled
    unit vector guarantees (`Enemies.Steering`): zero where the offset is
    zero, otherwise zero or of the offset's sign, and at most the speed
    per axis.
  - `completion_rate` of `OrderSystem.get_statistics`.
  - The progress ratios. These are exact `real`s, with their 0 and 1
    bounds.
- The enemy's animation step at the end of its `update`
  (`src/enemy.py:461-474`). It only picks an image.
- The enemy's separate `pos` vector. Every modelled move is by whole
  pixels, so `pos` and the rectangle's top-left are one integer position.
- `_step_towards`: it reads `self.speed`, which is never set, and it is
  never called.
- `intentar_mover_con_tiles` at `src/enemy.py:141`: it is replaced by the
  definition at line 228, which the model follows.
- The `muros_rects=muros_rects` keyword that the enemy's `update` passes
  on every call of `intentar_mover_con_tiles` (`src/enemy.py:383`, 389,
  412, 419, 430). Only the replaced definition at line 141 accepts it.
  The definition that binds, at line 228, takes `(dx, dy, mapa)`, so as
  written each of these calls raises TypeError. The model calls the
  line-228 behaviour without the keyword, so `update`'s `muros_rects`
  fallback is never used and that TypeError is not modelled.
- `settings.py` defines no `TILE`, yet `src/player.py:6`,
  `src/enemy.py:6`, `src/wall.py:2` and `src/spawnfunc.py:4` import it.
  As written, the player, enemy, wall and spawning modules all stop with
  ImportError before any modelled code runs. The model uses `TileMap.TILE` = 16 for the player's and the
  enemy's moves, because the `rect_a_tiles` they call uses it
  (`src/tilemap.py:6`, 58-62). The enemy's helpers that used `TILE`
  (`src/enemy.py:128-135`) are replaced at lines 319-326 by helpers that
  use `TILE_SIZE`, which the model follows. The tile map's 16 is also
  used for spawning, and the character-map tile size is a parameter.
- `print_statistics`, `get_all_special_zones`, `get_food_count`,
  `clear_all_food`, `print_inventory` and the `create_*` and
  `*_to_player` convenience functions. They print, or only forward to
  modelled operations.
- `DeliveryZone.set_callbacks`. A zone's activation callback is fixed
  when it is created, and the enter and exit callbacks are not modelled
  (the zone reports the event instead). The effect of the save callback
  is not modelled. The model records only that it was called, and
  whether it raised, which is a parameter.
- `OrderSystem.check_delivery`. `_handle_client_delivery`
  (`src/games_systems/delivery_system.py:279`) calls it, but the
  program's own `OrderSystem` (`src/games_systems/order_system.py:150-315`)
  defines no such method. So every client-zone activation with an order
  system attached raises AttributeError. The `delivered` parameter of
  `DeliverySystems.DeliverySystem.HandleClientDelivery` stands for the
  result of that missing method, and the model does not capture the
  AttributeError.
- The `try`/`except` around the enemy's `a_star` call. The model's A*
  cannot fail.
- The rollback branch of `transfer_item`
  (`src/games_systems/inventory.py:188-190`). It follows a failed
  `add_item` on the target, and `add_item` never fails in the model,
  which has no exception path.
- The order of a pygame `Group`. The model iterates a group in insertion
  order.
- `Enemies.Enemy.Update` states only the invariant and where the enemy
  may move. What each state does in the frame is stated by
  `Enemies.Enemy.Aggro`, `Enemies.Enemy.Behave` and `Enemies.Enemy.Face`,
  which `Update` calls in turn.
- `FoodSystems.FoodSystem.UpdateZones` states the timing invariant and
  the effect on other players. It does not state the item granted by
  each zone; each zone's grant is stated by `FoodSystems.FoodZone.Update`
  through `FoodSystems.Tick`.
- `FoodSystems.FoodSystem.Update` states the spawn clock, the item bound
  without a player, and what it leaves untouched. Its zone and pickup
  steps are stated by `FoodSystems.FoodSystem.UpdateZones` and
  `FoodSystems.FoodSystem.CheckFoodPickup`.
- `DeliverySystems.DeliverySystem.PickUpFood` states only the change to
  the counter. What is picked up is stated by
  `FoodSystems.FoodSystem.CheckFoodPickup`.
- CsvMapping.ZoneExtractor.TileAt requires that the looked-up tile, when
  inside width x height, lies within its row. On a ragged CSV whose
  looked-up row is too short the source raises IndexError, and the model
  does not capture that case.
- CsvMapping.CsvMapper.IsPositionWalkable has the same requirement for a
  loaded map, and leaves out the same IndexError.
- Orders.OrderRequest.CompleteOrder requires a player with an inventory,
  as the program's player has (`src/player.py:71`). On an active order
  and a player without one, `complete_order` raises AttributeError; that
  path is not modelled.
- Orders.OrderRequest.CompleteOrder also requires an active order's
  items to be well-formed: each amount positive, as in every template.
  An order built directly with an amount of 0 or less for an item the
  player lacks passes `can_be_completed_by`, and the debit then raises
  KeyError. The program builds orders only from the templates, and that
  KeyError is not modelled.
- Orders.OrderSystem.TryCompleteAtPosition requires a player with an
  inventory. Without one the source returns False when no active order is
  in range and raises AttributeError otherwise; neither path is modelled.
- Orders.OrderSystem.CompleteFirst requires a player with an inventory,
  for the same reason as `TryCompleteAtPosition`, whose loop it is.
- Orders.OrderSystem.GetOrdersForPlayer requires a player with an
  inventory. Without one the source returns an empty list when no order
  is active and raises AttributeError otherwise; neither path is
  modelled.
- At zero lives `player.py` quits pygame and raises `SystemExit`. The
  model sets a `gameOver` flag instead.
- `FoodZone.update` with no player returns at once. The model's `Update`
  takes a player, and `FoodSystem.Update` does not call it without one.

## Findings

| source | as written | input that shows it | evidently intended | confidence | as-written member | corrected member |
|---|---|---|---|---|---|---|
| src/games_systems/csv_mapper.py:375 | `detect_csv_format` takes `max()` of the set of codes in the loaded matrix, even when that set is empty | a CSV file made only of blank lines: `load_csv` succeeds with an empty matrix, and `max()` of the empty set raises ValueError | treat an empty map like a failed load and return "ypane_unified" | not executed | CsvMapping.EmptyCsvRaises | CsvMapping.DetectFormat |

=== FILE: astar.dfy ===
/** A* search over the 4-connected tile grid, as the enemy uses it to chase
    the player: unit step cost, Manhattan distance as the heuristic, an open
    list ordered by (f, g, tile), and a came-from table to rebuild the path. */
module Pathfinding {
  import opened Geometry
  import opened TileMap

  function Manhattan(a: Cell, b: Cell): nat {
    Abs(a.0 - b.0) + Abs(a.1 - b.1)
  }

  predicate Adjacent(a: Cell, b: Cell) {
    Manhattan(a, b) == 1
  }

  /** path is a shortest walk from start to goal, or empty when there is
      no walk at all. */
  ghost predicate ShortestOrNone(m: Grid, path: seq<Cell>, start: Cell, goal: Cell) {
    && (path != [] ==> IsPath(m, path, start, goal) && forall q :: IsPath(m, q, start, goal) ==> |path| <= |q|)
    && (path == [] ==> forall q :: !IsPath(m, q, start, goal))
  }

  /** The four neighbours in the order the search visits them. */
  function Candidates(c: Cell): seq<Cell> {
    [(c.0 + 1, c.1), (c.0 - 1, c.1), (c.0, c.1 + 1), (c.0, c.1 - 1)]
  }

  /** A cell the search may step onto: inside the grid and walkable. */
  predicate Open(m: Grid, c: Cell) {
    0 <= c.1 < |m| && 0 <= c.0 < Width(m) && IsWalkable(m, c.0, c.1)
  }

  /** A walk from start to goal by unit steps onto open cells (the start
      itself need not be open). */
  predicate IsPath(m: Grid, p: seq<Cell>, start: Cell, goal: Cell) {
    |p| >= 1 && p[0] == start && p[|p| - 1] == goal &&
    forall i :: 0 < i < |p| ==> Adjacent(p[i - 1], p[i]) && Open(m, p[i])
  }

  /** The candidate list holds exactly the adjacent cells. */
  lemma {:induction false} CandidatesAreNeighbours(c: Cell, n: Cell)
    ensures Adjacent(c, n) <==> n in Candidates(c)
  {
  }

  /** An open-list entry (f, g, tile). */
  datatype Entry = Entry(f: int, g: int, node: Cell)

  /** Python's tuple order on (f, g, (x, y)). */
  predicate EntryLe(a: Entry, b: Entry) {
    a.f < b.f || (a.f == b.f && (a.g < b.g || (a.g == b.g &&
      (a.node.0 < b.node.0 || (a.node.0 == b.node.0 && a.node.1 <= b.node.1)))))
  }

  /** heappop: the position of a least entry of the open list. */
  method PopMin(heap: seq<Entry>) returns (i: nat)
    requires heap != []
    ensures i < |heap| && forall j :: 0 <= j < |heap| ==> EntryLe(heap[i], heap[j])
  {
    i := 0;
    for k := 1 to |heap|
      invariant i < k && forall j :: 0 <= j < k ==> EntryLe(heap[i], heap[j])
    {
      if !EntryLe(heap[i], heap[k]) {
        i := k;
      }
    }
  }

  function Reverse<T>(s: seq<T>): (r: seq<T>)
    ensures |r| == |s| && forall i :: 0 <= i < |s| ==> r[i] == s[|s| - 1 - i]
  {
    if s == [] then [] else [s[|s| - 1]] + Reverse(s[..|s| - 1])
  }

  // ------------------------------------------------------------ invariants

  /** The came-from table is a tree rooted at start whose edges join
      adjacent cells, enter open cells and increase the recorded cost. */
  ghost predicate Tree(m: Grid, start: Cell, G: map<Cell, int>, C: map<Cell, Option<Cell>>) {
    && start in G && G[start] == 0 && C.Keys == G.Keys && C[start] == None
    && (forall n :: n in G ==> 0 <= G[n] < |G|)
    && (forall n {:trigger C[n]} :: n in C && n != start ==>
          C[n].Some? && C[n].value in G && Adjacent(C[n].value, n) && Open(m, n) && G[C[n].value] < G[n])
  }

  /** An open-list entry agrees with the cost table. */
  ghost predicate EntryOk(goal: Cell, G: map<Cell, int>, e: Entry) {
    e.node in G && G[e.node] <= e.g < |G| && e.f == e.g + Manhattan(e.node, goal)
  }

  ghost predicate HeapOk(goal: Cell, G: map<Cell, int>, H: seq<Entry>) {
    forall e :: e in H ==> EntryOk(goal, G, e)
  }

  /** The entry that would be pushed for n at its current cost. */
  function Pending(n: Cell, G: map<Cell, int>, goal: Cell): Entry
    requires n in G
  {
    Entry(G[n] + Manhattan(n, goal), G[n], n)
  }

  /** An open cell c is known with cost at most d + 1. */
  ghost predicate Settled(m: Grid, G: map<Cell, int>, c: Cell, d: int) {
    Open(m, c) ==> c in G && G[c] <= d + 1
  }

  /** Costs only ever go down, and no cell is forgotten. */
  ghost predicate NoWorse(G: map<Cell, int>, G': map<Cell, int>) {
    forall c :: c in G ==> c in G' && G'[c] <= G[c]
  }

  /** The first k candidates are settled. */
  ghost predicate SettledPrefix(m: Grid, G: map<Cell, int>, cs: seq<Cell>, k: int, d: int) {
    forall j :: 0 <= j < k && j < |cs| ==> Settled(m, G, cs[j], d)
  }

  lemma {:induction false} SettledExtend(m: Grid, G: map<Cell, int>, G': map<Cell, int>, cs: seq<Cell>, k: nat, d: int)
    requires k < |cs| && NoWorse(G, G') && SettledPrefix(m, G, cs, k, d) && Settled(m, G', cs[k], d)
    ensures SettledPrefix(m, G', cs, k + 1, d)
  {
  }

  lemma {:induction false} SettledAll(m: Grid, G: map<Cell, int>, c: Cell, d: int)
    requires SettledPrefix(m, G, Candidates(c), 4, d)
    ensures NeighboursDone(m, G, c, d)
  {
    assert Settled(m, G, Candidates(c)[0], d) && Settled(m, G, Candidates(c)[1], d);
    assert Settled(m, G, Candidates(c)[2], d) && Settled(m, G, Candidates(c)[3], d);
  }

  /** Every neighbour of n is known at most one step past d. */
  ghost predicate NeighboursDone(m: Grid, G: map<Cell, int>, n: Cell, d: int) {
    && Settled(m, G, (n.0 + 1, n.1), d) && Settled(m, G, (n.0 - 1, n.1), d)
    && Settled(m, G, (n.0, n.1 + 1), d) && Settled(m, G, (n.0, n.1 - 1), d)
  }

  /** A known cell has been expanded at its best cost, or its best cost
      waits in the open list. */
  ghost predicate Waiting(goal: Cell, G: map<Cell, int>, H: seq<Entry>, E: map<Cell, int>, n: Cell)
    requires n in G
  {
    (n in E && E[n] <= G[n]) || Pending(n, G, goal) in H
  }

  /** E records, for each expanded cell, the least cost it was expanded
      with; the goal has not been expanded; expanded cells have their
      neighbours settled. */
  ghost predicate Expanded(m: Grid, goal: Cell, G: map<Cell, int>, E: map<Cell, int>) {
    goal !in E && forall n :: n in E ==> NeighboursDone(m, G, n, E[n])
  }

  /** The frontier property, for every known cell except `skip`. */
  ghost predicate WaitingBut(goal: Cell, G: map<Cell, int>, H: seq<Entry>, E: map<Cell, int>, skip: Cell) {
    forall n :: n in G && n != skip ==> Waiting(goal, G, H, E, n)
  }

  ghost predicate AllWaiting(goal: Cell, G: map<Cell, int>, H: seq<Entry>, E: map<Cell, int>) {
    forall n :: n in G ==> Waiting(goal, G, H, E, n)
  }

  /** u lists every cell the search can reach. */
  ghost predicate Covers(m: Grid, u: seq<Cell>) {
    forall c {:trigger Open(m, c)} :: Open(m, c) ==> c in u
  }

  ghost predicate Within(G: map<Cell, int>, u: seq<Cell>) {
    forall c :: c in G ==> c in u
  }

  /** Everything the main loop keeps: the tree, the open list, the frontier
      and the facts the termination argument needs. */
  ghost predicate SearchInv(m: Grid, start: Cell, goal: Cell, G: map<Cell, int>, C: map<Cell, Option<Cell>>,
                            H: seq<Entry>, E: map<Cell, int>, u: seq<Cell>) {
    && Tree(m, start, G, C) && HeapOk(goal, G, H) && Expanded(m, goal, G, E) && AllWaiting(goal, G, H, E)
    && Covers(m, u) && Within(G, u) && PotSum(G, u, |u| + 1) >= 0
  }

  /** What the neighbour loop keeps while `current` is being expanded. */
  ghost predicate Relaxing(m: Grid, start: Cell, goal: Cell, current: Cell, g: int, G: map<Cell, int>,
                           C: map<Cell, Option<Cell>>, H: seq<Entry>, E: map<Cell, int>, u: seq<Cell>) {
    && Tree(m, start, G, C) && HeapOk(goal, G, H) && Expanded(m, goal, G, E) && WaitingBut(goal, G, H, E, current)
    && Covers(m, u) && Within(G, u)
    && current != goal && current in G && G[current] <= g < |G|
  }

  // -------------------------------------------------------------- lemmas

  lemma {:induction false} AdjacentCases(a: Cell, b: Cell)
    requires Adjacent(a, b)
    ensures b == (a.0 + 1, a.1) || b == (a.0 - 1, a.1) || b == (a.0, a.1 + 1) || b == (a.0, a.1 - 1)
  {
  }

  /** An open neighbour of a cell whose neighbours are done is known. */
  lemma {:induction false} NeighbourSettled(m: Grid, G: map<Cell, int>, a: Cell, b: Cell, d: int)
    requires NeighboursDone(m, G, a, d) && Adjacent(a, b) && Open(m, b)
    ensures b in G && G[b] <= d + 1
  {
    AdjacentCases(a, b);
  }

  lemma {:induction false} ManhattanRemaining(m: Grid, q: seq<Cell>, start: Cell, goal: Cell, i: nat)
    requires IsPath(m, q, start, goal) && i < |q|
    ensures Manhattan(q[i], goal) <= |q| - 1 - i
    decreases |q| - i
  {
    if i < |q| - 1 {
      ManhattanRemaining(m, q, start, goal, i + 1);
    }
  }

  /** Along any path some cell sits in the open list with an f no larger
      than the path's length in steps: the first cell that has not been
      expanded at its cost along the path. */
  lemma {:induction false} FrontierEntry(m: Grid, start: Cell, goal: Cell, G: map<Cell, int>, C: map<Cell, Option<Cell>>,
                                         H: seq<Entry>, E: map<Cell, int>, q: seq<Cell>, i: nat)
    requires Tree(m, start, G, C) && Expanded(m, goal, G, E) && AllWaiting(goal, G, H, E)
    requires IsPath(m, q, start, goal) && i < |q|
    requires forall j :: 0 <= j < i ==> q[j] in E && E[q[j]] <= j
    ensures exists e :: e in H && e.f <= |q| - 1
    decreases |q| - i
  {
    var n := q[i];
    if i > 0 {
      var p := q[i - 1];
      assert Adjacent(p, n) && Open(m, n);
      assert p in E && E[p] <= i - 1;
      NeighbourSettled(m, G, p, n, E[p]);
    }
    assert n in G && G[n] <= i;
    assert Waiting(goal, G, H, E, n);
    if n in E && E[n] <= i {
      FrontierEntry(m, start, goal, G, C, H, E, q, i + 1);
    } else {
      ManhattanRemaining(m, q, start, goal, i);
      assert Pending(n, G, goal) in H;
    }
  }

  ghost function Pot(G: map<Cell, int>, c: Cell, big: int): int {
    if c in G then G[c] else big
  }

  /** Termination measure: the sum over the universe of cells of the known
      cost, or of a bound exceeding every cost for cells not reached yet. */
  ghost function PotSum(G: map<Cell, int>, u: seq<Cell>, big: int): int {
    if u == [] then 0 else Pot(G, u[0], big) + PotSum(G, u[1..], big)
  }

  lemma {:induction false} PotSumNonneg(G: map<Cell, int>, u: seq<Cell>, big: int)
    requires big >= 0 && forall n :: n in G ==> G[n] >= 0
    ensures PotSum(G, u, big) >= 0
  {
    if u != [] {
      PotSumNonneg(G, u[1..], big);
    }
  }

  lemma {:induction false} PotSumDrop(G: map<Cell, int>, c: Cell, t: int, u: seq<Cell>, big: int)
    requires t < Pot(G, c, big)
    ensures PotSum(G[c := t], u, big) <= PotSum(G, u, big)
    ensures c in u ==> PotSum(G[c := t], u, big) < PotSum(G, u, big)
  {
    if u != [] {
      PotSumDrop(G, c, t, u[1..], big);
    }
  }

  lemma {:induction false} CardWithin(s: set<Cell>, u: seq<Cell>)
    requires forall c :: c in s ==> c in u
    ensures |s| <= |u|
  {
    if u != [] {
      var s' := s - {u[0]};
      CardWithin(s', u[1..]);
      assert s <= s' + {u[0]};
    } else {
      assert s == {};
    }
  }

  /** A finite list of all cells the search can ever record: the open cells
      of the grid and the start. */
  lemma {:induction false} Universe(m: Grid, start: Cell) returns (u: seq<Cell>)
    ensures start in u && Covers(m, u)
  {
    u := Rows(0, Width(m) - 1, 0, |m| - 1) + [start];
    forall c | Open(m, c) ensures c in u {
      RowsMember(0, Width(m) - 1, 0, |m| - 1, c);
    }
  }

  /** The state a_star starts from satisfies the loop invariant. */
  lemma {:induction false} Start(m: Grid, start: Cell, goal: Cell, u: seq<Cell>)
    requires start in u && Covers(m, u)
    ensures SearchInv(m, start, goal, map[start := 0], map[start := None],
                      [Entry(0 + Manhattan(start, goal), 0, start)], map[], u)
  {
    var G := map[start := 0];
    StartTables(m, start, goal, G, map[start := None], [Entry(0 + Manhattan(start, goal), 0, start)]);
    PotSumNonneg(G, u, |u| + 1);
  }

  lemma {:induction false} StartTables(m: Grid, start: Cell, goal: Cell, G: map<Cell, int>,
                                       C: map<Cell, Option<Cell>>, H: seq<Entry>)
    requires G == map[start := 0] && C == map[start := None] && H == [Entry(0 + Manhattan(start, goal), 0, start)]
    ensures Tree(m, start, G, C) && HeapOk(goal, G, H) && Expanded(m, goal, G, map[]) && AllWaiting(goal, G, H, map[])
    ensures forall n :: n in G ==> n == start && G[n] >= 0
  {
    assert G.Keys == {start} && |G| == 1;
    assert HeapOk(goal, G, H) by {
      assert forall e :: e in H ==> e == H[0];
    }
    assert AllWaiting(goal, G, H, map[]) by {
      assert Pending(start, G, goal) == H[0];
    }
  }

  /** Taking entry i off the open list keeps every other entry. */
  lemma {:induction false} PopKeeps(m: Grid, start: Cell, goal: Cell, G: map<Cell, int>, C: map<Cell, Option<Cell>>,
                                    H: seq<Entry>, E: map<Cell, int>, i: nat, H': seq<Entry>, u: seq<Cell>)
    requires SearchInv(m, start, goal, G, C, H, E, u)
    requires i < |H| && H[i].node != goal && H' == H[..i] + H[i + 1..]
    ensures Relaxing(m, start, goal, H[i].node, H[i].g, G, C, H', E, u) && |H'| == |H| - 1
    ensures var n := H[i].node;
      (n !in E || G[n] < E[n]) && G[n] != H[i].g ==> Pending(n, G, goal) in H'
  {
    RemoveAt(H, i, H');
    assert H[i] in H && EntryOk(goal, G, H[i]);
    var n := H[i].node;
    forall x | x in H' ensures EntryOk(goal, G, x) {
      assert x in H;
    }
    forall c | c in G && c != n ensures Waiting(goal, G, H', E, c) {
      assert Waiting(goal, G, H, E, c);
    }
    assert Waiting(goal, G, H, E, n);
  }

  lemma {:induction false} RemoveAt<T>(s: seq<T>, i: nat, s': seq<T>)
    requires i < |s| && s' == s[..i] + s[i + 1..]
    ensures |s'| == |s| - 1
    ensures forall x :: x in s' ==> x in s
    ensures forall x :: x in s && x != s[i] ==> x in s'
  {
    forall x | x in s && x != s[i] ensures x in s' {
      var j :| 0 <= j < |s| && s[j] == x;
      if j < i { assert s'[j] == x; } else { assert s'[j - 1] == x; }
    }
  }

  lemma {:induction false} RelaxKeeps(m: Grid, start: Cell, goal: Cell, current: Cell, g: int, nb: Cell,
                                      G: map<Cell, int>, C: map<Cell, Option<Cell>>, H: seq<Entry>, E: map<Cell, int>,
                                      G': map<Cell, int>, C': map<Cell, Option<Cell>>, H': seq<Entry>, u: seq<Cell>)
    requires Relaxing(m, start, goal, current, g, G, C, H, E, u)
    requires Adjacent(current, nb) && Open(m, nb)
    requires nb !in G || g + 1 < G[nb]
    requires G' == G[nb := g + 1] && C' == C[nb := Some(current)]
    requires H' == H + [Entry(g + 1 + Manhattan(nb, goal), g + 1, nb)]
    ensures Relaxing(m, start, goal, current, g, G', C', H', E, u)
    ensures PotSum(G', u, |u| + 1) < PotSum(G, u, |u| + 1)
  {
    assert current != nb && G'[current] == G[current];
    assert nb in G ==> G[nb] < |G|;
    assert |G'| == if nb in G then |G| else |G| + 1;
    RelaxKeepsTree(m, start, current, g, nb, G, C, G', C');
    RelaxKeepsHeap(goal, g, nb, G, H, G', H');
    RelaxKeepsExpanded(m, goal, g, nb, G, E, G');
    RelaxKeepsWaiting(goal, current, g, nb, G, H, E, G', H');
    RelaxLowersPot(m, G, nb, g + 1, u);
  }

  lemma {:induction false} RelaxLowersPot(m: Grid, G: map<Cell, int>, nb: Cell, t: int, u: seq<Cell>)
    requires Covers(m, u) && Within(G, u)
    requires Open(m, nb) && (nb in G ==> t < G[nb]) && (nb !in G ==> t <= |G|)
    ensures Within(G[nb := t], u) && PotSum(G[nb := t], u, |u| + 1) < PotSum(G, u, |u| + 1)
  {
    CardWithin(G.Keys, u);
    PotSumDrop(G, nb, t, u, |u| + 1);
  }

  lemma {:induction false} RelaxKeepsTree(m: Grid, start: Cell, current: Cell, g: int, nb: Cell,
                                          G: map<Cell, int>, C: map<Cell, Option<Cell>>,
                                          G': map<Cell, int>, C': map<Cell, Option<Cell>>)
    requires Tree(m, start, G, C)
    requires current in G && G[current] <= g < |G| && Adjacent(current, nb) && Open(m, nb)
    requires nb !in G || g + 1 < G[nb] < |G|
    requires G' == G[nb := g + 1] && C' == C[nb := Some(current)]
    ensures Tree(m, start, G', C')
  {
    assert |G'| == if nb in G then |G| else |G| + 1;
  }

  lemma {:induction false} RelaxKeepsHeap(goal: Cell, g: int, nb: Cell, G: map<Cell, int>, H: seq<Entry>,
                                          G': map<Cell, int>, H': seq<Entry>)
    requires HeapOk(goal, G, H) && g < |G|
    requires nb !in G || g + 1 < G[nb] < |G|
    requires G' == G[nb := g + 1] && H' == H + [Entry(g + 1 + Manhattan(nb, goal), g + 1, nb)]
    ensures HeapOk(goal, G', H')
  {
    assert |G'| == if nb in G then |G| else |G| + 1;
    forall x | x in H' ensures EntryOk(goal, G', x) {
      if x != H'[|H'| - 1] {
        assert x in H && EntryOk(goal, G, x);
      }
    }
  }

  lemma {:induction false} RelaxKeepsExpanded(m: Grid, goal: Cell, g: int, nb: Cell, G: map<Cell, int>, E: map<Cell, int>,
                                              G': map<Cell, int>)
    requires Expanded(m, goal, G, E)
    requires nb !in G || g + 1 < G[nb]
    requires G' == G[nb := g + 1]
    ensures Expanded(m, goal, G', E)
  {
    forall n | n in E ensures NeighboursDone(m, G', n, E[n]) {
      assert NeighboursDone(m, G, n, E[n]);
    }
  }

  lemma {:induction false} RelaxKeepsWaiting(goal: Cell, current: Cell, g: int, nb: Cell,
                                             G: map<Cell, int>, H: seq<Entry>, E: map<Cell, int>,
                                             G': map<Cell, int>, H': seq<Entry>)
    requires WaitingBut(goal, G, H, E, current)
    requires nb !in G || g + 1 < G[nb]
    requires G' == G[nb := g + 1] && H' == H + [Entry(g + 1 + Manhattan(nb, goal), g + 1, nb)]
    ensures WaitingBut(goal, G', H', E, current)
  {
    forall n | n in G' && n != current ensures Waiting(goal, G', H', E, n) {
      if n != nb {
        assert Waiting(goal, G, H, E, n);
        assert Pending(n, G, goal) == Pending(n, G', goal);
      } else {
        assert H'[|H'| - 1] == Pending(n, G', goal);
      }
    }
  }

  /** After all four neighbours of `current` have been relaxed, recording
      `current` as expanded at cost g restores the loop invariant. */
  lemma {:induction false} CloseNode(m: Grid, start: Cell, goal: Cell, G: map<Cell, int>, C: map<Cell, Option<Cell>>,
                                     H: seq<Entry>, E: map<Cell, int>, current: Cell, g: int, u: seq<Cell>,
                                     pe: Entry, curPending: bool, E': map<Cell, int>)
    requires Relaxing(m, start, goal, current, g, G, C, H, E, u)
    requires NeighboursDone(m, G, current, g)
    requires curPending == ((current !in E || G[current] < E[current]) && G[current] != g)
    requires pe == Pending(current, G, goal) && (curPending ==> pe in H)
    requires E' == E[current := if current in E && E[current] <= g then E[current] else g]
    ensures SearchInv(m, start, goal, G, C, H, E', u)
  {
    forall n | n in E' ensures NeighboursDone(m, G, n, E'[n]) {
      if n != current {
        assert NeighboursDone(m, G, n, E[n]);
      } else if current in E && E[current] <= g {
        assert NeighboursDone(m, G, n, E[n]);
      }
    }
    forall n | n in G ensures Waiting(goal, G, H, E', n) {
      if n != current {
        assert Waiting(goal, G, H, E, n);
      }
    }
    PotSumNonneg(G, u, |u| + 1);
  }

  /** When the goal comes off the open list its recorded cost is no more
      than the number of steps of any path. */
  lemma {:induction false} GoalCostOptimal(m: Grid, start: Cell, goal: Cell, G: map<Cell, int>, C: map<Cell, Option<Cell>>,
                                           H: seq<Entry>, E: map<Cell, int>, u: seq<Cell>, i: nat)
    requires SearchInv(m, start, goal, G, C, H, E, u)
    requires i < |H| && H[i].node == goal && forall j :: 0 <= j < |H| ==> EntryLe(H[i], H[j])
    ensures goal in G && forall q :: IsPath(m, q, start, goal) ==> G[goal] <= |q| - 1
  {
    assert H[i] in H && EntryOk(goal, G, H[i]);
    forall q | IsPath(m, q, start, goal) ensures G[goal] <= |q| - 1 {
      FrontierEntry(m, start, goal, G, C, H, E, q, 0);
      var e' :| e' in H && e'.f <= |q| - 1;
      var j :| 0 <= j < |H| && H[j] == e';
      assert EntryLe(H[i], H[j]);
    }
  }

  /** With the open list exhausted there is no path at all. */
  lemma {:induction false} NoPathLeft(m: Grid, start: Cell, goal: Cell, G: map<Cell, int>, C: map<Cell, Option<Cell>>,
                                      E: map<Cell, int>, u: seq<Cell>)
    requires SearchInv(m, start, goal, G, C, [], E, u)
    ensures forall q :: !IsPath(m, q, start, goal)
  {
    forall q ensures IsPath(m, q, start, goal) ==> exists e: Entry :: e in [] && e.f <= |q| - 1 {
      if IsPath(m, q, start, goal) {
        FrontierEntry(m, start, goal, G, C, [], E, q, 0);
      }
    }
  }

  // ------------------------------------------------------------ the search

  /** a_star: a shortest walk from start to goal over open cells, or the
      empty list when there is none. */
  method AStar(m: Grid, start: Cell, goal: Cell) returns (path: seq<Cell>)
    ensures ShortestOrNone(m, path, start, goal)
    ensures start == goal ==> path == [start]
  {
    var heap := [Entry(0 + Manhattan(start, goal), 0, start)];
    var cameFrom: map<Cell, Option<Cell>> := map[start := None];
    var gscore: map<Cell, int> := map[start := 0];
    ghost var expanded: map<Cell, int> := map[];
    ghost var u := Universe(m, start);
    Start(m, start, goal, u);
    while heap != []
      invariant SearchInv(m, start, goal, gscore, cameFrom, heap, expanded, u)
      decreases PotSum(gscore, u, |u| + 1), |heap|
    {
      var i := PopMin(heap);
      if heap[i].node == goal {
        path := Finish(m, start, goal, gscore, cameFrom, heap, expanded, u, i);
        return;
      }
      gscore, cameFrom, heap, expanded := Expand(m, start, goal, heap, i, gscore, cameFrom, expanded, u);
    }
    NoPathLeft(m, start, goal, gscore, cameFrom, expanded, u);
    path := [];
  }

  /** The goal has come off the open list: rebuild the path, which is
      as short as any. */
  method Finish(m: Grid, ghost start: Cell, goal: Cell, gscore: map<Cell, int>, cameFrom: map<Cell, Option<Cell>>,
                ghost heap: seq<Entry>, ghost expanded: map<Cell, int>, ghost u: seq<Cell>, ghost i: nat)
    returns (path: seq<Cell>)
    requires SearchInv(m, start, goal, gscore, cameFrom, heap, expanded, u)
    requires i < |heap| && heap[i].node == goal && forall j :: 0 <= j < |heap| ==> EntryLe(heap[i], heap[j])
    ensures path != [] && IsPath(m, path, start, goal)
    ensures forall q :: IsPath(m, q, start, goal) ==> |path| <= |q|
    ensures start == goal ==> path == [start]
  {
    GoalCostOptimal(m, start, goal, gscore, cameFrom, heap, expanded, u, i);
    path := Rebuild(m, start, goal, gscore, cameFrom);
    if start == goal {
      assert IsPath(m, [start], start, goal);
    }
  }

  /** One iteration of the search for a popped entry that is not the goal:
      remove it from the open list and relax its four neighbours. */
  method Expand(m: Grid, ghost start: Cell, goal: Cell, heap: seq<Entry>, i: nat,
                gscore: map<Cell, int>, cameFrom: map<Cell, Option<Cell>>,
                ghost expanded: map<Cell, int>, ghost u: seq<Cell>)
    returns (gscore': map<Cell, int>, cameFrom': map<Cell, Option<Cell>>, heap': seq<Entry>, ghost expanded': map<Cell, int>)
    requires SearchInv(m, start, goal, gscore, cameFrom, heap, expanded, u)
    requires i < |heap| && heap[i].node != goal
    ensures SearchInv(m, start, goal, gscore', cameFrom', heap', expanded', u)
    ensures PotSum(gscore', u, |u| + 1) < PotSum(gscore, u, |u| + 1) ||
            (gscore' == gscore && |heap'| < |heap|)
  {
    var e := heap[i];
    var popped := heap[..i] + heap[i + 1..];
    var g, current := e.g, e.node;
    PopKeeps(m, start, goal, gscore, cameFrom, heap, expanded, i, popped, u);
    ghost var curPending := (current !in expanded || gscore[current] < expanded[current]) && gscore[current] != g;
    ghost var pe := Pending(current, gscore, goal);
    gscore', cameFrom', heap' := RelaxNeighbours(m, start, goal, current, g, gscore, cameFrom, popped, expanded, u);
    assert pe == Pending(current, gscore', goal);
    expanded' := expanded[current := if current in expanded && expanded[current] <= g then expanded[current] else g];
    CloseNode(m, start, goal, gscore', cameFrom', heap', expanded, current, g, u, pe, curPending, expanded');
  }

  /** The neighbour loop of one expansion: every open neighbour of
      `current` ends up with a cost of at most g + 1. */
  method RelaxNeighbours(m: Grid, ghost start: Cell, goal: Cell, current: Cell, g: int,
                         gscore: map<Cell, int>, cameFrom: map<Cell, Option<Cell>>, heap: seq<Entry>,
                         ghost expanded: map<Cell, int>, ghost u: seq<Cell>)
    returns (gscore': map<Cell, int>, cameFrom': map<Cell, Option<Cell>>, heap': seq<Entry>)
    requires Relaxing(m, start, goal, current, g, gscore, cameFrom, heap, expanded, u)
    ensures Relaxing(m, start, goal, current, g, gscore', cameFrom', heap', expanded, u)
    ensures gscore'[current] == gscore[current]
    ensures forall x :: x in heap ==> x in heap'
    ensures NeighboursDone(m, gscore', current, g)
    ensures PotSum(gscore', u, |u| + 1) < PotSum(gscore, u, |u| + 1) || (gscore' == gscore && heap' == heap)
  {
    gscore', cameFrom', heap' := gscore, cameFrom, heap;
    ghost var pushed := false;
    var cands := Candidates(current);
    assert forall j :: 0 <= j < 4 ==> Adjacent(current, cands[j]);
    for k := 0 to 4
      invariant Relaxing(m, start, goal, current, g, gscore', cameFrom', heap', expanded, u)
      invariant gscore'[current] == gscore[current]
      invariant forall x :: x in heap ==> x in heap'
      invariant SettledPrefix(m, gscore', cands, k, g)
      invariant !pushed ==> gscore' == gscore && heap' == heap
      invariant pushed ==> PotSum(gscore', u, |u| + 1) < PotSum(gscore, u, |u| + 1)
    {
      var improved;
      ghost var before := gscore';
      ghost var cb, hb := cameFrom', heap';
      gscore', cameFrom', heap', improved := Relax(m, goal, current, g, cands[k], gscore', cameFrom', heap');
      RelaxStep(m, start, goal, current, g, cands[k], before, cb, hb, expanded, gscore', cameFrom', heap', u, improved);
      SettledExtend(m, before, gscore', cands, k, g);
      if improved {
        pushed := true;
      }
    }
    SettledAll(m, gscore', current, g);
  }

  /** The body of the neighbour loop: a neighbour that is in the grid and
      walkable gets cost g + 1, an open-list entry and `current` as parent
      exactly when it has no cost yet or g + 1 improves on it; otherwise
      nothing changes. */
  method Relax(m: Grid, goal: Cell, current: Cell, g: int, nb: Cell,
               gscore: map<Cell, int>, cameFrom: map<Cell, Option<Cell>>, heap: seq<Entry>)
    returns (gscore': map<Cell, int>, cameFrom': map<Cell, Option<Cell>>, heap': seq<Entry>, improved: bool)
    ensures improved <==> Open(m, nb) && (nb !in gscore || g + 1 < gscore[nb])
    ensures improved ==> gscore' == gscore[nb := g + 1] && cameFrom' == cameFrom[nb := Some(current)] &&
                         heap' == heap + [Entry(g + 1 + Manhattan(nb, goal), g + 1, nb)]
    ensures !improved ==> gscore' == gscore && cameFrom' == cameFrom && heap' == heap
  {
    gscore', cameFrom', heap', improved := gscore, cameFrom, heap, false;
    var h := |m|;
    var w := if h > 0 then |m[0]| else 0;
    if 0 <= nb.1 < h && 0 <= nb.0 < w && IsWalkable(m, nb.0, nb.1) {
      var tentative := g + 1;
      if nb !in gscore || tentative < gscore[nb] {
        gscore' := gscore[nb := tentative];
        heap' := heap + [Entry(tentative + Manhattan(nb, goal), tentative, nb)];
        cameFrom' := cameFrom[nb := Some(current)];
        improved := true;
      }
    }
  }

  /** What one relaxation step does to the facts the neighbour loop keeps. */
  lemma {:induction false} RelaxStep(m: Grid, start: Cell, goal: Cell, current: Cell, g: int, nb: Cell,
                                     G: map<Cell, int>, C: map<Cell, Option<Cell>>, H: seq<Entry>, E: map<Cell, int>,
                                     G': map<Cell, int>, C': map<Cell, Option<Cell>>, H': seq<Entry>, u: seq<Cell>, improved: bool)
    requires Relaxing(m, start, goal, current, g, G, C, H, E, u) && Adjacent(current, nb)
    requires improved <==> Open(m, nb) && (nb !in G || g + 1 < G[nb])
    requires improved ==> G' == G[nb := g + 1] && C' == C[nb := Some(current)] &&
                          H' == H + [Entry(g + 1 + Manhattan(nb, goal), g + 1, nb)]
    requires !improved ==> G' == G && C' == C && H' == H
    ensures Relaxing(m, start, goal, current, g, G', C', H', E, u)
    ensures improved ==> PotSum(G', u, |u| + 1) < PotSum(G, u, |u| + 1)
    ensures NoWorse(G, G') && Settled(m, G', nb, g) && G'[current] == G[current]
    ensures forall x :: x in H ==> x in H'
  {
    if improved {
      RelaxKeeps(m, start, goal, current, g, nb, G, C, H, E, G', C', H', u);
    }
  }

  /** The path reconstruction: follow the came-from table from goal back to
      start, then reverse. */
  method Rebuild(m: Grid, ghost start: Cell, goal: Cell, G: map<Cell, int>, C: map<Cell, Option<Cell>>) returns (path: seq<Cell>)
    requires Tree(m, start, G, C) && goal in G
    ensures IsPath(m, path, start, goal) && |path| <= G[goal] + 1
  {
    var acc: seq<Cell> := [];
    var n: Option<Cell> := Some(goal);
    ghost var rp: seq<Cell> := [];
    while n.Some?
      invariant rp == Reverse(acc)
      invariant n.Some? ==> n.value in G
      invariant rp == [] ==> n == Some(goal)
      invariant rp != [] ==> rp[|rp| - 1] == goal
      invariant forall j :: 0 < j < |rp| ==> Adjacent(rp[j - 1], rp[j]) && Open(m, rp[j])
      invariant rp != [] && n.Some? ==> Adjacent(n.value, rp[0]) && Open(m, rp[0])
      invariant n.Some? ==> |rp| + G[n.value] <= G[goal]
      invariant n.None? ==> rp != [] && rp[0] == start && |rp| <= G[goal] + 1
      decreases if n.Some? then G[n.value] + 1 else 0
    {
      var c := n.value;
      ghost var prev := acc;
      acc := acc + [c];
      rp := [c] + rp;
      assert acc[..|acc| - 1] == prev;
      n := C[c];
    }
    path := Reverse(acc);
  }
}

=== FILE: carrier.dfy ===
/** The player as the reusable game systems see it. Those systems accept
    any object and look its attributes up at run time, so each optional
    attribute is an Option here: `inventory` (a name-to-count dictionary),
    `coin` or `coins` (the purse the order rewards go to), and whether the
    object has an `add_item` method. What such a method does is the
    player's business; the calls made to it are recorded in `addItemCalls`. */
module Carriers {
  import opened Geometry
  import opened Items

  class Carrier {
    var rect: Rect
    var inventory: Option<Inventory>
    var coin: Option<int>
    var coins: Option<int>
    const hasAddItem: bool
    var addItemCalls: seq<(string, int)>

    constructor (rect: Rect, inventory: Option<Inventory>, coin: Option<int>, coins: Option<int>, hasAddItem: bool)
      ensures this.rect == rect && this.inventory == inventory && this.coin == coin && this.coins == coins
      ensures this.hasAddItem == hasAddItem && addItemCalls == []
    {
      this.rect := rect;
      this.inventory := inventory;
      this.coin := coin;
      this.coins := coins;
      this.hasAddItem := hasAddItem;
      addItemCalls := [];
    }
  }
}

=== FILE: charwalls.dfy ===
/** cargar_mapa of the character-map levels (the one in wall.py and its
    copy in test.py): every '#' of the map strings becomes a square wall
    whose top-left corner is the character's column and row times the tile
    size. The tile size is a parameter: 40 in test.py (TEST_TILE). */
module CharWalls {
  import opened Geometry
  import opened TileMap

  /** The tile size test.py declares for its levels. */
  const TEST_TILE: Pos := 40

  /** Walls of the first n characters of one line, left to right. */
  function LineWalls(line: string, row: nat, n: nat, tile: Pos): seq<Rect>
    requires n <= |line|
    decreases n
  {
    if n == 0 then []
    else LineWalls(line, row, n - 1, tile) + (if line[n - 1] == '#' then [WallAt(n - 1, row, tile)] else [])
  }

  /** Walls of the first k lines, row by row: the order the group is filled in. */
  function MapWalls(mapa: seq<string>, k: nat, tile: Pos): seq<Rect>
    requires k <= |mapa|
    decreases k
  {
    if k == 0 then [] else MapWalls(mapa, k - 1, tile) + LineWalls(mapa[k - 1], k - 1, |mapa[k - 1]|, tile)
  }

  /** Number of '#' characters in the first k lines. */
  function Hashes(mapa: seq<string>, k: nat): nat
    requires k <= |mapa|
    decreases k
  {
    if k == 0 then 0 else Hashes(mapa, k - 1) + multiset(mapa[k - 1])['#']
  }

  /** The nested loops of cargar_mapa. */
  method LoadWalls(mapa: seq<string>, tile: Pos) returns (muros: seq<Rect>)
    ensures muros == MapWalls(mapa, |mapa|, tile)
  {
    muros := [];
    for fila := 0 to |mapa|
      invariant muros == MapWalls(mapa, fila, tile)
    {
      var linea := mapa[fila];
      ghost var before := muros;
      for col := 0 to |linea|
        invariant muros == before + LineWalls(linea, fila, col, tile)
      {
        if linea[col] == '#' {
          muros := muros + [WallAt(col, fila, tile)];
        }
      }
    }
  }

  /** One wall per '#': the number of walls is the number of '#' characters. */
  lemma {:induction false} LineWallsCount(line: string, row: nat, n: nat, tile: Pos)
    requires n <= |line|
    ensures |LineWalls(line, row, n, tile)| == multiset(line[..n])['#']
    decreases n
  {
    if n > 0 {
      LineWallsCount(line, row, n - 1, tile);
      assert line[..n] == line[..n - 1] + [line[n - 1]];
    }
  }

  lemma {:induction false} MapWallsCount(mapa: seq<string>, k: nat, tile: Pos)
    requires k <= |mapa|
    ensures |MapWalls(mapa, k, tile)| == Hashes(mapa, k)
    decreases k
  {
    if k > 0 {
      MapWallsCount(mapa, k - 1, tile);
      LineWallsCount(mapa[k - 1], k - 1, |mapa[k - 1]|, tile);
      assert mapa[k - 1][..|mapa[k - 1]|] == mapa[k - 1];
    }
  }

  /** A wall of a line sits on a '#' of that line, and every '#' has its wall. */
  lemma {:induction false} LineWallsMember(line: string, row: nat, n: nat, tile: Pos, r: Rect)
    requires n <= |line|
    ensures r in LineWalls(line, row, n, tile) <==>
      exists col :: 0 <= col < n && line[col] == '#' && r == WallAt(col, row, tile)
    decreases n
  {
    if n > 0 {
      LineWallsMember(line, row, n - 1, tile, r);
      if line[n - 1] == '#' && r == WallAt(n - 1, row, tile) {
        assert r in LineWalls(line, row, n, tile);
      }
    }
  }

  /** The walls are exactly the squares at (col * tile, row * tile) of the
      '#' characters; every other character gives none. */
  lemma {:induction false} MapWallsMember(mapa: seq<string>, k: nat, tile: Pos, r: Rect)
    requires k <= |mapa|
    ensures r in MapWalls(mapa, k, tile) <==>
      exists row, col :: 0 <= row < k && 0 <= col < |mapa[row]| && mapa[row][col] == '#' && r == WallAt(col, row, tile)
    decreases k
  {
    if k > 0 {
      var before := MapWalls(mapa, k - 1, tile);
      var line := LineWalls(mapa[k - 1], k - 1, |mapa[k - 1]|, tile);
      assert MapWalls(mapa, k, tile) == before + line;
      MapWallsMember(mapa, k - 1, tile, r);
      LineWallsMember(mapa[k - 1], k - 1, |mapa[k - 1]|, tile, r);
      if r in line {
        var col :| 0 <= col < |mapa[k - 1]| && mapa[k - 1][col] == '#' && r == WallAt(col, k - 1, tile);
        assert 0 <= k - 1 < k && mapa[k - 1][col] == '#';
      }
      if exists row, col :: 0 <= row < k && 0 <= col < |mapa[row]| && mapa[row][col] == '#' && r == WallAt(col, row, tile) {
        var row, col :| 0 <= row < k && 0 <= col < |mapa[row]| && mapa[row][col] == '#' && r == WallAt(col, row, tile);
        if row == k - 1 {
          assert r in line;
        } else {
          assert r in before;
        }
      }
    }
  }
}

=== FILE: csvmapper.dfy ===
/** The CSV map reader of the reusable game systems (games_systems/
    csv_mapper.py): a tile map exported as CSV is parsed into a matrix of
    tile codes, the cells holding a code are listed (as tile centres in
    pixels or as tile coordinates), single tiles are looked up, and a named
    configuration says which codes are walkable, walls, restaurants,
    client houses and safe zones. Reading the file is not modelled: the
    loader receives the rows the CSV reader produced, or None when the file
    could not be read. */
module CsvMapping {
  import opened Geometry
  import opened TileMap

  // ------------------------------------------------------------ parsing

  /** `int(cell.strip())`, with a ValueError giving 0: blank and
      non-numeric cells become 0. */
  function CellCode(c: RawCell): int {
    if c.Number? then c.n else 0
  }

  /** One parsed row: as long as the CSV row, each cell through CellCode. */
  function ParseRow(row: seq<RawCell>): (r: seq<int>)
    ensures |r| == |row| && forall j :: 0 <= j < |row| ==> r[j] == CellCode(row[j])
  {
    seq(|row|, j requires 0 <= j < |row| => CellCode(row[j]))
  }

  /** The parsed matrix: every row that has at least one cell, parsed. */
  function ParsedRows(rows: seq<seq<RawCell>>): seq<seq<int>>
    decreases |rows|
  {
    if rows == [] then []
    else
      var last := rows[|rows| - 1];
      ParsedRows(rows[..|rows| - 1]) + (if last != [] then [ParseRow(last)] else [])
  }

  /** The matrix has no empty row and at most as many rows as the CSV;
      when the CSV has no empty row, its rows are exactly the CSV's, in
      order, parsed. */
  lemma {:induction false} ParsedRowsShape(rows: seq<seq<RawCell>>)
    ensures |ParsedRows(rows)| <= |rows|
    ensures forall r :: 0 <= r < |ParsedRows(rows)| ==> ParsedRows(rows)[r] != []
    ensures (forall i :: 0 <= i < |rows| ==> rows[i] != []) ==>
      |ParsedRows(rows)| == |rows| && forall i :: 0 <= i < |rows| ==> ParsedRows(rows)[i] == ParseRow(rows[i])
    decreases |rows|
  {
    if rows != [] {
      var pre := rows[..|rows| - 1];
      ParsedRowsShape(pre);
      if forall i :: 0 <= i < |rows| ==> rows[i] != [] {
        assert forall i :: 0 <= i < |pre| ==> pre[i] == rows[i];
      }
    }
  }

  // ------------------------------------------------------ the scanning

  /** Where a found cell (col, row) is reported: the tile centre in pixels
      (`col * ts + ts // 2`), or the tile coordinates. */
  function Encode(col: int, row: int, ts: Pos, pixels: bool): (int, int) {
    if pixels then (col * ts + ts / 2, row * ts + ts / 2) else (col, row)
  }

  /** What a scan ends with: its result, or the IndexError the source
      raises when it indexes a cell past the end of a short row. */
  datatype Outcome<T> = Done(value: T) | IndexError

  /** The matrix is wide enough for the scan: each of the first `height`
      rows has at least `width` cells (a shorter one makes the source's
      indexing raise IndexError). */
  predicate Covers(m: seq<seq<int>>, width: nat, height: nat) {
    height <= |m| && forall r :: 0 <= r < height ==> width <= |m[r]|
  }

  /** The cells among the first `col` of row `row` holding `code`. */
  function RowFound(m: seq<seq<int>>, row: nat, col: nat, code: int, ts: Pos, pixels: bool): seq<(int, int)>
    requires row < |m| && col <= |m[row]|
    decreases col
  {
    if col == 0 then []
    else RowFound(m, row, col - 1, code, ts, pixels)
         + (if m[row][col - 1] == code then [Encode(col - 1, row, ts, pixels)] else [])
  }

  /** The cells of the first `rows` rows (each `width` wide) holding
      `code`, row by row and left to right. */
  function Found(m: seq<seq<int>>, width: nat, rows: nat, code: int, ts: Pos, pixels: bool): seq<(int, int)>
    requires Covers(m, width, rows)
    decreases rows
  {
    if rows == 0 then []
    else Found(m, width, rows - 1, code, ts, pixels) + RowFound(m, rows - 1, width, code, ts, pixels)
  }

  lemma {:induction false} RowFoundMember(m: seq<seq<int>>, row: nat, col: nat, code: int, ts: Pos, pixels: bool, p: (int, int))
    requires row < |m| && col <= |m[row]|
    ensures p in RowFound(m, row, col, code, ts, pixels) <==>
      exists c :: 0 <= c < col && m[row][c] == code && p == Encode(c, row, ts, pixels)
    decreases col
  {
    if col > 0 {
      RowFoundMember(m, row, col - 1, code, ts, pixels, p);
      if m[row][col - 1] == code && p == Encode(col - 1, row, ts, pixels) {
        assert p in RowFound(m, row, col, code, ts, pixels);
      }
    }
  }

  /** The listed positions are exactly the encodings of the cells holding
      the code. */
  lemma {:induction false} FoundMember(m: seq<seq<int>>, width: nat, rows: nat, code: int, ts: Pos, pixels: bool, p: (int, int))
    requires Covers(m, width, rows)
    ensures p in Found(m, width, rows, code, ts, pixels) <==>
      exists r, c :: 0 <= r < rows && 0 <= c < width && m[r][c] == code && p == Encode(c, r, ts, pixels)
    decreases rows
  {
    if rows > 0 {
      FoundMember(m, width, rows - 1, code, ts, pixels, p);
      RowFoundMember(m, rows - 1, width, code, ts, pixels, p);
      if p in RowFound(m, rows - 1, width, code, ts, pixels) {
        var c :| 0 <= c < width && m[rows - 1][c] == code && p == Encode(c, rows - 1, ts, pixels);
        assert 0 <= rows - 1 < rows && m[rows - 1][c] == code;
      }
      if exists r, c :: 0 <= r < rows && 0 <= c < width && m[r][c] == code && p == Encode(c, r, ts, pixels) {
        var r, c :| 0 <= r < rows && 0 <= c < width && m[r][c] == code && p == Encode(c, r, ts, pixels);
        if r < rows - 1 {
          assert 0 <= r < rows - 1 && 0 <= c < width && m[r][c] == code && p == Encode(c, r, ts, pixels);
        } else {
          assert 0 <= c < width && m[rows - 1][c] == code && p == Encode(c, rows - 1, ts, pixels);
        }
      }
    }
  }

  /** A tile centre lies in its own tile: dividing it by the tile size
      gives the tile back. */
  lemma {:induction false} CentreInTile(col: int, row: int, ts: Pos)
    ensures PixelToTile(col * ts + ts / 2, row * ts + ts / 2, ts) == (col, row)
  {
    PixelToTileUnique(col * ts + ts / 2, col, ts);
    PixelToTileUnique(row * ts + ts / 2, row, ts);
  }

  // ----------------------------------------------------- configurations

  /** The three predefined configurations. */
  datatype Format = YpaneUnified | Simple | Alexis

  /** The tile codes of each kind of zone. */
  datatype Config = Config(walkable: seq<int>, collision: seq<int>, restaurant: seq<int>,
                           clientHouse: seq<int>, safeZone: seq<int>)

  datatype Zone = Restaurant | ClientHouse | SafeZone | Collision

  /** CONFIGURATIONS. */
  function ConfigOf(f: Format): Config {
    match f
    case YpaneUnified => Config([963], [973], [894], [822], [861])
    case Simple => Config([0, 1], [2], [3], [4], [5])
    case Alexis => Config([1], [0], [2], [3], [4])
  }

  function Name(f: Format): string {
    match f
    case YpaneUnified => "ypane_unified"
    case Simple => "simple"
    case Alexis => "alexis"
  }

  /** The configuration a name selects; an unknown name falls back to
      ypane_unified. */
  function FormatNamed(name: string): (f: Format)
    ensures (forall g :: Name(g) != name) ==> f == YpaneUnified
    ensures Name(f) == name || f == YpaneUnified
  {
    assert Name(Simple) == "simple" && Name(Alexis) == "alexis";
    if name == "simple" then Simple else if name == "alexis" then Alexis else YpaneUnified
  }

  /** Each configuration is selected by its own name. */
  lemma {:induction false} NamesSelectTheirFormat(f: Format)
    ensures FormatNamed(Name(f)) == f
  {
    match f
    case YpaneUnified =>
    case Simple => assert Name(f) == "simple";
    case Alexis => assert Name(f) == "alexis";
  }

  function Codes(c: Config, zone: Zone): seq<int> {
    match zone
    case Restaurant => c.restaurant
    case ClientHouse => c.clientHouse
    case SafeZone => c.safeZone
    case Collision => c.collision
  }

  /** The codes a walker may stand on: walkable, restaurant, client house
      and safe zone. */
  function WalkableCodes(c: Config): seq<int> {
    c.walkable + c.restaurant + c.clientHouse + c.safeZone
  }

  /** In every configuration, no wall code is walkable. */
  lemma {:induction false} WallsNotWalkable(f: Format)
    ensures forall i :: 0 <= i < |ConfigOf(f).collision| ==> ConfigOf(f).collision[i] !in WalkableCodes(ConfigOf(f))
  {
  }

  /** The positions of every code of a list, code after code. */
  function FoundAll(m: seq<seq<int>>, width: nat, height: nat, codes: seq<int>, ts: Pos): seq<(int, int)>
    requires Covers(m, width, height)
    decreases |codes|
  {
    if codes == [] then []
    else FoundAll(m, width, height, codes[..|codes| - 1], ts) + Found(m, width, height, codes[|codes| - 1], ts, true)
  }

  /** The inner loop of extract_multiple_codes over one row: each cell
      holding a requested code is appended to that code's list. */
  method ScanRow(m: seq<seq<int>>, r: nat, width: nat, codes: seq<int>, ts: Pos, pixels: bool,
                 result0: map<int, seq<(int, int)>>) returns (result: Outcome<map<int, seq<(int, int)>>>)
    requires r < |m|
    requires forall c :: c in result0 <==> c in codes
    ensures width <= |m[r]| ==>
      && result.Done? && (forall c :: c in result.value <==> c in codes)
      && forall c :: c in codes ==> result.value[c] == result0[c] + RowFound(m, r, width, c, ts, pixels)
    ensures |m[r]| < width ==> result == IndexError
  {
    var found := result0;
    for col := 0 to width
      invariant col <= |m[r]|
      invariant forall c :: c in found <==> c in codes
      invariant forall c :: c in codes ==> found[c] == result0[c] + RowFound(m, r, col, c, ts, pixels)
    {
      if col == |m[r]| {
        return IndexError;
      }
      var v := m[r][col];
      if v in codes {
        found := found[v := found[v] + [Encode(col, r, ts, pixels)]];
      }
    }
    return Done(found);
  }

  // ----------------------------------------------------------- classes

  class ZoneExtractor {
    const tileSize: Pos
    var matrix: seq<seq<int>>
    var width: nat
    var height: nat

    constructor (tileSize: Pos)
      ensures this.tileSize == tileSize && matrix == [] && width == 0 && height == 0
      ensures Valid()
    {
      this.tileSize := tileSize;
      matrix := [];
      width := 0;
      height := 0;
    }

    /** What the constructor and load_csv keep: one matrix row per unit
        of height. */
    predicate Valid()
      reads this
    {
      height == |matrix|
    }

    /** The scans can index every cell they visit. */
    predicate Scannable()
      reads this
    {
      Covers(matrix, width, height)
    }

    /** The tile looked up for a point: the point divided by the tile size
        for pixels, the point itself for tile coordinates. */
    function TileOf(x: int, y: int, pixels: bool): (int, int)
      reads this
    {
      if pixels then PixelToTile(x, y, tileSize) else (x, y)
    }

    /** Looking the point up indexes an existing cell whenever its tile is
        inside width x height (a shorter row makes the source raise
        IndexError). */
    predicate Indexable(x: int, y: int, pixels: bool)
      reads this
    {
      var c := TileOf(x, y, pixels);
      0 <= c.0 < width && 0 <= c.1 < height ==> c.1 < |matrix| && c.0 < |matrix[c.1]|
    }

    /** load_csv once the reader has produced the rows: each row parsed
        cell by cell, empty rows skipped, the height the number of rows
        kept and the width the length of the first. */
    method LoadRows(rows: seq<seq<RawCell>>) returns (ok: bool)
      modifies this
      ensures ok && Valid()
      ensures matrix == ParsedRows(rows)
      ensures height == |matrix| && width == (if matrix == [] then 0 else |matrix[0]|)
    {
      matrix := [];
      for i := 0 to |rows|
        invariant matrix == ParsedRows(rows[..i])
      {
        var row := rows[i];
        var mapRow: seq<int> := [];
        for j := 0 to |row|
          invariant mapRow == ParseRow(row[..j])
        {
          mapRow := mapRow + [CellCode(row[j])];
        }
        assert row[..|row|] == row;
        if mapRow != [] {
          matrix := matrix + [mapRow];
        }
        assert rows[..i + 1][..i] == rows[..i];
      }
      assert rows[..|rows|] == rows;
      height := |matrix|;
      width := if matrix == [] then 0 else |matrix[0]|;
      return true;
    }

    /** extract_positions_by_code: the cells holding the code, row by row
        and left to right; IndexError when a row is shorter than the width
        (a ragged CSV). */
    method ExtractByCode(code: int, pixels: bool) returns (positions: Outcome<seq<(int, int)>>)
      requires Valid()
      ensures Scannable() ==> positions == Done(Found(matrix, width, height, code, tileSize, pixels))
      ensures !Scannable() ==> positions == IndexError
    {
      var found := [];
      for r := 0 to height
        invariant Covers(matrix, width, r)
        invariant found == Found(matrix, width, r, code, tileSize, pixels)
      {
        for c := 0 to width
          invariant c <= |matrix[r]|
          invariant found == Found(matrix, width, r, code, tileSize, pixels)
                             + RowFound(matrix, r, c, code, tileSize, pixels)
        {
          if c == |matrix[r]| {
            return IndexError;
          }
          if matrix[r][c] == code {
            found := found + [Encode(c, r, tileSize, pixels)];
          }
        }
      }
      return Done(found);
    }

    /** extract_multiple_codes: one entry per requested code, each holding
        what extract_positions_by_code lists for it; IndexError on a row
        shorter than the width. */
    method ExtractMultiple(codes: seq<int>, pixels: bool) returns (result: Outcome<map<int, seq<(int, int)>>>)
      requires Valid()
      ensures Scannable() ==>
        && result.Done? && (forall c :: c in result.value <==> c in codes)
        && forall c :: c in codes ==> result.value[c] == Found(matrix, width, height, c, tileSize, pixels)
      ensures !Scannable() ==> result == IndexError
    {
      var found := map c | c in codes :: [];
      for r := 0 to height
        invariant Covers(matrix, width, r)
        invariant forall c :: c in found <==> c in codes
        invariant forall c :: c in codes ==> found[c] == Found(matrix, width, r, c, tileSize, pixels)
      {
        var row := ScanRow(matrix, r, width, codes, tileSize, pixels, found);
        if row.IndexError? {
          return IndexError;
        }
        found := row.value;
      }
      return Done(found);
    }

    /** get_tile_at_position: the code of the tile holding the point (a
        pixel position is divided by the tile size first), None outside the
        matrix. */
    function TileAt(x: int, y: int, pixels: bool): (t: Option<int>)
      reads this
      requires Indexable(x, y, pixels)
      ensures var c := TileOf(x, y, pixels);
        && (t.None? <==> !(0 <= c.0 < width && 0 <= c.1 < height))
        && (t.Some? ==> t.value == matrix[c.1][c.0])
    {
      var (tx, ty) := if pixels then (x / tileSize, y / tileSize) else (x, y);
      if tx < 0 || tx >= width || ty < 0 || ty >= height then None else Some(matrix[ty][tx])
    }
  }

  /** Looking up a listed position gives back the code it was listed for,
      in either coordinate form. */
  lemma {:induction false} FoundThenLookedUp(e: ZoneExtractor, code: int, pixels: bool, p: (int, int))
    requires e.Scannable()
    requires p in Found(e.matrix, e.width, e.height, code, e.tileSize, pixels)
    ensures e.Indexable(p.0, p.1, pixels)
    ensures e.TileAt(p.0, p.1, pixels) == Some(code)
  {
    FoundMember(e.matrix, e.width, e.height, code, e.tileSize, pixels, p);
    var r, c :| 0 <= r < e.height && 0 <= c < e.width && e.matrix[r][c] == code
      && p == Encode(c, r, e.tileSize, pixels);
    if pixels {
      CentreInTile(c, r, e.tileSize);
    }
  }

  class CsvMapper {
    const tileSize: Pos
    const format: Format
    const extractor: ZoneExtractor
    const loaded: bool

    /** CSVMapper(...): the configuration by name (falling back to
        ypane_unified), then the map loaded; `rows` is None when the file
        could not be read. */
    constructor (rows: Option<seq<seq<RawCell>>>, configuration: string, tileSize: Pos)
      ensures this.tileSize == tileSize && format == FormatNamed(configuration)
      ensures fresh(extractor) && extractor.tileSize == tileSize && Ready()
      ensures loaded <==> rows.Some?
      ensures rows.Some? ==>
        && extractor.matrix == ParsedRows(rows.value)
        && extractor.height == |extractor.matrix|
        && extractor.width == (if extractor.matrix == [] then 0 else |extractor.matrix[0]|)
      ensures rows.None? ==> extractor.matrix == [] && extractor.width == 0 && extractor.height == 0
    {
      this.tileSize := tileSize;
      format := FormatNamed(configuration);
      var e := new ZoneExtractor(tileSize);
      var ok := false;
      if rows.Some? {
        ok := e.LoadRows(rows.value);
      }
      extractor := e;
      loaded := ok;
    }

    /** The extractor keeps its invariant. */
    predicate Ready()
      reads this, extractor
    {
      extractor.Valid()
    }

    /** get_restaurant_positions, get_client_house_positions,
        get_safe_zone_positions and get_collision_positions: nothing when
        no map is loaded, else the tile centres of every code of the zone,
        code after code. */
    method ZonePositions(zone: Zone) returns (positions: Outcome<seq<(int, int)>>)
      requires Ready()
      ensures !loaded ==> positions == Done([])
      ensures loaded && extractor.Scannable() ==>
        positions == Done(FoundAll(extractor.matrix, extractor.width, extractor.height,
                                   Codes(ConfigOf(format), zone), extractor.tileSize))
      ensures loaded && !extractor.Scannable() ==> positions == IndexError
    {
      if !loaded {
        return Done([]);
      }
      var codes := Codes(ConfigOf(format), zone);
      assert codes != [] by {
        match format
        case YpaneUnified =>
        case Simple =>
        case Alexis =>
      }
      var found := [];
      for i := 0 to |codes|
        invariant i > 0 ==> extractor.Scannable()
        invariant extractor.Scannable() ==>
          found == FoundAll(extractor.matrix, extractor.width, extractor.height, codes[..i], extractor.tileSize)
      {
        var more := extractor.ExtractByCode(codes[i], true);
        if more.IndexError? {
          return IndexError;
        }
        assert codes[..i + 1][..i] == codes[..i];
        found := found + more.value;
      }
      assert codes[..|codes|] == codes;
      return Done(found);
    }

    /** is_position_walkable: anywhere when no map is loaded, nowhere
        outside the map, else exactly on walkable, restaurant, client
        house and safe-zone codes. */
    function IsPositionWalkable(x: int, y: int): (walkable: bool)
      reads this, extractor
      requires loaded ==> extractor.Indexable(x, y, true)
      ensures !loaded ==> walkable
      ensures loaded ==>
        var t := PixelToTile(x, y, extractor.tileSize);
        (walkable <==> 0 <= t.0 < extractor.width && 0 <= t.1 < extractor.height
                       && extractor.matrix[t.1][t.0] in WalkableCodes(ConfigOf(format)))
    {
      if !loaded then true
      else
        var code := extractor.TileAt(x, y, true);
        if code.None? then false else code.value in WalkableCodes(ConfigOf(format))
    }

    /** create_collision_rects: one tile-sized rectangle per collision
        position, its corner half a tile up and left of the centre. */
    method CreateCollisionRects() returns (rects: Outcome<seq<Rect>>)
      requires Ready()
      ensures !loaded || extractor.Scannable() ==>
        var positions := if loaded then FoundAll(extractor.matrix, extractor.width, extractor.height,
                                                 ConfigOf(format).collision, extractor.tileSize) else [];
        rects.Done? && |rects.value| == |positions| &&
        forall i :: 0 <= i < |rects.value| ==>
          rects.value[i] == Rect(positions[i].0 - tileSize / 2, positions[i].1 - tileSize / 2, tileSize, tileSize)
      ensures loaded && !extractor.Scannable() ==> rects == IndexError
    {
      var found := ZonePositions(Collision);
      if found.IndexError? {
        return IndexError;
      }
      var positions := found.value;
      var made := [];
      for i := 0 to |positions|
        invariant |made| == i
        invariant forall k :: 0 <= k < i ==>
          made[k] == Rect(positions[k].0 - tileSize / 2, positions[k].1 - tileSize / 2, tileSize, tileSize)
      {
        var (x, y) := positions[i];
        made := made + [Rect(x - tileSize / 2, y - tileSize / 2, tileSize, tileSize)];
      }
      return Done(made);
    }
  }

  /** Going from a tile centre back to the corner: the rectangle made for
      a collision cell (col, row) is the tile itself, at (col * ts,
      row * ts). */
  lemma {:induction false} CollisionRectIsTile(col: int, row: int, ts: Pos)
    ensures var p := Encode(col, row, ts, true);
      Rect(p.0 - ts / 2, p.1 - ts / 2, ts, ts) == WallAt(col, row, ts)
  {
  }

  // ------------------------------------------------- format detection

  /** Every code in the matrix. */
  function CodesIn(m: seq<seq<int>>): set<int>
    decreases |m|
  {
    if m == [] then {}
    else
      var row := m[|m| - 1];
      CodesIn(m[..|m| - 1]) + set j | 0 <= j < |row| :: row[j]
  }

  datatype Detection = Detected(format: Format) | MaxOfEmptySet

  /** detect_csv_format as written, on the matrix a load produced (None
      when it failed): ypane_unified on a failed load or when both 963
      and 973 occur, else simple when the largest code is at most 10,
      else alexis. A map with no cell at all reaches `max` of an empty set,
      which raises ValueError. */
  function DetectAsWritten(loaded: Option<seq<seq<int>>>): Detection {
    if loaded.None? then Detected(YpaneUnified)
    else
      var codes := CodesIn(loaded.value);
      if 963 in codes && 973 in codes then Detected(YpaneUnified)
      else if codes == {} then MaxOfEmptySet
      else if forall c :: c in codes ==> c <= 10 then Detected(Simple)
      else Detected(Alexis)
  }

  /** The rows the CSV reader gives for a file of two blank lines. */
  const BLANK_LINES: seq<seq<RawCell>> := [[], []]

  /** A CSV whose every row is empty loads, and then detection raises. */
  lemma EmptyCsvRaises()
    ensures ParsedRows(BLANK_LINES) == []
    ensures DetectAsWritten(Some(ParsedRows(BLANK_LINES))) == MaxOfEmptySet
  {
    var one: seq<seq<RawCell>> := [[]];
    assert ParsedRows(one) == [] by {
      assert one[..0] == [];
    }
    assert BLANK_LINES[..1] == one;
  }

  /** detect_csv_format with an empty map treated as a failed load: always
      a configuration, and the same one as the source's wherever the
      source returns. */
  function DetectFormat(loaded: Option<seq<seq<int>>>): (f: Format)
    ensures DetectAsWritten(loaded).Detected? ==> f == DetectAsWritten(loaded).format
    ensures DetectAsWritten(loaded).MaxOfEmptySet? ==> f == YpaneUnified
    ensures f == Simple ==> forall c :: c in CodesIn(loaded.value) ==> c <= 10
    ensures f == Alexis ==> exists c :: c in CodesIn(loaded.value) && c > 10
  {
    if loaded.None? then YpaneUnified
    else
      var codes := CodesIn(loaded.value);
      if 963 in codes && 973 in codes then YpaneUnified
      else if codes == {} then YpaneUnified
      else if forall c :: c in codes ==> c <= 10 then Simple
      else Alexis
  }
}

=== FILE: deliverysystem.dfy ===
/** The delivery system of the reusable game systems (games_systems/
    delivery_system.py): rectangular zones that time each player who
    enters them and activate once the player has stayed long enough, save
    zones whose activation saves the game at most once per cooldown, and
    the system that updates every zone, counts deliveries and collects
    food through the food system. Clock readings are the parameter `now`
    (milliseconds). */
module DeliverySystems {
  import opened Geometry
  import opened Carriers
  import opened FoodSystems

  /** What a zone's update reports: the player entered (the enter
      callback runs), activated the zone (the activate callback runs) or
      left it (the exit callback runs), or nothing of the kind. */
  datatype ZoneEvent = Quiet | Entered | Activated | Exited

  /** The activation callback a zone was given: none, the delivery system's
      client delivery, or the save of a save zone. */
  datatype Callback = NoCallback | ClientDelivery | SaveProgress

  /** The default activation time (1 s). */
  const DEFAULT_ACTIVATION: Pos := 1000
  /** Activation time of a save zone (2 s). */
  const SAVE_ACTIVATION: Pos := 2000
  /** Activation time of a client's delivery zone (1.5 s). */
  const CLIENT_ACTIVATION: Pos := 1500
  /** Time between two saves of a save zone (5 s). */
  const SAVE_COOLDOWN: int := 5000

  /** One frame of a zone for the player p, who overlaps it when `inZone`:
      arriving starts its timer (at `now`); staying activates the zone for
      it once the timer has run for the activation time, unless it already
      did; leaving drops both the timer and the activation. Other players
      are not touched. */
  function Step(timers: map<Carrier, int>, activated: set<Carrier>, p: Carrier, inZone: bool, now: int, activationTime: int)
    : (r: (map<Carrier, int>, set<Carrier>, ZoneEvent))
    ensures activated <= timers.Keys ==> r.1 <= r.0.Keys
  {
    if inZone then
      if p !in timers then (timers[p := now], activated, Entered)
      else if now - timers[p] >= activationTime && p !in activated then (timers, activated + {p}, Activated)
      else (timers, activated, Quiet)
    else if p in timers then (timers - {p}, activated - {p}, Exited)
    else (timers, activated, Quiet)
  }

  /** What each event of a Step means: entering is arriving without a
      timer and starts one at `now`; activating is staying at least the
      activation time without having activated, and records the player;
      exiting is leaving with a timer, and forgets timer and activation;
      otherwise nothing changes. */
  lemma StepEvents(timers: map<Carrier, int>, activated: set<Carrier>, p: Carrier, inZone: bool, now: int, activationTime: int)
    ensures var r := Step(timers, activated, p, inZone, now, activationTime);
      && (r.2 == Entered <==> inZone && p !in timers)
      && (r.2 == Activated <==> inZone && p in timers && now - timers[p] >= activationTime && p !in activated)
      && (r.2 == Exited <==> !inZone && p in timers)
      && (r.2 == Entered ==> r.0 == timers[p := now] && r.1 == activated)
      && (r.2 == Activated ==> r.0 == timers && r.1 == activated + {p})
      && (r.2 == Exited ==> r.0 == timers - {p} && r.1 == activated - {p})
      && (r.2 == Quiet ==> r.0 == timers && r.1 == activated)
  {
  }

  /** A zone's frame when the player may be missing: without one nothing
      happens, with one the zone takes its Step. */
  function Visit(timers: map<Carrier, int>, activated: set<Carrier>, player: Carrier?, inZone: bool, now: int, activationTime: int)
    : (r: (map<Carrier, int>, set<Carrier>, ZoneEvent))
    ensures player == null ==> r == (timers, activated, Quiet)
    ensures activated <= timers.Keys ==> r.1 <= r.0.Keys
  {
    if player == null then (timers, activated, Quiet) else Step(timers, activated, player, inZone, now, activationTime)
  }

  /** A stay: frames at the times `nows` during all of which p overlaps
      the zone. The final timers and activations, and how many frames
      activated the zone. */
  function Stay(timers: map<Carrier, int>, activated: set<Carrier>, p: Carrier, nows: seq<int>, activationTime: int)
    : (map<Carrier, int>, set<Carrier>, nat)
    decreases |nows|
  {
    if nows == [] then (timers, activated, 0)
    else
      var r := Step(timers, activated, p, true, nows[0], activationTime);
      var s := Stay(r.0, r.1, p, nows[1..], activationTime);
      (s.0, s.1, s.2 + (if r.2 == Activated then 1 else 0))
  }

  /** During a stay the zone activates at most once, and not at all for a
      player it already activated for; the timer, once started, keeps its
      start time, and after the first frame the player has one; an
      activation happens only at a frame at least the activation time
      after that start. */
  lemma {:induction false} ActivatesOncePerStay(timers: map<Carrier, int>, activated: set<Carrier>, p: Carrier,
                                                nows: seq<int>, activationTime: int)
    ensures var s := Stay(timers, activated, p, nows, activationTime);
      && s.2 <= 1
      && (p in activated ==> s.2 == 0 && p in s.1)
      && (s.2 == 1 ==> p in s.1)
      && (p in timers ==> p in s.0 && s.0[p] == timers[p])
      && (nows != [] ==> p in s.0)
      && (s.2 == 1 ==> p in s.0 && exists k :: 0 <= k < |nows| && nows[k] - s.0[p] >= activationTime)
    decreases |nows|
  {
    if nows != [] {
      var r := Step(timers, activated, p, true, nows[0], activationTime);
      ActivatesOncePerStay(r.0, r.1, p, nows[1..], activationTime);
      var s := Stay(r.0, r.1, p, nows[1..], activationTime);
      if r.2 == Activated {
        assert 0 <= 0 < |nows| && nows[0] - s.0[p] >= activationTime;
      } else if s.2 == 1 {
        var k :| 0 <= k < |nows[1..]| && nows[1..][k] - s.0[p] >= activationTime;
        assert 0 <= k + 1 < |nows| && nows[k + 1] - s.0[p] >= activationTime;
      }
    }
  }

  class DeliveryZone {
    const rect: Rect
    const zoneType: string
    const zoneId: int
    const activationTime: Pos
    const onActivate: Callback
    var playerTimers: map<Carrier, int>
    var activatedPlayers: set<Carrier>
    /** The state of a save zone: whether it was given a save callback,
        when it last saved, and the players the callback was called for. */
    const hasSaveCallback: bool
    var lastSaveTime: int
    var saveCalls: seq<Carrier>

    /** Only a player with a timer can have activated the zone. */
    ghost predicate Valid()
      reads this
    {
      activatedPlayers <= playerTimers.Keys
    }

    /** A zone with the given id, or, for a missing or zero id, the
        object's own identity (`zone_id or id(self)`). */
    constructor (x: int, y: int, w: nat, h: nat, zoneType: string, zoneId: Option<int>, identity: int,
                 activationTime: Pos, onActivate: Callback)
      ensures rect == Rect(x, y, w, h) && this.zoneType == zoneType
      ensures this.zoneId == (if zoneId.Some? && zoneId.value != 0 then zoneId.value else identity)
      ensures this.activationTime == activationTime && this.onActivate == onActivate
      ensures playerTimers == map[] && activatedPlayers == {} && Valid()
      ensures !hasSaveCallback && lastSaveTime == 0 && saveCalls == []
    {
      rect := Rect(x, y, w, h);
      this.zoneType := zoneType;
      this.zoneId := if zoneId.Some? && zoneId.value != 0 then zoneId.value else identity;
      this.activationTime := activationTime;
      this.onActivate := onActivate;
      playerTimers := map[];
      activatedPlayers := {};
      hasSaveCallback := false;
      lastSaveTime := 0;
      saveCalls := [];
    }

    /** SaveZone: a "save" zone activated after SAVE_ACTIVATION, whose
        activation saves the game, never saved so far. */
    constructor Save(x: int, y: int, w: nat, h: nat, hasSaveCallback: bool, identity: int)
      ensures rect == Rect(x, y, w, h) && zoneType == "save" && zoneId == identity
      ensures activationTime == SAVE_ACTIVATION && onActivate == SaveProgress
      ensures playerTimers == map[] && activatedPlayers == {} && Valid()
      ensures this.hasSaveCallback == hasSaveCallback && lastSaveTime == 0 && saveCalls == []
    {
      rect := Rect(x, y, w, h);
      zoneType := "save";
      zoneId := identity;
      activationTime := SAVE_ACTIVATION;
      onActivate := SaveProgress;
      playerTimers := map[];
      activatedPlayers := {};
      this.hasSaveCallback := hasSaveCallback;
      lastSaveTime := 0;
      saveCalls := [];
    }

    /** DeliveryZone.update: without a player nothing happens; with one,
        the zone takes one Step for it. */
    method Update(player: Carrier?, now: int) returns (ev: ZoneEvent)
      modifies this`playerTimers, this`activatedPlayers
      ensures old(Valid()) ==> Valid()
      ensures player == null ==>
        ev == Quiet && playerTimers == old(playerTimers) && activatedPlayers == old(activatedPlayers)
      ensures player != null ==>
        (playerTimers, activatedPlayers, ev)
          == Step(old(playerTimers), old(activatedPlayers), player, Overlaps(rect, player.rect), now, activationTime)
    {
      ev := Quiet;
      if player == null {
        return;
      }
      var inZone := Overlaps(rect, player.rect);
      var wasTimed := player in playerTimers;
      if inZone {
        if !wasTimed {
          playerTimers := playerTimers[player := now];
          ev := Entered;
        } else {
          var elapsed := now - playerTimers[player];
          if elapsed >= activationTime && player !in activatedPlayers {
            activatedPlayers := activatedPlayers + {player};
            ev := Activated;
          }
        }
      } else if wasTimed {
        playerTimers := playerTimers - {player};
        if player in activatedPlayers {
          activatedPlayers := activatedPlayers - {player};
        }
        assert activatedPlayers == old(activatedPlayers) - {player};
        ev := Exited;
      }
    }

    /** get_activation_progress: nothing without a timer, the elapsed share
        of the activation time otherwise, never above 1. */
    function ActivationProgress(player: Carrier, now: int): (progress: real)
      reads this
      ensures player !in playerTimers ==> progress == 0.0
      ensures progress <= 1.0
      ensures player in playerTimers && now - playerTimers[player] >= activationTime ==> progress == 1.0
      ensures player in playerTimers && now >= playerTimers[player] ==> progress >= 0.0
    {
      if player !in playerTimers then 0.0
      else
        var share := (now - playerTimers[player]) as real / activationTime as real;
        if 1.0 <= share then 1.0 else share
    }

    /** is_player_activated; an activated player is always being timed. */
    predicate IsPlayerActivated(player: Carrier): (activated: bool)
      reads this
      ensures activated <==> player in activatedPlayers
      ensures Valid() && activated ==> player in playerTimers
    {
      player in activatedPlayers
    }

    /** SaveZone._handle_save. Within SAVE_COOLDOWN of the last save
        nothing happens. Otherwise the save callback, if any, is called for
        the player, and the save time becomes `now` unless the callback
        raised. */
    method HandleSave(player: Carrier, now: int, raises: bool)
      modifies this`lastSaveTime, this`saveCalls
      ensures now - old(lastSaveTime) < SAVE_COOLDOWN ==>
        lastSaveTime == old(lastSaveTime) && saveCalls == old(saveCalls)
      ensures now - old(lastSaveTime) >= SAVE_COOLDOWN ==>
        && saveCalls == old(saveCalls) + (if hasSaveCallback then [player] else [])
        && lastSaveTime == (if hasSaveCallback && raises then old(lastSaveTime) else now)
      ensures lastSaveTime != old(lastSaveTime) ==> lastSaveTime == now && now - old(lastSaveTime) >= SAVE_COOLDOWN
    {
      if now - lastSaveTime < SAVE_COOLDOWN {
        return;
      }
      if hasSaveCallback {
        saveCalls := saveCalls + [player];
        if raises {
          return;
        }
      }
      lastSaveTime := now;
    }
  }

  /** Whether zone `zone`, having reported `ev`, makes a delivery: it
      activated, has the client-delivery callback, there is an order system
      and it handed an order back (`delivered`). */
  predicate Delivers(hasOrderSystem: bool, zone: DeliveryZone, ev: ZoneEvent, delivered: bool) {
    hasOrderSystem && ev == Activated && zone.onActivate == ClientDelivery && delivered
  }

  /** Deliveries counted over the zones a frame has visited so far, zone
      i having reported `events[i]` and the order system answering
      `delivered[i]` for it. */
  function Deliveries(hasOrderSystem: bool, zones: seq<DeliveryZone>, events: seq<ZoneEvent>, delivered: seq<bool>): (count: nat)
    requires |events| <= |zones| && |events| <= |delivered|
    decreases |events|
  {
    if events == [] then 0
    else
      var n := |events| - 1;
      Deliveries(hasOrderSystem, zones, events[..n], delivered)
      + (if Delivers(hasOrderSystem, zones[n], events[n], delivered[n]) then 1 else 0)
  }

  /** Visiting one more zone adds that zone's delivery, if any. */
  lemma DeliveriesSnoc(hasOrderSystem: bool, zones: seq<DeliveryZone>, events: seq<ZoneEvent>, ev: ZoneEvent,
                       delivered: seq<bool>)
    requires |events| < |zones| && |events| < |delivered|
    ensures Deliveries(hasOrderSystem, zones, events + [ev], delivered)
      == Deliveries(hasOrderSystem, zones, events, delivered)
         + (if Delivers(hasOrderSystem, zones[|events|], ev, delivered[|events|]) then 1 else 0)
  {
    assert (events + [ev])[..|events|] == events;
  }

  /** A frame delivers at most once per zone, never without an order
      system, and never when no zone activated. */
  lemma {:induction false} DeliveriesBounded(hasOrderSystem: bool, zones: seq<DeliveryZone>, events: seq<ZoneEvent>,
                                             delivered: seq<bool>)
    requires |events| <= |zones| && |events| <= |delivered|
    ensures Deliveries(hasOrderSystem, zones, events, delivered) <= |events|
    ensures !hasOrderSystem ==> Deliveries(hasOrderSystem, zones, events, delivered) == 0
    ensures (forall i :: 0 <= i < |events| ==> events[i] != Activated) ==>
      Deliveries(hasOrderSystem, zones, events, delivered) == 0
    decreases |events|
  {
    if events != [] {
      DeliveriesBounded(hasOrderSystem, zones, events[..|events| - 1], delivered);
    }
  }

  /** The zones of a list with the given type, in order. */
  function OfType(zones: seq<DeliveryZone>, zoneType: string): (r: seq<DeliveryZone>)
    ensures |r| <= |zones|
    ensures forall i :: 0 <= i < |r| ==> r[i] in zones && r[i].zoneType == zoneType
    ensures forall i :: 0 <= i < |zones| && zones[i].zoneType == zoneType ==> zones[i] in r
    decreases |zones|
  {
    if zones == [] then []
    else (if zones[0].zoneType == zoneType then [zones[0]] else []) + OfType(zones[1..], zoneType)
  }

  /** The filter keeps the zones' order and multiplicity: appending one zone
    * appends it to the filtered list exactly when it has the type. */
  lemma {:induction false} OfTypeAppend(zones: seq<DeliveryZone>, z: DeliveryZone, zoneType: string)
    ensures OfType(zones + [z], zoneType) == OfType(zones, zoneType) + (if z.zoneType == zoneType then [z] else [])
    decreases |zones|
  {
    if zones == [] {
      assert OfType([z], zoneType) == (if z.zoneType == zoneType then [z] else []) + OfType([], zoneType);
    } else {
      assert (zones + [z])[1..] == zones[1..] + [z];
      OfTypeAppend(zones[1..], z, zoneType);
    }
  }

  /** The first zone of a list with the given id, or null. */
  function FirstWithId(zones: seq<DeliveryZone>, id: int): (z: DeliveryZone?)
    ensures z == null <==> forall i :: 0 <= i < |zones| ==> zones[i].zoneId != id
    ensures z != null ==>
      exists i :: 0 <= i < |zones| && zones[i] == z && z.zoneId == id && forall j :: 0 <= j < i ==> zones[j].zoneId != id
    decreases |zones|
  {
    if zones == [] then null
    else if zones[0].zoneId == id then zones[0]
    else
      var z := FirstWithId(zones[1..], id);
      if z != null then
        var i :| 1 <= i < |zones| && zones[i] == z && z.zoneId == id && forall j :: 1 <= j < i ==> zones[j].zoneId != id;
        z
      else z
  }

  /** The zone create_client_delivery_zones makes for the house (x, y, id):
      a "client_delivery" zone of the given size centred on the house,
      identified by the house id (unless that is 0), activated after
      CLIENT_ACTIVATION, whose activation is a client delivery. */
  predicate IsClientZone(z: DeliveryZone, client: (int, int, int), size: (nat, nat)) {
    && z.rect == Rect(client.0 - size.0 / 2, client.1 - size.1 / 2, size.0, size.1)
    && z.zoneType == "client_delivery" && (client.2 != 0 ==> z.zoneId == client.2)
    && z.activationTime == CLIENT_ACTIVATION && z.onActivate == ClientDelivery
  }

  /** What one frame of the delivery system's update did to a zone: the
      zone took its Step for the player (nothing without one), kept its
      invariant, and its save time moved only by a save at `now`, at least
      SAVE_COOLDOWN after the previous one. */
  twostate predicate Visited(z: DeliveryZone, ev: ZoneEvent, player: Carrier?, now: int)
    reads z, player
  {
    && (z.playerTimers, z.activatedPlayers, ev)
      == Visit(old(z.playerTimers), old(z.activatedPlayers), player,
               player != null && Overlaps(z.rect, player.rect), now, z.activationTime)
    && (z.lastSaveTime != old(z.lastSaveTime) ==>
          ev == Activated && z.onActivate == SaveProgress && z.lastSaveTime == now
          && now - old(z.lastSaveTime) >= SAVE_COOLDOWN)
    && z.Valid()
  }

  class DeliverySystem {
    const hasOrderSystem: bool
    const foodSystem: FoodSystem?
    var zones: seq<DeliveryZone>
    var saveZones: seq<DeliveryZone>
    var deliveriesMade: int
    var itemsPickedUp: int
    var zonesActivated: int

    /** The zones are distinct and each keeps its invariant; the save
        zones are delivery zones too; the food system keeps its own
        invariant; a delivery and an activation are always counted
        together. */
    ghost predicate Valid()
      reads this, (set z | z in zones), foodSystem
      reads if foodSystem != null then set f | f in foodSystem.items else {}
    {
      && ZonesValid()
      && (forall i :: 0 <= i < |saveZones| ==> saveZones[i] in zones)
      && (foodSystem != null ==> foodSystem.Valid())
      && 0 <= deliveriesMade == zonesActivated && 0 <= itemsPickedUp
    }

    /** The zones are distinct and each keeps its invariant. */
    ghost predicate ZonesValid()
      reads this, set z | z in zones
    {
      Distinct(zones) && forall i :: 0 <= i < |zones| ==> zones[i].Valid()
    }

    constructor (hasOrderSystem: bool, foodSystem: FoodSystem?)
      requires foodSystem != null ==> foodSystem.Valid()
      ensures this.hasOrderSystem == hasOrderSystem && this.foodSystem == foodSystem
      ensures zones == [] && saveZones == []
      ensures deliveriesMade == 0 && itemsPickedUp == 0 && zonesActivated == 0
      ensures Valid()
    {
      this.hasOrderSystem := hasOrderSystem;
      this.foodSystem := foodSystem;
      zones := [];
      saveZones := [];
      deliveriesMade := 0;
      itemsPickedUp := 0;
      zonesActivated := 0;
    }

    /** add_delivery_zone: a new zone at the end of the list. */
    method AddDeliveryZone(x: int, y: int, w: nat, h: nat, zoneType: string, zoneId: Option<int>,
                           activationTime: Pos, onActivate: Callback) returns (zone: DeliveryZone)
      requires Valid()
      modifies this`zones
      ensures Valid()
      ensures fresh(zone) && zones == old(zones) + [zone]
      ensures zone.rect == Rect(x, y, w, h) && zone.zoneType == zoneType && zone.activationTime == activationTime
      ensures zone.onActivate == onActivate && zone.playerTimers == map[] && zone.activatedPlayers == {}
      ensures zoneId.Some? && zoneId.value != 0 ==> zone.zoneId == zoneId.value
    {
      var identity: int :| true;
      zone := new DeliveryZone(x, y, w, h, zoneType, zoneId, identity, activationTime, onActivate);
      zones := zones + [zone];
    }

    /** add_save_zone: a new save zone, listed both as a save zone and as a
        delivery zone. */
    method AddSaveZone(x: int, y: int, w: nat, h: nat, hasSaveCallback: bool) returns (zone: DeliveryZone)
      requires Valid()
      modifies this`zones, this`saveZones
      ensures Valid()
      ensures fresh(zone) && zones == old(zones) + [zone] && saveZones == old(saveZones) + [zone]
      ensures zone.rect == Rect(x, y, w, h) && zone.zoneType == "save" && zone.onActivate == SaveProgress
      ensures zone.activationTime == SAVE_ACTIVATION && zone.hasSaveCallback == hasSaveCallback
    {
      var identity: int :| true;
      zone := new DeliveryZone.Save(x, y, w, h, hasSaveCallback, identity);
      zones := zones + [zone];
      saveZones := saveZones + [zone];
    }

    /** create_client_delivery_zones: for each client house a zone of the
        given size centred on it, in the order of the houses. */
    method CreateClientDeliveryZones(clients: seq<(int, int, int)>, size: (nat, nat))
      requires Valid()
      modifies this`zones
      ensures Valid()
      ensures |zones| == |old(zones)| + |clients| && zones[..|old(zones)|] == old(zones)
      ensures forall j :: |old(zones)| <= j < |zones| ==>
        fresh(zones[j]) && IsClientZone(zones[j], clients[j - |old(zones)|], size)
    {
      var (w, h) := size;
      ghost var n0 := |zones|;
      for i := 0 to |clients|
        invariant Valid()
        invariant |zones| == n0 + i && zones[..n0] == old(zones)
        invariant forall j :: n0 <= j < |zones| ==> fresh(zones[j]) && IsClientZone(zones[j], clients[j - n0], size)
      {
        var (x, y, houseId) := clients[i];
        var _ := AddDeliveryZone(x - w / 2, y - h / 2, w, h, "client_delivery", Some(houseId), CLIENT_ACTIVATION, ClientDelivery);
      }
    }

    /** _handle_client_delivery: with an order system, a delivered order
        (what the order system's check returned) counts one delivery and
        one activation; otherwise nothing is counted. */
    method HandleClientDelivery(delivered: bool)
      modifies this`deliveriesMade, this`zonesActivated
      ensures var d := if hasOrderSystem && delivered then 1 else 0;
        deliveriesMade == old(deliveriesMade) + d && zonesActivated == old(zonesActivated) + d
    {
      if !hasOrderSystem {
        return;
      }
      if delivered {
        deliveriesMade := deliveriesMade + 1;
        zonesActivated := zonesActivated + 1;
      }
    }

    /** One zone of the update loop: the zone's Step, then its activation
        callback when it activated. */
    method VisitZone(zone: DeliveryZone, player: Carrier?, now: int, delivered: bool, saveRaises: bool)
      returns (ev: ZoneEvent)
      requires zone.Valid()
      modifies zone`playerTimers, zone`activatedPlayers, zone`lastSaveTime, zone`saveCalls,
               this`deliveriesMade, this`zonesActivated
      ensures zone.Valid()
      ensures Visited(zone, ev, player, now)
      ensures var d := if Delivers(hasOrderSystem, zone, ev, delivered) then 1 else 0;
        deliveriesMade == old(deliveriesMade) + d && zonesActivated == old(zonesActivated) + d
      ensures !(ev == Activated && zone.onActivate == SaveProgress) ==>
        zone.lastSaveTime == old(zone.lastSaveTime) && zone.saveCalls == old(zone.saveCalls)
    {
      ev := zone.Update(player, now);
      if ev == Activated {
        match zone.onActivate
        case ClientDelivery =>
          HandleClientDelivery(delivered);
        case SaveProgress =>
          zone.HandleSave(player, now, saveRaises);
        case NoCallback =>
      }
    }

    /** The zone loop of update: every zone in list order takes its Step
        for the player and runs its activation callback. `delivered[i]` is
        what the order system's check returns should zone i deliver, and
        `saveRaises[i]` whether zone i's save callback raises. */
    method UpdateZones(player: Carrier?, now: int, delivered: seq<bool>, saveRaises: seq<bool>)
      returns (events: seq<ZoneEvent>)
      requires ZonesValid()
      requires |delivered| == |zones| && |saveRaises| == |zones|
      modifies (set z | z in zones), this`deliveriesMade, this`zonesActivated
      ensures ZonesValid()
      ensures |events| == |zones|
      ensures forall i :: 0 <= i < |zones| ==> Visited(zones[i], events[i], player, now)
      ensures deliveriesMade == old(deliveriesMade) + Deliveries(hasOrderSystem, zones, events, delivered)
      ensures zonesActivated - old(zonesActivated) == deliveriesMade - old(deliveriesMade)
    {
      events := [];
      for i := 0 to |zones|
        invariant zonesActivated - old(zonesActivated) == deliveriesMade - old(deliveriesMade)
        invariant |events| == i
        invariant forall j :: 0 <= j < i ==> Visited(zones[j], events[j], player, now)
        invariant forall j :: i <= j < |zones| ==> unchanged(zones[j])
        invariant deliveriesMade == old(deliveriesMade) + Deliveries(hasOrderSystem, zones, events, delivered)
      {
        var ev := VisitZone(zones[i], player, now, delivered[i], saveRaises[i]);
        DeliveriesSnoc(hasOrderSystem, zones, events, ev, delivered);
        events := events + [ev];
      }
    }

    /** update: the zone loop, then, with a food system and a player, the
        food the player touches is picked up and counted. */
    method Update(player: Carrier?, now: int, delivered: seq<bool>, saveRaises: seq<bool>)
      returns (events: seq<ZoneEvent>)
      requires Valid()
      requires |delivered| == |zones| && |saveRaises| == |zones|
      modifies (set z | z in zones), this`deliveriesMade, this`zonesActivated, this`itemsPickedUp
      modifies foodSystem, if foodSystem != null then (set f: FoodItem | f in foodSystem.items) else {}
      modifies player
      ensures Valid()
      ensures |events| == |zones|
      ensures forall i :: 0 <= i < |zones| ==>
        (zones[i].playerTimers, zones[i].activatedPlayers, events[i])
          == Visit(old(zones[i].playerTimers), old(zones[i].activatedPlayers), player,
                   player != null && Overlaps(zones[i].rect, player.rect), now, zones[i].activationTime)
      ensures deliveriesMade == old(deliveriesMade) + Deliveries(hasOrderSystem, zones, events, delivered)
      ensures foodSystem != null && player != null ==>
        itemsPickedUp - old(itemsPickedUp) == |old(foodSystem.items)| - |foodSystem.items|
      ensures !(foodSystem != null && player != null) ==> itemsPickedUp == old(itemsPickedUp)
      ensures player != null ==> player.rect == old(player.rect)
    {
      events := UpdateZones(player, now, delivered, saveRaises);
      if foodSystem != null && player != null {
        PickUpFood(player);
      }
    }

    /** The food step of update: the food system's pickup for the player,
        each item picked up counted once. */
    method PickUpFood(player: Carrier)
      requires Valid() && foodSystem != null
      modifies foodSystem`items, (set f | f in foodSystem.items), player`inventory, player`addItemCalls, this`itemsPickedUp
      ensures Valid()
      ensures itemsPickedUp - old(itemsPickedUp) == |old(foodSystem.items)| - |foodSystem.items|
      ensures |foodSystem.items| <= |old(foodSystem.items)|
    {
      var picked := foodSystem.CheckFoodPickup(player);
      itemsPickedUp := itemsPickedUp + |picked|;
    }

    /** get_zone_by_id: the first zone with the id, or null. */
    method GetZoneById(id: int) returns (zone: DeliveryZone?)
      ensures zone == FirstWithId(zones, id)
    {
      for i := 0 to |zones|
        invariant FirstWithId(zones, id) == FirstWithId(zones[i..], id)
      {
        if zones[i].zoneId == id {
          return zones[i];
        }
        assert zones[i..][1..] == zones[i + 1..];
      }
      return null;
    }

    /** get_zones_by_type. */
    function GetZonesByType(zoneType: string): (r: seq<DeliveryZone>)
      reads this
      ensures forall i :: 0 <= i < |r| ==> r[i] in zones && r[i].zoneType == zoneType
      ensures forall i :: 0 <= i < |zones| && zones[i].zoneType == zoneType ==> zones[i] in r
    {
      OfType(zones, zoneType)
    }

    /** get_player_progress_in_zones: the progress of the player in each
        zone with a non-zero id, a later zone overriding an earlier one
        with the same id. */
    method GetPlayerProgressInZones(player: Carrier, now: int) returns (progress: map<int, real>)
      ensures forall k :: k in progress <==> k != 0 && exists i :: 0 <= i < |zones| && zones[i].zoneId == k
      ensures forall k :: k in progress ==>
        exists i :: 0 <= i < |zones| && zones[i].zoneId == k && progress[k] == zones[i].ActivationProgress(player, now)
          && forall j :: i < j < |zones| ==> zones[j].zoneId != k
      ensures forall k :: k in progress ==> progress[k] <= 1.0
    {
      progress := map[];
      for i := 0 to |zones|
        invariant forall k :: k in progress <==> k != 0 && exists j :: 0 <= j < i && zones[j].zoneId == k
        invariant forall k :: k in progress ==>
          exists j :: 0 <= j < i && zones[j].zoneId == k && progress[k] == zones[j].ActivationProgress(player, now)
            && forall l :: j < l < i ==> zones[l].zoneId != k
        invariant forall k :: k in progress ==> progress[k] <= 1.0
      {
        var z := zones[i];
        if z.zoneId != 0 {
          progress := progress[z.zoneId := z.ActivationProgress(player, now)];
        }
      }
    }

    /** clear_all_zones. */
    method ClearAllZones()
      requires Valid()
      modifies this`zones, this`saveZones
      ensures zones == [] && saveZones == [] && Valid()
    {
      zones := [];
      saveZones := [];
    }

    /** get_statistics: the zone counts and the three counters; the
        deliveries made and the zones activated are always equal. */
    method Statistics() returns (deliveryZones: nat, saveZoneCount: nat, deliveries: int, pickedUp: int, activations: int)
      requires Valid()
      ensures deliveryZones == |zones| && saveZoneCount == |saveZones|
      ensures deliveries == deliveriesMade && pickedUp == itemsPickedUp && activations == zonesActivated
      ensures deliveries == activations && deliveries >= 0 && pickedUp >= 0
    {
      return |zones|, |saveZones|, deliveriesMade, itemsPickedUp, zonesActivated;
    }
  }
}

=== FILE: deliveryzone.dfy ===
/** The delivery square of the chase game (deliveryzone.py): a player who
    stays on it for two seconds while carrying a lomito or an empanada
    hands one of them over. The clock reading is the parameter `now`
    (milliseconds). */
module Delivery {
  import opened Geometry
  import opened Players
  import opened Items

  /** How long the player must stay, in milliseconds (2 s). */
  const DELIVERY_TIME: int := 2000

  /** The player carries something to deliver. */
  predicate Carries(inv: Inventory) {
    Count(inv, "lomito") > 0 || Count(inv, "empanada") > 0
  }

  /** The item a delivery is started for: lomito when there is one. */
  function Choice(inv: Inventory): (item: string)
    requires Carries(inv)
    ensures Count(inv, item) > 0
    ensures item == "lomito" || item == "empanada"
    ensures item == "empanada" ==> Count(inv, "lomito") <= 0
  {
    if Count(inv, "lomito") > 0 then "lomito" else "empanada"
  }

  /** The inventory after a finished delivery of `item`: one fewer when
      there is one, else unchanged. */
  function Handed(inv: Inventory, item: string): (inv': Inventory)
    ensures forall k :: k in inv' <==> k in inv
    ensures forall k :: k in inv && k != item ==> inv'[k] == inv[k]
    ensures item in inv && inv[item] > 0 ==> inv'[item] == inv[item] - 1
    ensures !(item in inv && inv[item] > 0) ==> inv' == inv
  {
    if Count(inv, item) > 0 then inv[item := inv[item] - 1] else inv
  }

  /** No count becomes negative in a delivery. */
  lemma {:induction false} HandedKeepsCounts(inv: Inventory, item: string)
    requires forall k :: k in inv ==> inv[k] >= 0
    ensures var inv' := Handed(inv, item);
      (forall k :: k in inv' ==> inv'[k] >= 0) && (forall k :: k in inv' ==> inv'[k] <= inv[k])
  {
    var inv' := Handed(inv, item);
    forall k | k in inv' ensures inv'[k] >= 0 && inv'[k] <= inv[k] {
      if k == item && Count(inv, item) > 0 {
        assert inv'[k] == inv[k] - 1;
      }
    }
  }

  class DeliveryZone {
    const rect: Rect
    var delivering: bool
    var startTime: int
    var item: Option<string>

    /** A delivery in progress always knows its item. */
    ghost predicate Valid()
      reads this
    {
      delivering <==> item.Some?
    }

    constructor (x: int, y: int, w: nat, h: nat)
      ensures rect == Rect(x, y, w, h) && !delivering && startTime == 0 && item == None
      ensures Valid()
    {
      rect := Rect(x, y, w, h);
      delivering := false;
      startTime := 0;
      item := None;
    }

    /** DeliveryZone.update. On the zone with something to deliver: start
        the timer once, choosing the item; once DELIVERY_TIME has passed,
        hand one of the chosen item over (if still held) and reset. Off the
        zone, or with nothing to deliver, a delivery in progress is
        abandoned and the inventory is left alone. */
    method Update(player: Player, now: int)
      requires Valid()
      modifies this, player
      ensures Valid()
      ensures var inv := old(player.inventory);
        var active := Overlaps(rect, player.rect) && Carries(inv);
        && (active && !old(delivering) ==>
              delivering && startTime == now && item == Some(Choice(inv)) && player.inventory == inv)
        && (active && old(delivering) && now - old(startTime) >= DELIVERY_TIME ==>
              !delivering && item == None && player.inventory == Handed(inv, old(item).value))
        && (active && old(delivering) && now - old(startTime) < DELIVERY_TIME ==>
              delivering == old(delivering) && item == old(item) && startTime == old(startTime)
              && player.inventory == inv)
        && (!active ==> !delivering && item == None && startTime == old(startTime) && player.inventory == inv)
      ensures player.rect == old(player.rect) && player.coin == old(player.coin) && player.vidas == old(player.vidas)
      ensures player.Animation() == old(player.Animation())
    {
      var inZone := Overlaps(rect, player.rect);
      if inZone && (Count(player.inventory, "lomito") > 0 || Count(player.inventory, "empanada") > 0) {
        if !delivering {
          delivering := true;
          startTime := now;
          item := Some(if Count(player.inventory, "lomito") > 0 then "lomito" else "empanada");
        } else if now - startTime >= DELIVERY_TIME {
          if item.Some? && Count(player.inventory, item.value) > 0 {
            player.inventory := player.inventory[item.value := player.inventory[item.value] - 1];
          }
          delivering := false;
          item := None;
        }
      } else {
        if delivering {
          delivering := false;
          item := None;
        }
      }
    }
  }
}

=== FILE: enemy.dfy ===
/** The enemy of the chase game: a 24 x 24 sprite that patrols back and
    forth along one axis, chases the player along an A* path over the tile
    grid once the player comes within its aggro radius, and walks back to the
    start of its patrol when the chase is lost. One call of Update is one
    frame. The sprite's position vector is kept equal to its rectangle's
    top-left corner, so the model keeps the rectangle only. */
module Enemies {
  import opened Geometry
  import opened TileMap
  import opened Movement
  import opened Pathfinding
  import opened Settings

  /** Width and height of the enemy's collision rectangle. */
  const SIZE: nat := 24
  /** Milliseconds that must pass between two path computations. */
  const REPATH_COOLDOWN: int := 500

  datatype Mode = Patrolling | Chasing | Returning | Idle

  /** The map argument of update counts as given when it is a non-empty list. */
  predicate Present(mapa: Option<Grid>) {
    mapa.Some? && |mapa.value| > 0
  }

  /** The map the patrol moves on: the given one, or the one-cell blocked
      map [[0]] that stands in for a missing one. */
  function MapOr(mapa: Option<Grid>): Grid {
    if Present(mapa) then mapa.value else [[0]]
  }

  /** tile_centro_a_pixel: the top-left corner that centres a w x h sprite
      on a tile of the path grid. */
  function TileCentre(c: Cell, w: nat, h: nat): (int, int) {
    (c.0 * TILE_SIZE + TILE_SIZE / 2 - w / 2, c.1 * TILE_SIZE + TILE_SIZE / 2 - h / 2)
  }

  /** The enemy's pixel_a_tile: the path-grid tile under a pixel. */
  function GridTile(px: int, py: int): Cell {
    PixelToTile(px, py, TILE_SIZE)
  }

  /** The waypoint for a path: the centre of its second tile, of its only
      tile, or none for an empty path. */
  function NextWaypoint(path: seq<Cell>): Option<(int, int)> {
    if |path| > 1 then Some(TileCentre(path[1], SIZE, SIZE))
    else if |path| == 1 then Some(TileCentre(path[0], SIZE, SIZE))
    else None
  }

  /** A waypoint vector counts as set when it exists and is not (0, 0). */
  predicate Truthy(w: Option<(int, int)>) {
    w.Some? && w.value != (0, 0)
  }

  /** The player is within the aggro radius of the enemy's position (the
      comparison of Euclidean distances made on squares). */
  predicate InAggro(r: Rect, player: Rect, radius: int) {
    radius >= 0 && Dist2(player.CenterX(), player.CenterY(), r.x, r.y) <= radius * radius
  }

  /** Both end tiles of a chase are walkable, on a map that is given. */
  predicate CanPlan(r: Rect, player: Rect, mapa: Option<Grid>) {
    var s := GridTile(r.CenterX(), r.CenterY());
    var g := GridTile(player.CenterX(), player.CenterY());
    Present(mapa) && IsWalkable(mapa.value, s.0, s.1) && IsWalkable(mapa.value, g.0, g.1)
  }

  /** intentar_mover_con_tiles: X is resolved before Y. */
  function Move(m: Grid, r: Rect, dx: int, dy: int): Rect {
    Slide(m, Slide(m, r, Horizontal, dx, TILE), Vertical, dy, TILE)
  }

  /** The direction the sprite shows for a movement vector: the axis of
      larger magnitude wins, X on a tie; a zero vector keeps the old one. */
  function FacingFor(v: (int, int), old_: Facing): (f: Facing)
    ensures v == (0, 0) ==> f == old_
    ensures v != (0, 0) ==> Dot(Unit(f), v) > 0 && forall g: Facing :: Dot(Unit(f), v) >= Dot(Unit(g), v)
  {
    if v == (0, 0) then old_
    else if Abs(v.0) >= Abs(v.1) then (if v.0 > 0 then Right else Left)
    else (if v.1 > 0 then Down else Up)
  }

  /** The vector the facing is computed from: toward the waypoint when one is
      set, else toward the centre of the first path tile, else zero. */
  function Heading(path: seq<Cell>, waypoint: Option<(int, int)>, r: Rect): (int, int) {
    if Truthy(waypoint) then (waypoint.value.0 - r.x, waypoint.value.1 - r.y)
    else if path != [] then
      var c := TileCentre(path[0], r.w, r.h);
      (c.0 - r.x, c.1 - r.y)
    else (0, 0)
  }

  /** _can_move_rect: the rectangle lies on walkable tiles, or there are wall
      rectangles and it overlaps none of them. */
  predicate CanMoveRect(m: Grid, r: Rect, walls: seq<Rect>) {
    Fits(m, r, TILE) || (walls != [] && !OverlapsAny(r, walls))
  }

  /** The offset from one point to another. */
  function Offset(from: (int, int), to: (int, int)): (int, int) {
    (to.0 - from.0, to.1 - from.1)
  }

  /** How far a rectangle's corner moved. */
  function Moved(before: Rect, after: Rect): (int, int) {
    (after.x - before.x, after.y - before.y)
  }

  /** The direction a speed `v` carries a sprite from `from` when aiming
      at `to`: toward it for a non-negative speed, away from it otherwise. */
  function Aim(from: (int, int), to: (int, int), v: int): (int, int) {
    if v >= 0 then Offset(from, to) else Offset(to, from)
  }

  /** One component of a step heads along an offset: zero where the offset
      is zero, else of the offset's sign and at most `limit` long. */
  predicate Heads(d: int, off: int, limit: int) {
    (off == 0 ==> d == 0) && 0 <= Sign(off) * d <= limit
  }

  /** A step heads along an offset on both axes. */
  predicate Toward(step: (int, int), off: (int, int), limit: int) {
    Heads(step.0, off.0, limit) && Heads(step.1, off.1, limit)
  }

  /** What `round(normalize(to - from) * velocidad)` guarantees for every
      pair of points, which is all the model keeps of the floating-point
      steering: each component is zero where the offset is zero, otherwise
      zero (rounding may give it) or of the sign of the offset times the
      speed's, and at most the speed in magnitude. */
  ghost predicate Steering(steer: ((int, int), (int, int)) -> (int, int), v: int) {
    forall from: (int, int), to: (int, int) {:trigger steer(from, to)} ::
      Toward(steer(from, to), Aim(from, to, v), Abs(v))
  }

  // ---------------------------------------------------------------- lemmas

  /** Centring a sprite of any size on a tile and taking the tile under the
      sprite's centre gives back the tile. */
  lemma {:induction false} CentreRoundTrip(c: Cell, w: nat, h: nat)
    ensures var p := TileCentre(c, w, h);
      GridTile(Rect(p.0, p.1, w, h).CenterX(), Rect(p.0, p.1, w, h).CenterY()) == c
  {
    var p := TileCentre(c, w, h);
    assert Rect(p.0, p.1, w, h).CenterX() == c.0 * TILE_SIZE + TILE_SIZE / 2;
    assert Rect(p.0, p.1, w, h).CenterY() == c.1 * TILE_SIZE + TILE_SIZE / 2;
    PixelToTileUnique(c.0 * TILE_SIZE + TILE_SIZE / 2, c.0, TILE_SIZE);
    PixelToTileUnique(c.1 * TILE_SIZE + TILE_SIZE / 2, c.1, TILE_SIZE);
  }

  /** What one intentar_mover_con_tiles call guarantees: the size is kept; a
      zero request leaves its coordinate alone; each coordinate moves in the
      sign of its request and by at most its magnitude; the whole X step is
      taken when it fits; and a rectangle that moved ends on walkable tiles. */
  lemma {:induction false} MoveSound(m: Grid, r: Rect, dx: int, dy: int)
    ensures var r' := Move(m, r, dx, dy);
      && r'.w == r.w && r'.h == r.h
      && (dx == 0 ==> r'.x == r.x) && (dy == 0 ==> r'.y == r.y)
      && 0 <= Sign(dx) * (r'.x - r.x) <= Abs(dx)
      && 0 <= Sign(dy) * (r'.y - r.y) <= Abs(dy)
      && (Fits(m, Shift(r, Horizontal, dx), TILE) ==> r'.x == r.x + dx)
      && (Fits(m, Shift(Slide(m, r, Horizontal, dx, TILE), Vertical, dy), TILE) ==> r'.y == r.y + dy)
      && (r' != r ==> Fits(m, r', TILE))
  {
    var r1 := Slide(m, r, Horizontal, dx, TILE);
    SlideSound(m, r, Horizontal, dx, TILE);
    SlideSound(m, r1, Vertical, dy, TILE);
    if dx != 0 && Fits(m, Shift(r, Horizontal, dx), TILE) {
      assert r1 == Shift(r, Horizontal, dx);
    }
  }

  /** A step that heads along an offset still does after the tiles have
      cut it short: the move never goes against the offset, and never
      further than the limit on either axis. */
  lemma {:induction false} MoveToward(m: Grid, r: Rect, step: (int, int), off: (int, int), limit: int)
    requires Toward(step, off, limit)
    ensures Toward(Moved(r, Move(m, r, step.0, step.1)), off, limit)
  {
    var r' := Move(m, r, step.0, step.1);
    MoveSound(m, r, step.0, step.1);
    HeadsShortened(step.0, r'.x - r.x, off.0, limit);
    HeadsShortened(step.1, r'.y - r.y, off.1, limit);
  }

  /** A part of a component that heads along an offset heads along it too. */
  lemma {:induction false} HeadsShortened(d: int, part: int, off: int, limit: int)
    requires Heads(d, off, limit)
    requires d == 0 ==> part == 0
    requires 0 <= Sign(d) * part <= Abs(d)
    ensures Heads(part, off, limit)
  {
    if d > 0 {
      assert Sign(d) == 1 && Sign(off) == 1;
    } else if d < 0 {
      assert Sign(d) == -1 && Sign(off) == -1;
    }
  }

  /** With no map, the stand-in [[0]] has no walkable tile, so a sprite of
      positive size never moves. */
  lemma {:induction false} NoMapStandsStill(r: Rect, dx: int, dy: int)
    requires r.w > 0 && r.h > 0
    ensures Move([[0]], r, dx, dy) == r
  {
    var m: Grid := [[0]];
    forall q: Rect | q.w > 0 && q.h > 0 ensures !Fits(m, q, TILE) {
      var c := PixelToTile(q.x, q.y, TILE);
      RectTilesExact(q, TILE, c);
      var i :| 0 <= i < |RectTiles(q, TILE)| && RectTiles(q, TILE)[i] == c;
      assert !IsWalkable(m, RectTiles(q, TILE)[i].0, RectTiles(q, TILE)[i].1);
    }
    assert UnitSteps(m, r, Horizontal, Sign(dx), Abs(dx), TILE) == 0;
    assert Slide(m, r, Horizontal, dx, TILE) == r;
    assert UnitSteps(m, r, Vertical, Sign(dy), Abs(dy), TILE) == 0;
  }

  /** _can_move_rect is the player's whole-move test: a player slide takes
      the whole step exactly when the stepped rectangle passes it. */
  lemma {:induction false} CanMoveRectIsPlayerTest(m: Grid, walls: seq<Rect>, r: Rect, axis: Axis, d: int)
    requires d != 0
    ensures CanMoveRect(m, Shift(r, axis, d), walls) ==> PlayerSlide(m, walls, r, axis, d, TILE) == Shift(r, axis, d)
    ensures !CanMoveRect(m, Shift(r, axis, d), walls) ==> PlayerSlide(m, walls, r, axis, d, TILE) == Creep(m, r, axis, d, TILE)
  {
  }

  // ----------------------------------------------------------------- class

  class Enemy {
    var rect: Rect
    var mode: Mode
    var facing: Facing
    var path: seq<Cell>
    var waypoint: Option<(int, int)>
    /** Time of the last path computation, in milliseconds. */
    var lastRepath: int
    /** +1 or -1: the current sense of the patrol. */
    var direccion: int
    const origin: (int, int)
    const horizontal: bool
    const distancia: int
    const velocidad: int
    const aggroRadius: int

    /** The collision rectangle keeps its size, the patrol sense is a unit,
        and the waypoint is always the one the path calls for. */
    ghost predicate Valid()
      reads this
    {
      rect.w == SIZE && rect.h == SIZE && (direccion == 1 || direccion == -1) && waypoint == NextWaypoint(path)
    }

    constructor (x: int, y: int, horizontal: bool, distancia: int, aggroRadius: int, velocidad: int)
      ensures Valid()
      ensures rect == Rect(x, y, SIZE, SIZE) && origin == (x, y) && mode == Patrolling && facing == Down
      ensures path == [] && waypoint == None && lastRepath == 0 && direccion == 1
      ensures this.horizontal == horizontal && this.distancia == distancia
      ensures this.aggroRadius == aggroRadius && this.velocidad == velocidad
    {
      rect := Rect(x, y, SIZE, SIZE);
      origin := (x, y);
      this.horizontal := horizontal;
      this.distancia := distancia;
      this.aggroRadius := aggroRadius;
      this.velocidad := velocidad;
      mode := Patrolling;
      facing := Down;
      path := [];
      waypoint := None;
      lastRepath := 0;
      direccion := 1;
    }

    /** One axis of intentar_mover_con_tiles: the whole step if the stepped
        rectangle lies on walkable tiles, otherwise single pixels up to |d|
        until the next pixel would not. */
    method MoveAxis(axis: Axis, d: int, m: Grid)
      modifies this`rect
      ensures rect == Slide(m, old(rect), axis, d, TILE)
    {
      if d != 0 {
        var nuevo := Shift(rect, axis, d);
        if Fits(m, nuevo, TILE) {
          rect := nuevo;
        } else {
          var step := if d > 0 then 1 else -1;
          var r0 := rect;
          for i := 0 to Abs(d)
            invariant rect == Shift(r0, axis, step * i)
            invariant UnitSteps(m, r0, axis, step, Abs(d), TILE) == i + UnitSteps(m, rect, axis, step, Abs(d) - i, TILE)
          {
            var test := Shift(rect, axis, step);
            if Fits(m, test, TILE) {
              rect := test;
              assert step * i + step == step * (i + 1);
            } else {
              break;
            }
          }
        }
      }
    }

    /** intentar_mover_con_tiles: X first, then Y. */
    method TryMove(dx: int, dy: int, m: Grid)
      modifies this`rect
      ensures rect == Move(m, old(rect), dx, dy)
    {
      MoveAxis(Horizontal, dx, m);
      MoveAxis(Vertical, dy, m);
    }

    /** The aggro part of update: with the player in range and the cooldown
        passed, plan a path between the tiles under the two centres (none
        when either is not walkable or there is no map), pick the waypoint,
        note the time, and start chasing if the path is not empty. */
    method Aggro(player: Option<Rect>, mapa: Option<Grid>, now: int)
      requires Valid()
      modifies this
      ensures Valid()
      ensures rect == old(rect) && facing == old(facing) && direccion == old(direccion)
      ensures !(player.Some? && InAggro(old(rect), player.value, aggroRadius) && now - old(lastRepath) > REPATH_COOLDOWN) ==>
        path == old(path) && lastRepath == old(lastRepath) && mode == old(mode)
      ensures player.Some? && InAggro(old(rect), player.value, aggroRadius) && now - old(lastRepath) > REPATH_COOLDOWN ==>
        && lastRepath == now
        && mode == (if path != [] then Chasing else old(mode))
        && (!CanPlan(rect, player.value, mapa) ==> path == [])
        && (CanPlan(rect, player.value, mapa) ==>
              ShortestOrNone(mapa.value, path, GridTile(rect.CenterX(), rect.CenterY()),
                             GridTile(player.value.CenterX(), player.value.CenterY())))
    {
      if player.Some? && InAggro(rect, player.value, aggroRadius) {
        if now - lastRepath > REPATH_COOLDOWN {
          var start := GridTile(rect.CenterX(), rect.CenterY());
          var goal := GridTile(player.value.CenterX(), player.value.CenterY());
          if Present(mapa) && IsWalkable(mapa.value, start.0, start.1) && IsWalkable(mapa.value, goal.0, goal.1) {
            path := AStar(mapa.value, start, goal);
            var next: Option<Cell> := if |path| > 1 then Some(path[1]) else if |path| == 1 then Some(path[0]) else None;
            waypoint := if next.Some? then Some(TileCentre(next.value, rect.w, rect.h)) else None;
          } else {
            path := [];
            waypoint := None;
          }
          lastRepath := now;
          if path != [] {
            mode := Chasing;
          }
        }
      }
    }

    /** The patrol step: velocidad pixels in the patrol sense along the
        patrol axis, turning around once the distance from the origin along
        that axis reaches distancia. */
    method Patrol(m: Grid)
      requires Valid()
      modifies this
      ensures Valid()
      ensures mode == old(mode) && path == old(path) && lastRepath == old(lastRepath) && facing == old(facing)
      ensures rect == (if horizontal then Move(m, old(rect), velocidad * old(direccion), 0)
                       else Move(m, old(rect), 0, velocidad * old(direccion)))
      ensures direccion == (if Abs(if horizontal then rect.x - origin.0 else rect.y - origin.1) >= distancia
                            then -old(direccion) else old(direccion))
      ensures rect != old(rect) ==> Fits(m, rect, TILE)
    {
      if horizontal {
        MoveSound(m, rect, velocidad * direccion, 0);
        TryMove(velocidad * direccion, 0, m);
        if Abs(rect.x - origin.0) >= distancia {
          direccion := -direccion;
        }
      } else {
        MoveSound(m, rect, 0, velocidad * direccion);
        TryMove(0, velocidad * direccion, m);
        if Abs(rect.y - origin.1) >= distancia {
          direccion := -direccion;
        }
      }
    }

    /** The chase step: on the waypoint, drop the reached tile and aim at
        the next one, or finish the path; otherwise step toward the
        waypoint; with no path, step toward the player, or return when
        there is none. */
    method Chase(player: Option<Rect>, m: Grid, steer: ((int, int), (int, int)) -> (int, int))
      requires Valid() && Steering(steer, velocidad)
      modifies this
      ensures Valid()
      ensures lastRepath == old(lastRepath) && facing == old(facing) && direccion == old(direccion)
      ensures old(path) != [] && Truthy(old(waypoint)) ==>
        && mode == old(mode)
        && (old(waypoint).value == (old(rect).x, old(rect).y) ==>
              rect == old(rect) && path == (if |old(path)| > 1 then old(path)[1..] else []))
        && (old(waypoint).value != (old(rect).x, old(rect).y) ==>
              var s := steer((old(rect).x, old(rect).y), old(waypoint).value);
              rect == Move(m, old(rect), s.0, s.1) && path == old(path))
        && Toward(Moved(old(rect), rect), Aim((old(rect).x, old(rect).y), old(waypoint).value, velocidad), Abs(velocidad))
      ensures !(old(path) != [] && Truthy(old(waypoint))) ==>
        && path == old(path)
        && (player.Some? && (player.value.CenterX(), player.value.CenterY()) != (old(rect).x, old(rect).y) ==>
              var s := steer((old(rect).x, old(rect).y), (player.value.CenterX(), player.value.CenterY()));
              mode == old(mode) && rect == Move(m, old(rect), s.0, s.1))
        && (!(player.Some? && (player.value.CenterX(), player.value.CenterY()) != (old(rect).x, old(rect).y)) ==>
              mode == Returning && rect == old(rect))
        && (player.Some? ==>
              Toward(Moved(old(rect), rect),
                     Aim((old(rect).x, old(rect).y), (player.value.CenterX(), player.value.CenterY()), velocidad),
                     Abs(velocidad)))
      ensures rect != old(rect) ==> Fits(m, rect, TILE)
    {
      if path != [] && Truthy(waypoint) {
        if waypoint.value == (rect.x, rect.y) {
          if |path| > 1 {
            path := path[1..];
            var next := if |path| > 1 then path[1] else path[0];
            waypoint := Some(TileCentre(next, rect.w, rect.h));
          } else {
            path := [];
            waypoint := None;
          }
        } else {
          var s := steer((rect.x, rect.y), waypoint.value);
          MoveSound(m, rect, s.0, s.1);
          MoveToward(m, rect, s, Aim((rect.x, rect.y), waypoint.value, velocidad), Abs(velocidad));
          TryMove(s.0, s.1, m);
        }
      } else if player.Some? && (player.value.CenterX(), player.value.CenterY()) != (rect.x, rect.y) {
        var s := steer((rect.x, rect.y), (player.value.CenterX(), player.value.CenterY()));
        MoveSound(m, rect, s.0, s.1);
        MoveToward(m, rect, s, Aim((rect.x, rect.y), (player.value.CenterX(), player.value.CenterY()), velocidad), Abs(velocidad));
        TryMove(s.0, s.1, m);
      } else {
        mode := Returning;
      }
    }

    /** The return step: toward the origin until within one pixel, then
        patrol again. */
    method ReturnHome(m: Grid, steer: ((int, int), (int, int)) -> (int, int))
      requires Valid() && Steering(steer, velocidad)
      modifies this
      ensures Valid()
      ensures path == old(path) && lastRepath == old(lastRepath) && facing == old(facing) && direccion == old(direccion)
      ensures Dist2(origin.0, origin.1, old(rect).x, old(rect).y) > 1 ==>
        var s := steer((old(rect).x, old(rect).y), origin);
        mode == old(mode) && rect == Move(m, old(rect), s.0, s.1)
      ensures Dist2(origin.0, origin.1, old(rect).x, old(rect).y) <= 1 ==> mode == Patrolling && rect == old(rect)
      ensures Toward(Moved(old(rect), rect), Aim((old(rect).x, old(rect).y), origin, velocidad), Abs(velocidad))
      ensures rect != old(rect) ==> Fits(m, rect, TILE)
    {
      if Dist2(origin.0, origin.1, rect.x, rect.y) > 1 {
        var s := steer((rect.x, rect.y), origin);
        MoveSound(m, rect, s.0, s.1);
        MoveToward(m, rect, s, Aim((rect.x, rect.y), origin, velocidad), Abs(velocidad));
        TryMove(s.0, s.1, m);
      } else {
        mode := Patrolling;
      }
    }

    /** The behaviour part of update, by state: patrolling (or with no map)
        patrols, chasing chases, returning returns, idle does nothing.
        `steer` gives the rounded step from a point toward a target. Wherever the
        enemy moves on a map it ends on walkable tiles; without a map it
        stays put. */
    method Behave(player: Option<Rect>, mapa: Option<Grid>, steer: ((int, int), (int, int)) -> (int, int))
      requires Valid() && Steering(steer, velocidad)
      modifies this
      ensures Valid()
      ensures lastRepath == old(lastRepath) && facing == old(facing)
      ensures old(mode) == Patrolling || !Present(mapa) ==>
        && mode == old(mode) && path == old(path)
        && rect == (if horizontal then Move(MapOr(mapa), old(rect), velocidad * old(direccion), 0)
                    else Move(MapOr(mapa), old(rect), 0, velocidad * old(direccion)))
        && direccion == (if Abs(if horizontal then rect.x - origin.0 else rect.y - origin.1) >= distancia
                         then -old(direccion) else old(direccion))
      ensures old(mode) == Chasing && Present(mapa) && old(path) != [] && Truthy(old(waypoint)) ==>
        && mode == Chasing && direccion == old(direccion)
        && (old(waypoint).value == (old(rect).x, old(rect).y) ==>
              rect == old(rect) && path == (if |old(path)| > 1 then old(path)[1..] else []))
        && (old(waypoint).value != (old(rect).x, old(rect).y) ==>
              var s := steer((old(rect).x, old(rect).y), old(waypoint).value);
              rect == Move(mapa.value, old(rect), s.0, s.1) && path == old(path))
      ensures old(mode) == Chasing && Present(mapa) && !(old(path) != [] && Truthy(old(waypoint))) ==>
        && path == old(path) && direccion == old(direccion)
        && (player.Some? && (player.value.CenterX(), player.value.CenterY()) != (old(rect).x, old(rect).y) ==>
              var s := steer((old(rect).x, old(rect).y), (player.value.CenterX(), player.value.CenterY()));
              mode == Chasing && rect == Move(mapa.value, old(rect), s.0, s.1))
        && (!(player.Some? && (player.value.CenterX(), player.value.CenterY()) != (old(rect).x, old(rect).y)) ==>
              mode == Returning && rect == old(rect))
      ensures old(mode) == Returning && Present(mapa) ==>
        && path == old(path) && direccion == old(direccion)
        && (Dist2(origin.0, origin.1, old(rect).x, old(rect).y) > 1 ==>
              var s := steer((old(rect).x, old(rect).y), origin);
              mode == Returning && rect == Move(mapa.value, old(rect), s.0, s.1))
        && (Dist2(origin.0, origin.1, old(rect).x, old(rect).y) <= 1 ==> mode == Patrolling && rect == old(rect))
      ensures old(mode) == Idle && Present(mapa) ==>
        mode == Idle && path == old(path) && rect == old(rect) && direccion == old(direccion)
      ensures Present(mapa) && rect != old(rect) ==> Fits(mapa.value, rect, TILE)
      ensures !Present(mapa) ==> rect == old(rect)
    {
      var m := MapOr(mapa);
      if mode == Patrolling || !Present(mapa) {
        if !Present(mapa) {
          NoMapStandsStill(rect, velocidad * direccion, 0);
          NoMapStandsStill(rect, 0, velocidad * direccion);
        }
        Patrol(m);
      } else if mode == Chasing {
        Chase(player, m, steer);
      } else if mode == Returning {
        ReturnHome(m, steer);
      }
    }

    /** The facing part of update. */
    method Face()
      modifies this
      ensures facing == FacingFor(Heading(old(path), old(waypoint), old(rect)), old(facing))
      ensures rect == old(rect) && mode == old(mode) && path == old(path) && waypoint == old(waypoint)
      ensures lastRepath == old(lastRepath) && direccion == old(direccion)
    {
      var v := (0, 0);
      if waypoint.Some? && waypoint.value != (0, 0) {
        v := (waypoint.value.0 - rect.x, waypoint.value.1 - rect.y);
      } else if path != [] {
        var c := TileCentre(path[0], rect.w, rect.h);
        v := (c.0 - rect.x, c.1 - rect.y);
      }
      if v != (0, 0) {
        if Abs(v.0) >= Abs(v.1) {
          facing := if v.0 > 0 then Right else Left;
        } else {
          facing := if v.1 > 0 then Down else Up;
        }
      }
    }

    /** One frame: aggro and repath, behaviour by state, then facing. The
        enemy keeps its invariant, and wherever it ends up after moving on a
        given map its rectangle lies on walkable tiles. */
    method Update(player: Option<Rect>, mapa: Option<Grid>, now: int, steer: ((int, int), (int, int)) -> (int, int))
      requires Valid() && Steering(steer, velocidad)
      modifies this
      ensures Valid()
      ensures Present(mapa) && rect != old(rect) ==> Fits(mapa.value, rect, TILE)
      ensures !Present(mapa) ==> rect == old(rect)
    {
      Aggro(player, mapa, now);
      Behave(player, mapa, steer);
      Face();
    }
  }
}

=== FILE: foodsystem.dfy ===
/** The food system of the reusable game systems (games_systems/
    food_system.py): food items that appear at restaurants and are picked
    up on contact, and food zones that hand a dish to a player who stays
    in them. Clock readings are the parameter `now` (milliseconds); the
    random choices are nondeterministic. */
module FoodSystems {
  import opened Geometry
  import opened Items
  import opened Carriers

  /** The food types used when none are given. */
  const DEFAULT_FOOD_TYPES: seq<string> := ["ron", "tabaco", "miel", "empanada", "lomito"]

  /** Side of a food sprite in pixels. */
  const FOOD_SIZE: nat := 16

  /** Two items closer than this many pixels (centre to centre) are too
      close for a random spawn. */
  const MIN_DISTANCE: int := 32

  /** Attempts a spawn makes before it gives up. */
  const MAX_ATTEMPTS: nat := 10

  /** What a player gets an item through: its `inventory` dictionary when
      it has one (the count goes up by one, an absent item starting at 1),
      else its `add_item` method (called once with the item and 1), else
      nothing. */
  predicate CreditedTo(inv: Option<Inventory>, calls: seq<(string, int)>, hasAddItem: bool, item: string,
                       inv': Option<Inventory>, calls': seq<(string, int)>)
  {
    if inv.Some? then inv' == Some(Added(inv.value, item, 1)) && calls' == calls
    else if hasAddItem then inv' == inv && calls' == calls + [(item, 1)]
    else inv' == inv && calls' == calls
  }

  /** The player can receive items at all. */
  predicate Receives(inv: Option<Inventory>, hasAddItem: bool) {
    inv.Some? || hasAddItem
  }

  /** The shared body of `pickup` and `_give_item_to_player`: one `item`
      for the player by whichever means it has. */
  method Credit(player: Carrier, item: string) returns (credited: bool)
    modifies player`inventory, player`addItemCalls
    ensures credited <==> Receives(old(player.inventory), player.hasAddItem)
    ensures CreditedTo(old(player.inventory), old(player.addItemCalls), player.hasAddItem, item,
                       player.inventory, player.addItemCalls)
  {
    if player.inventory.Some? {
      var inv := player.inventory.value;
      player.inventory := Some(inv[item := Count(inv, item) + 1]);
      return true;
    } else if player.hasAddItem {
      player.addItemCalls := player.addItemCalls + [(item, 1)];
      return true;
    }
    return false;
  }

  class FoodItem {
    const rect: Rect
    const foodType: string
    const spawnTime: int
    /** Set by a successful pickup, which also kills the sprite: the food
        system then no longer lists it. */
    var collected: bool

    /** A FOOD_SIZE square centred on (x, y). */
    constructor (x: int, y: int, foodType: string, now: int)
      ensures rect == Rect(x - FOOD_SIZE / 2, y - FOOD_SIZE / 2, FOOD_SIZE, FOOD_SIZE)
      ensures rect.CenterX() == x && rect.CenterY() == y
      ensures this.foodType == foodType && spawnTime == now && !collected
    {
      rect := Rect(x - FOOD_SIZE / 2, y - FOOD_SIZE / 2, FOOD_SIZE, FOOD_SIZE);
      this.foodType := foodType;
      spawnTime := now;
      collected := false;
    }

    /** pickup. An item already collected gives nothing again. Otherwise
        a player that can receive items gets one of this type, and the
        item is collected and leaves its groups; a player that cannot gets
        nothing and the item stays. */
    method Pickup(player: Carrier) returns (ok: bool)
      modifies this`collected, player`inventory, player`addItemCalls
      ensures ok <==> !old(collected) && Receives(old(player.inventory), player.hasAddItem)
      ensures old(collected) ==>
        && collected
        && player.inventory == old(player.inventory) && player.addItemCalls == old(player.addItemCalls)
      ensures !old(collected) ==>
        && CreditedTo(old(player.inventory), old(player.addItemCalls), player.hasAddItem, foodType,
                      player.inventory, player.addItemCalls)
        && collected == ok
    {
      if collected {
        return false;
      }
      ok := Credit(player, foodType);
      if ok {
        collected := true;
      }
    }
  }

  /** One frame of a food zone for one player: `needs` says the player
      lacks the item, `inZone` that it overlaps the zone. A needing player
      in the zone gets a timer; once it has run for `giveTime` the item is
      granted (the flag) and the timer dropped. A player who leaves or no
      longer needs the item loses its timer. Other players' timers stay. */
  function Tick(timers: map<Carrier, int>, p: Carrier, needs: bool, inZone: bool, now: int, giveTime: int)
    : (r: (map<Carrier, int>, bool))
    ensures r.1 <==> needs && inZone && p in timers && now - timers[p] >= giveTime
    ensures p in r.0 <==> needs && inZone && (p in timers ==> now - timers[p] < giveTime)
    ensures p in r.0 ==> r.0[p] == (if p in timers then timers[p] else now)
    ensures r.0.Keys - {p} == timers.Keys - {p}
    ensures forall q :: q in r.0 && q != p ==> q in timers && r.0[q] == timers[q]
  {
    if needs && inZone then
      if p !in timers then (timers[p := now], false)
      else if now - timers[p] >= giveTime then (timers - {p}, true)
      else (timers, false)
    else (timers - {p}, false)
  }

  /** `player.inventory.get(item_name, 0) < 1`, and true for a player
      without an inventory. */
  predicate Needs(inv: Option<Inventory>, item: string) {
    inv.None? || Count(inv.value, item) < 1
  }

  /** Items a food zone grants over a run of frames of one player holding
      `count` of the zone's item in its inventory: each frame says whether
      the player overlaps the zone and when it happens. */
  function Grants(timers: map<Carrier, int>, p: Carrier, count: int, frames: seq<(bool, int)>, giveTime: int): nat
    decreases |frames|
  {
    if frames == [] then 0
    else
      var (t, g) := Tick(timers, p, count < 1, frames[0].0, frames[0].1, giveTime);
      (if g then 1 else 0) + Grants(t, p, if g then count + 1 else count, frames[1..], giveTime)
  }

  /** A player who already holds the item is never given another. */
  lemma {:induction false} HolderNotGranted(timers: map<Carrier, int>, p: Carrier, count: int, frames: seq<(bool, int)>, giveTime: int)
    requires count >= 1
    ensures Grants(timers, p, count, frames, giveTime) == 0
    decreases |frames|
  {
    if frames != [] {
      var (t, g) := Tick(timers, p, count < 1, frames[0].0, frames[0].1, giveTime);
      HolderNotGranted(t, p, count, frames[1..], giveTime);
    }
  }

  /** A player with no negative count gets the item from a zone at most
      once, however long it stays or comes back: the grant makes the count
      1 and the zone stops timing it. */
  lemma {:induction false} GrantedAtMostOnce(timers: map<Carrier, int>, p: Carrier, count: int, frames: seq<(bool, int)>, giveTime: int)
    requires count >= 0
    ensures Grants(timers, p, count, frames, giveTime) <= 1
    decreases |frames|
  {
    if frames != [] {
      var (t, g) := Tick(timers, p, count < 1, frames[0].0, frames[0].1, giveTime);
      if g {
        HolderNotGranted(t, p, count + 1, frames[1..], giveTime);
      } else {
        GrantedAtMostOnce(t, p, count, frames[1..], giveTime);
      }
    }
  }

  class FoodZone {
    const rect: Rect
    const itemName: string
    const giveTime: int
    var timers: map<Carrier, int>

    constructor (x: int, y: int, w: nat, h: nat, itemName: string, giveTime: int)
      ensures rect == Rect(x, y, w, h) && this.itemName == itemName && this.giveTime == giveTime
      ensures timers == map[]
    {
      rect := Rect(x, y, w, h);
      this.itemName := itemName;
      this.giveTime := giveTime;
      timers := map[];
    }

    /** FoodZone.update for a player (with no player it returns at once,
        and the food system only calls it with one): one Tick, and the
        item credited when the Tick grants it. */
    method Update(player: Carrier, now: int)
      modifies this`timers, player`inventory, player`addItemCalls
      ensures var r := Tick(old(timers), player, Needs(old(player.inventory), itemName), Overlaps(rect, player.rect), now, giveTime);
        && timers == r.0
        && (r.1 ==> CreditedTo(old(player.inventory), old(player.addItemCalls), player.hasAddItem, itemName,
                               player.inventory, player.addItemCalls))
        && (!r.1 ==> player.inventory == old(player.inventory) && player.addItemCalls == old(player.addItemCalls))
    {
      var needs := true;
      if player.inventory.Some? {
        needs := Count(player.inventory.value, itemName) < 1;
      }
      if needs && Overlaps(rect, player.rect) {
        if player !in timers {
          timers := timers[player := now];
        } else if now - timers[player] >= giveTime {
          var _ := Credit(player, itemName);
          timers := timers - {player};
        }
      } else if player in timers {
        timers := timers - {player};
      }
    }
  }

  predicate Distinct<T(==)>(s: seq<T>) {
    forall i, j :: 0 <= i < j < |s| ==> s[i] != s[j]
  }

  /** A player that can receive items (`recv`) and whose rectangle is
      `r` takes the item f when it touches it. */
  predicate Takes(recv: bool, r: Rect, f: FoodItem) {
    recv && Overlaps(r, f.rect)
  }

  /** The types of the items among the first n of a group that are taken,
      in group order. */
  function PickedTypes(group: seq<FoodItem>, n: nat, recv: bool, r: Rect): (ts: seq<string>)
    requires n <= |group|
    ensures !recv ==> ts == []
  {
    if n == 0 then []
    else PickedTypes(group, n - 1, recv, r) + (if Takes(recv, r, group[n - 1]) then [group[n - 1].foodType] else [])
  }

  /** The items among the first n of a group that are not taken, in group
      order. */
  function Kept(group: seq<FoodItem>, n: nat, recv: bool, r: Rect): (u: seq<FoodItem>)
    requires n <= |group|
    ensures |PickedTypes(group, n, recv, r)| + |u| == n
    ensures !recv ==> u == group[..n]
  {
    if n == 0 then []
    else Kept(group, n - 1, recv, r) + (if Takes(recv, r, group[n - 1]) then [] else [group[n - 1]])
  }

  /** The food types of a group, in group order. */
  function TypesOf(group: seq<FoodItem>): (ts: seq<string>)
    ensures |ts| == |group|
    decreases |group|
  {
    if group == [] then [] else TypesOf(group[..|group| - 1]) + [group[|group| - 1].foodType]
  }

  /** An inventory after one more of each name, in order. */
  function AddedEach(inv: Inventory, names: seq<string>): Inventory
    decreases |names|
  {
    if names == [] then inv else Added(AddedEach(inv, names[..|names| - 1]), names[|names| - 1], 1)
  }

  /** The `add_item(name, 1)` calls for each name, in order. */
  function OneOfEach(names: seq<string>): (calls: seq<(string, int)>)
    ensures |calls| == |names|
    ensures forall i :: 0 <= i < |names| ==> calls[i] == (names[i], 1)
    decreases |names|
  {
    if names == [] then [] else OneOfEach(names[..|names| - 1]) + [(names[|names| - 1], 1)]
  }

  /** Crediting a list of names raises each count by the number of times
      the name occurs in it and touches nothing else. */
  lemma {:induction false} AddedEachCounts(inv: Inventory, names: seq<string>, item: string)
    ensures Count(AddedEach(inv, names), item) == Count(inv, item) + multiset(names)[item]
    decreases |names|
  {
    if names != [] {
      var pre := names[..|names| - 1];
      AddedEachCounts(inv, pre, item);
      assert names == pre + [names[|names| - 1]];
    }
  }

  /** `counts[t] = counts.get(t, 0) + 1` over a list of types. */
  function Tally(types: seq<string>): Inventory
    decreases |types|
  {
    if types == [] then map[] else Added(Tally(types[..|types| - 1]), types[|types| - 1], 1)
  }

  /** Each type is counted as often as it occurs, and only occurring types
      have an entry. */
  lemma {:induction false} TallyCounts(types: seq<string>, t: string)
    ensures t in Tally(types) <==> t in types
    ensures Count(Tally(types), t) == multiset(types)[t]
    decreases |types|
  {
    if types != [] {
      var pre := types[..|types| - 1];
      TallyCounts(pre, t);
      assert types == pre + [types[|types| - 1]];
    }
  }

  /** Some entry of a non-empty inventory. */
  ghost function PickKey(m: Inventory): (k: string)
    requires m != map[]
    ensures k in m
  {
    var k :| k in m; k
  }

  /** The sum of the counts of an inventory. */
  ghost function Sum(m: Inventory): int
    decreases |m|
  {
    if m == map[] then 0
    else
      var k := PickKey(m);
      m[k] + Sum(m - {k})
  }

  /** The sum does not depend on which entry is taken first. */
  lemma {:induction false} SumRemove(m: Inventory, k: string)
    requires k in m
    ensures Sum(m) == m[k] + Sum(m - {k})
    decreases |m|
  {
    var j := PickKey(m);
    if j != k {
      assert (m - {j}).Keys == (m - {j} - {k}).Keys + {k};
      assert (m - {k}).Keys == (m - {k} - {j}).Keys + {j};
      SumRemove(m - {j}, k);
      SumRemove(m - {k}, j);
      assert m - {j} - {k} == m - {k} - {j};
    }
  }

  /** One more of a type adds one to the sum. */
  lemma {:induction false} SumAdded(m: Inventory, t: string)
    ensures Sum(Added(m, t, 1)) == Sum(m) + 1
  {
    var r := Added(m, t, 1);
    assert r.Keys == (r - {t}).Keys + {t};
    SumRemove(r, t);
    assert r - {t} == m - {t};
    if t in m {
      assert m.Keys == (m - {t}).Keys + {t};
      SumRemove(m, t);
    } else {
      assert m - {t} == m;
    }
  }

  /** The counts of get_food_by_type add up to the number of items. */
  lemma {:induction false} TallySum(types: seq<string>)
    ensures Sum(Tally(types)) == |types|
    decreases |types|
  {
    if types != [] {
      TallySum(types[..|types| - 1]);
      SumAdded(Tally(types[..|types| - 1]), types[|types| - 1]);
    }
  }

  /** No item of the group has its centre within MIN_DISTANCE of (x, y). */
  predicate FarFromAll(x: int, y: int, group: seq<FoodItem>) {
    forall i :: 0 <= i < |group| ==>
      Dist2(x, y, group[i].rect.CenterX(), group[i].rect.CenterY()) >= MIN_DISTANCE * MIN_DISTANCE
  }

  /** The loop of spawn_food_item looking for an item too close to (x, y). */
  method TooClose(x: int, y: int, group: seq<FoodItem>) returns (close: bool)
    ensures close <==> !FarFromAll(x, y, group)
  {
    for i := 0 to |group|
      invariant FarFromAll(x, y, group[..i])
    {
      if Dist2(x, y, group[i].rect.CenterX(), group[i].rect.CenterY()) < MIN_DISTANCE * MIN_DISTANCE {
        assert !FarFromAll(x, y, group);
        return true;
      }
    }
    assert group[..|group|] == group;
    return false;
  }

  /** What a player gets for a list of picked-up types: with an
      inventory, one more of each; else, with `add_item`, one call per
      type; else nothing (and then nothing was picked up). */
  predicate CreditedAll(inv: Option<Inventory>, calls: seq<(string, int)>, hasAddItem: bool, names: seq<string>,
                        inv': Option<Inventory>, calls': seq<(string, int)>)
  {
    if inv.Some? then inv' == Some(AddedEach(inv.value, names)) && calls' == calls
    else if hasAddItem then inv' == inv && calls' == calls + OneOfEach(names)
    else inv' == inv && calls' == calls && names == []
  }

  /** The kept items are untouched items of the group, each once when
      the group holds each once. */
  lemma {:induction false} KeptFrom(group: seq<FoodItem>, n: nat, recv: bool, r: Rect)
    requires n <= |group|
    ensures forall i :: 0 <= i < |Kept(group, n, recv, r)| ==>
      Kept(group, n, recv, r)[i] in group[..n] && !Takes(recv, r, Kept(group, n, recv, r)[i])
    ensures Distinct(group) ==> Distinct(Kept(group, n, recv, r))
    decreases n
  {
    if n > 0 {
      KeptFrom(group, n - 1, recv, r);
      assert group[..n] == group[..n - 1] + [group[n - 1]];
      if Distinct(group) && !Takes(recv, r, group[n - 1]) {
        assert group[n - 1] !in group[..n - 1];
      }
    }
  }

  /** One round of the loop of check_food_pickup: an item the player
      touches is offered to it; a picked-up item adds its type to the list,
      any other item stays on the map. `inv0` and `calls0` are the
      player's inventory and add_item calls before the loop. */
  method PickupOne(f: FoodItem, player: Carrier, picked: seq<string>, remaining: seq<FoodItem>,
                   ghost inv0: Option<Inventory>, ghost calls0: seq<(string, int)>)
    returns (picked': seq<string>, remaining': seq<FoodItem>)
    requires !f.collected && inv0.Some? == player.inventory.Some?
    requires CreditedAll(inv0, calls0, player.hasAddItem, picked, player.inventory, player.addItemCalls)
    modifies f`collected, player`inventory, player`addItemCalls
    ensures var taken := Takes(Receives(inv0, player.hasAddItem), player.rect, f);
      && picked' == picked + (if taken then [f.foodType] else [])
      && remaining' == remaining + (if taken then [] else [f])
      && f.collected == taken
    ensures CreditedAll(inv0, calls0, player.hasAddItem, picked', player.inventory, player.addItemCalls)
    ensures player.inventory.Some? == inv0.Some?
  {
    picked', remaining' := picked, remaining + [f];
    if Overlaps(player.rect, f.rect) {
      var ok := f.Pickup(player);
      if ok {
        picked', remaining' := picked + [f.foodType], remaining;
        assert picked'[..|picked|] == picked;
      }
    }
  }

  /** The loop of check_food_pickup over a list of items none of which is
      collected yet. */
  method PickupEach(group: seq<FoodItem>, player: Carrier) returns (picked: seq<string>, remaining: seq<FoodItem>)
    requires Distinct(group)
    requires forall i :: 0 <= i < |group| ==> !group[i].collected
    modifies (set f | f in group), player`inventory, player`addItemCalls
    ensures var r := Receives(old(player.inventory), player.hasAddItem);
      && picked == PickedTypes(group, |group|, r, player.rect)
      && remaining == Kept(group, |group|, r, player.rect)
      && CreditedAll(old(player.inventory), old(player.addItemCalls), player.hasAddItem, picked,
                     player.inventory, player.addItemCalls)
      && (forall i :: 0 <= i < |group| ==> group[i].collected == Takes(r, player.rect, group[i]))
  {
    ghost var inv0, calls0 := player.inventory, player.addItemCalls;
    ghost var r := Receives(inv0, player.hasAddItem);
    ghost var pr := player.rect;
    picked := [];
    remaining := [];
    for i := 0 to |group|
      invariant player.rect == pr
      invariant picked == PickedTypes(group, i, r, pr) && remaining == Kept(group, i, r, pr)
      invariant CreditedAll(inv0, calls0, player.hasAddItem, picked, player.inventory, player.addItemCalls)
      invariant player.inventory.Some? == inv0.Some?
      invariant forall j :: 0 <= j < i ==> group[j].collected == Takes(r, pr, group[j])
      invariant forall j :: i <= j < |group| ==> !group[j].collected
    {
      picked, remaining := PickupOne(group[i], player, picked, remaining, inv0, calls0);
    }
  }

  class FoodSystem {
    const restaurants: seq<(int, int)>
    const foodTypes: seq<string>
    const maxItems: int
    const spawnInterval: int
    var items: seq<FoodItem>
    var zones: seq<FoodZone>
    var lastSpawn: int

    /** The items on the map are distinct and not yet collected, there are
        never more of them than the maximum, and there is a type to
        choose. */
    ghost predicate Valid()
      reads this, set f | f in items
    {
      && foodTypes != []
      && Distinct(items) && Distinct(zones)
      && (forall i :: 0 <= i < |items| ==> !items[i].collected)
      && (|items| == 0 || |items| <= maxItems)
    }

    /** `food_types or [...]`: a missing or empty list of types means the
        default five. */
    constructor (restaurants: seq<(int, int)>, foodTypes: Option<seq<string>>, maxItems: int, spawnInterval: int)
      ensures this.restaurants == restaurants && this.maxItems == maxItems && this.spawnInterval == spawnInterval
      ensures this.foodTypes == (if foodTypes.Some? && foodTypes.value != [] then foodTypes.value else DEFAULT_FOOD_TYPES)
      ensures items == [] && zones == [] && lastSpawn == 0
      ensures Valid()
    {
      this.restaurants := restaurants;
      this.foodTypes := if foodTypes.Some? && foodTypes.value != [] then foodTypes.value else DEFAULT_FOOD_TYPES;
      this.maxItems := maxItems;
      this.spawnInterval := spawnInterval;
      items := [];
      zones := [];
      lastSpawn := 0;
    }

    /** add_food_zone. */
    method AddFoodZone(x: int, y: int, w: nat, h: nat, itemName: string, giveTime: int)
      requires Valid()
      modifies this`zones
      ensures Valid()
      ensures |zones| == |old(zones)| + 1 && zones[..|old(zones)|] == old(zones)
      ensures var z := zones[|zones| - 1];
        fresh(z) && z.rect == Rect(x, y, w, h) && z.itemName == itemName && z.giveTime == giveTime && z.timers == map[]
    {
      var z := new FoodZone(x, y, w, h, itemName, giveTime);
      zones := zones + [z];
    }

    /** spawn_food_item. Nothing at the maximum, nor without restaurants
        and a forced position. Otherwise up to MAX_ATTEMPTS draws: the
        forced position, or a random restaurant that no item is within
        MIN_DISTANCE of; the first acceptable one gets one new item of a
        random type. A forced position is always acceptable. */
    method SpawnFoodItem(force: Option<(int, int)>, now: int) returns (ok: bool)
      requires Valid()
      modifies this`items
      ensures Valid()
      ensures |old(items)| >= maxItems ==> !ok
      ensures restaurants == [] && force.None? ==> !ok
      ensures force.Some? && |old(items)| < maxItems ==> ok
      ensures !ok ==> items == old(items)
      ensures ok ==>
        && |items| == |old(items)| + 1 && items[..|old(items)|] == old(items)
        && var f := items[|items| - 1];
          && fresh(f) && !f.collected && f.spawnTime == now && f.foodType in foodTypes
          && (force.Some? ==> (f.rect.CenterX(), f.rect.CenterY()) == force.value)
          && (force.None? ==> (f.rect.CenterX(), f.rect.CenterY()) in restaurants
                              && FarFromAll(f.rect.CenterX(), f.rect.CenterY(), old(items)))
    {
      if |items| >= maxItems {
        return false;
      }
      if restaurants == [] && force.None? {
        return false;
      }
      for attempt := 0 to MAX_ATTEMPTS
        invariant items == old(items)
        invariant force.Some? ==> attempt == 0
      {
        var pos: (int, int);
        if force.Some? {
          pos := force.value;
        } else {
          assert restaurants[0] in restaurants;
          pos :| pos in restaurants;
        }
        var close := TooClose(pos.0, pos.1, items);
        if close && force.None? {
          continue;
        }
        assert foodTypes[0] in foodTypes;
        var foodType :| foodType in foodTypes;
        var f := new FoodItem(pos.0, pos.1, foodType, now);
        items := items + [f];
        return true;
      }
      return false;
    }

    /** The spawn step of update: once more than the interval has passed
        and there is room, a spawn is tried, and only a successful one
        restarts the spawn clock. */
    method SpawnTick(now: int) returns (spawned: bool)
      requires Valid()
      modifies this`items, this`lastSpawn
      ensures Valid()
      ensures spawned ==> now - old(lastSpawn) > spawnInterval && |old(items)| < maxItems
      ensures spawned ==> |items| == |old(items)| + 1 && items[..|old(items)|] == old(items) && fresh(items[|items| - 1])
      ensures !spawned ==> items == old(items)
      ensures lastSpawn == (if spawned then now else old(lastSpawn))
    {
      spawned := false;
      if now - lastSpawn > spawnInterval && |items| < maxItems {
        spawned := SpawnFoodItem(None, now);
        if spawned {
          lastSpawn := now;
        }
      }
    }

    /** The zone loop of update: each zone in turn runs its frame for the
        player. Only the player's timers change, and the player's counts
        never go down. */
    method UpdateZones(player: Carrier, now: int)
      requires Valid()
      modifies (set z | z in zones), player`inventory, player`addItemCalls
      ensures player.inventory.Some? == old(player.inventory).Some?
      ensures player.inventory.Some? ==>
        forall k :: Count(player.inventory.value, k) >= Count(old(player.inventory).value, k)
      ensures forall i, q :: 0 <= i < |zones| && q != player ==>
        (q in zones[i].timers <==> q in old(zones[i].timers)) && (q in zones[i].timers ==> zones[i].timers[q] == old(zones[i].timers)[q])
      ensures forall i :: 0 <= i < |zones| && player in zones[i].timers ==> Overlaps(zones[i].rect, player.rect)
    {
      for i := 0 to |zones|
        invariant player.inventory.Some? == old(player.inventory).Some?
        invariant player.inventory.Some? ==>
          forall k :: Count(player.inventory.value, k) >= Count(old(player.inventory).value, k)
        invariant forall j, q :: 0 <= j < |zones| && q != player ==>
          (q in zones[j].timers <==> q in old(zones[j].timers)) && (q in zones[j].timers ==> zones[j].timers[q] == old(zones[j].timers)[q])
        invariant forall j :: 0 <= j < i && player in zones[j].timers ==> Overlaps(zones[j].rect, player.rect)
      {
        zones[i].Update(player, now);
      }
    }

    /** check_food_pickup. Over the items as they were at the call, each
        one the player touches is picked up. A player that can receive
        items gets one of each touched item's type, the touched items leave
        the map and their types are returned in order; a player that cannot
        gets nothing and every item stays. */
    method CheckFoodPickup(player: Carrier) returns (picked: seq<string>)
      requires Valid()
      modifies this`items, (set f | f in items), player`inventory, player`addItemCalls
      ensures Valid()
      ensures var r := Receives(old(player.inventory), player.hasAddItem);
        && picked == PickedTypes(old(items), |old(items)|, r, player.rect)
        && items == Kept(old(items), |old(items)|, r, player.rect)
        && |picked| + |items| == |old(items)|
        && CreditedAll(old(player.inventory), old(player.addItemCalls), player.hasAddItem, picked,
                       player.inventory, player.addItemCalls)
    {
      picked, items := PickupEach(items, player);
      KeptFrom(old(items), |old(items)|, Receives(old(player.inventory), player.hasAddItem), player.rect);
      assert old(items)[..|old(items)|] == old(items);
    }

    /** update: the spawn step, then, with a player, the zones and the
        pickups. */
    method Update(player: Carrier?, now: int)
      requires Valid()
      modifies this`items, this`lastSpawn, (set f | f in items), (set z | z in zones), player
      ensures Valid()
      ensures lastSpawn == now || lastSpawn == old(lastSpawn)
      ensures lastSpawn != old(lastSpawn) ==> now - old(lastSpawn) > spawnInterval && |old(items)| < maxItems
      ensures player == null ==> |old(items)| <= |items| <= |old(items)| + 1 && items[..|old(items)|] == old(items)
      ensures player != null ==> player.rect == old(player.rect) && player.coin == old(player.coin) && player.coins == old(player.coins)
    {
      var _ := SpawnTick(now);
      if player != null {
        UpdateZones(player, now);
        var _ := CheckFoodPickup(player);
      }
    }

    /** get_food_by_type: how many items of each type are on the map. */
    method GetFoodByType() returns (counts: Inventory)
      ensures counts == Tally(TypesOf(items))
      ensures forall t :: t in counts <==> t in TypesOf(items)
      ensures forall t :: Count(counts, t) == multiset(TypesOf(items))[t]
      ensures Sum(counts) == |items|
    {
      counts := map[];
      for i := 0 to |items|
        invariant counts == Tally(TypesOf(items[..i]))
      {
        var t := items[i].foodType;
        assert items[..i + 1][..i] == items[..i];
        assert TypesOf(items[..i + 1]) == TypesOf(items[..i]) + [t];
        counts := counts[t := Count(counts, t) + 1];
      }
      assert items[..|items|] == items;
      forall t ensures (t in counts <==> t in TypesOf(items)) && Count(counts, t) == multiset(TypesOf(items))[t] {
        TallyCounts(TypesOf(items), t);
      }
      TallySum(TypesOf(items));
    }
  }
}

=== FILE: gamestate.dfy ===
/** The screens of the game (game_state.py): the main menu, the running
    game and the game-over screen, with a two-entry selection (0 and 1)
    moved by the arrow keys on both menus. */
module GameStates {
  import opened Geometry

  datatype GameState = Menu | Playing | GameOver

  /** The keys the handlers distinguish; every other key is OtherKey. */
  datatype Key = KeyUp | KeyDown | KeyReturn | KeySpace | KeyW | KeyA | KeyS | KeyD
               | KeyLeft | KeyRight | KeyR | KeyQ | OtherKey

  /** A pygame event: a key press, or anything else. */
  datatype Event = KeyPress(key: Key) | OtherEvent

  /** The strings the handlers return: "start_game", "quit", "restart", "menu". */
  datatype Action = StartGame | Quit | Restart | ToMenu

  /** UP and DOWN on either menu: one entry up (not below 0) or one entry
      down (not above 1); any other key keeps the selection. */
  function Navigate(sel: int, key: Key): (s: int)
    ensures 0 <= sel <= 1 ==> 0 <= s <= 1
    ensures key == KeyUp ==> s == (if sel >= 1 then sel - 1 else 0)
    ensures key == KeyDown ==> s == (if sel <= 0 then sel + 1 else 1)
    ensures key != KeyUp && key != KeyDown ==> s == sel
  {
    if key == KeyUp then (if 0 >= sel - 1 then 0 else sel - 1)
    else if key == KeyDown then (if 1 <= sel + 1 then 1 else sel + 1)
    else sel
  }

  /** The quick-start keys of the menu that reach their branch: UP and
      DOWN are in the source's list too but are matched earlier. */
  predicate QuickStart(key: Key) {
    key == KeyW || key == KeyA || key == KeyS || key == KeyD || key == KeyLeft || key == KeyRight
  }

  /** However the keys are pressed, the selection stays 0 or 1. */
  lemma {:induction false} NavigateStaysInRange(sel: int, keys: seq<Key>)
    requires 0 <= sel <= 1
    ensures 0 <= Navigated(sel, keys) <= 1
    decreases |keys|
  {
    if keys != [] {
      NavigateStaysInRange(Navigate(sel, keys[0]), keys[1..]);
    }
  }

  /** The selection after a run of key presses. */
  function Navigated(sel: int, keys: seq<Key>): int
    decreases |keys|
  {
    if keys == [] then sel else Navigated(Navigate(sel, keys[0]), keys[1..])
  }

  class GameStateManager {
    var current: GameState
    var selected: int

    ghost predicate Valid()
      reads this
    {
      0 <= selected <= 1
    }

    constructor ()
      ensures current == Menu && selected == 0 && Valid()
    {
      current := Menu;
      selected := 0;
    }

    /** handle_menu_input. */
    method HandleMenuInput(event: Event) returns (action: Option<Action>)
      requires Valid()
      modifies this
      ensures Valid()
      ensures event == OtherEvent ==> action == None && current == old(current) && selected == old(selected)
      ensures event.KeyPress? && (event.key == KeyUp || event.key == KeyDown) ==>
        action == None && current == old(current) && selected == Navigate(old(selected), event.key)
      ensures event.KeyPress? && (event.key == KeyReturn || event.key == KeySpace) ==>
        selected == old(selected) &&
        (if old(selected) == 0 then current == Playing && action == Some(StartGame)
         else current == old(current) && action == Some(Quit))
      ensures event.KeyPress? && QuickStart(event.key) ==>
        current == Playing && action == Some(StartGame) && selected == old(selected)
      ensures event.KeyPress? && (event.key == KeyR || event.key == KeyQ || event.key == OtherKey) ==>
        action == None && current == old(current) && selected == old(selected)
    {
      action := None;
      if event.KeyPress? {
        var key := event.key;
        if key == KeyUp {
          selected := if 0 >= selected - 1 then 0 else selected - 1;
        } else if key == KeyDown {
          selected := if 1 <= selected + 1 then 1 else selected + 1;
        } else if key == KeyReturn || key == KeySpace {
          if selected == 0 {
            current := Playing;
            return Some(StartGame);
          } else if selected == 1 {
            return Some(Quit);
          }
        } else if key in {KeyW, KeyA, KeyS, KeyD, KeyUp, KeyDown, KeyLeft, KeyRight} {
          current := Playing;
          return Some(StartGame);
        }
      }
    }

    /** handle_game_over_input. */
    method HandleGameOverInput(event: Event) returns (action: Option<Action>)
      requires Valid()
      modifies this
      ensures Valid()
      ensures event == OtherEvent ==> action == None && current == old(current) && selected == old(selected)
      ensures event.KeyPress? && (event.key == KeyUp || event.key == KeyDown) ==>
        action == None && current == old(current) && selected == Navigate(old(selected), event.key)
      ensures event.KeyPress? && (event.key == KeyReturn || event.key == KeySpace) ==>
        if old(selected) == 0 then current == Playing && action == Some(Restart) && selected == 0
        else current == Menu && action == Some(ToMenu) && selected == 0
      ensures event == KeyPress(KeyR) ==> current == Playing && action == Some(Restart) && selected == old(selected)
      ensures event == KeyPress(KeyQ) ==> current == old(current) && action == Some(Quit) && selected == old(selected)
      ensures event.KeyPress? && (QuickStart(event.key) || event.key == OtherKey) ==>
        action == None && current == old(current) && selected == old(selected)
    {
      action := None;
      if event.KeyPress? {
        var key := event.key;
        if key == KeyUp {
          selected := if 0 >= selected - 1 then 0 else selected - 1;
        } else if key == KeyDown {
          selected := if 1 <= selected + 1 then 1 else selected + 1;
        } else if key == KeyReturn || key == KeySpace {
          if selected == 0 {
            current := Playing;
            return Some(Restart);
          } else if selected == 1 {
            current := Menu;
            selected := 0;
            return Some(ToMenu);
          }
        } else if key == KeyR {
          current := Playing;
          return Some(Restart);
        } else if key == KeyQ {
          return Some(Quit);
        }
      }
    }

    /** set_state: any screen, with the selection back on the first entry. */
    method SetState(state: GameState)
      modifies this
      ensures current == state && selected == 0 && Valid()
    {
      current := state;
      selected := 0;
    }

    /** trigger_game_over. */
    method TriggerGameOver()
      modifies this
      ensures current == GameOver && selected == 0 && Valid()
    {
      current := GameOver;
      selected := 0;
    }
  }
}

=== FILE: geometry.dfy ===
/** Pixel geometry shared by every part of the game: rectangles in the
    style of pygame.Rect and the rectangle-overlap test used for all
    sprite-versus-sprite collisions. */
module Geometry {

  /** A strictly positive integer: tile sizes, durations, divisors. */
  type Pos = n: int | n > 0 witness 1

  datatype Option<T> = None | Some(value: T)

  /** The four directions a sprite can face; y grows downwards. */
  datatype Facing = Left | Right | Up | Down

  /** Unit vector of a facing, with y growing downwards as on screen. */
  function Unit(f: Facing): (int, int) {
    match f
    case Left => (-1, 0)
    case Right => (1, 0)
    case Up => (0, -1)
    case Down => (0, 1)
  }

  /** Dot product of two integer vectors. */
  function Dot(a: (int, int), b: (int, int)): int {
    a.0 * b.0 + a.1 * b.1
  }

  function Abs(n: int): (r: nat)
    ensures r == n || r == -n
  {
    if n < 0 then -n else n
  }

  /** -1, 0 or 1 according to the sign of n. */
  function Sign(n: int): (r: int)
    ensures r * Abs(n) == n && (n != 0 ==> Abs(r) == 1)
  {
    if n > 0 then 1 else if n < 0 then -1 else 0
  }

  /** An axis-aligned rectangle in pixels: top-left corner and size. */
  datatype Rect = Rect(x: int, y: int, w: nat, h: nat) {
    function Right(): int { x + w }
    function Bottom(): int { y + h }
    /** pygame's centerx / centery: the corner plus half the size, rounded down. */
    function CenterX(): int { x + w / 2 }
    function CenterY(): int { y + h / 2 }
  }

  /** pygame's colliderect: the two rectangles share interior area.  The
      comparisons are strict, so rectangles that only touch along an edge
      do not collide, and an empty rectangle collides with nothing. */
  predicate Overlaps(a: Rect, b: Rect) {
    a.w > 0 && a.h > 0 && b.w > 0 && b.h > 0 &&
    a.x < b.Right() && b.x < a.Right() && a.y < b.Bottom() && b.y < a.Bottom()
  }

  /** `any(r.colliderect(m) for m in rs)`. */
  predicate OverlapsAny(r: Rect, rs: seq<Rect>) {
    exists i :: 0 <= i < |rs| && Overlaps(r, rs[i])
  }

  /** Squared Euclidean distance; every `length()` / `** 0.5` comparison of
      the game is made on these, which is exact on integer coordinates. */
  function Dist2(ax: int, ay: int, bx: int, bY: int): (d: nat)
    ensures d == 0 <==> ax == bx && ay == bY
  {
    (ax - bx) * (ax - bx) + (ay - bY) * (ay - bY)
  }

  /** `distance <= tolerance` for the Euclidean distance between two
      points, decided exactly on the squares: a negative tolerance admits
      nothing. */
  predicate Within(ax: int, ay: int, bx: int, bY: int, tolerance: int) {
    tolerance >= 0 && Dist2(ax, ay, bx, bY) <= tolerance * tolerance
  }
}

=== FILE: inventory.dfy ===
/** The reusable inventory manager (games_systems/inventory.py). It works
    on any player object: one without an `inventory` attribute is given a
    copy of the manager's default items, one with an inventory gets every
    missing default item added, and only then is the inventory read or
    changed. */
module InventorySystem {
  import opened Geometry
  import opened Items
  import opened Carriers

  /** The seven dishes every inventory starts with, all at zero. */
  const DEFAULT_ITEMS: Inventory :=
    map["empanada" := 0, "lomito" := 0, "pizza" := 0, "hamburguesa" := 0,
        "ron" := 0, "tabaco" := 0, "miel" := 0]

  /** An inventory after the default items whose keys are in `keys` have
      been added where missing; entries already present are kept. */
  function Merged(inv: Inventory, defaults: Inventory, keys: set<string>): (r: Inventory)
    requires keys <= defaults.Keys
    ensures r.Keys == inv.Keys + keys
    ensures forall k :: k in inv ==> r[k] == inv[k]
    ensures forall k :: k in keys && k !in inv ==> r[k] == defaults[k]
  {
    map k | k in inv.Keys + keys :: if k in inv then inv[k] else defaults[k]
  }

  /** Merged is the only inventory with its keys and counts. */
  lemma {:induction false} MergedUnique(inv: Inventory, defaults: Inventory, r: Inventory)
    requires r.Keys == inv.Keys + defaults.Keys
    requires forall k :: k in inv ==> r[k] == inv[k]
    requires forall k :: k in r && k !in inv ==> r[k] == defaults[k]
    ensures r == Merged(inv, defaults, defaults.Keys)
  {
    var m := Merged(inv, defaults, defaults.Keys);
    assert forall k :: k in r ==> r[k] == m[k];
  }

  /** initialize_player_inventory on a player whose inventory attribute is
      `inv` (None: no such attribute). */
  function Initialized(defaults: Inventory, inv: Option<Inventory>): (r: Inventory)
    ensures inv.None? ==> r == defaults
    ensures inv.Some? ==> r.Keys == inv.value.Keys + defaults.Keys
    ensures inv.Some? ==> forall k :: k in inv.value ==> r[k] == inv.value[k]
    ensures forall k :: k in defaults && (inv.None? || k !in inv.value) ==> r[k] == defaults[k]
  {
    if inv.None? then defaults else Merged(inv.value, defaults, defaults.Keys)
  }

  /** Initializing twice changes nothing more than initializing once. */
  lemma {:induction false} InitializedIdempotent(defaults: Inventory, inv: Option<Inventory>)
    ensures Initialized(defaults, Some(Initialized(defaults, inv))) == Initialized(defaults, inv)
  {
    var once := Initialized(defaults, inv);
    var twice := Initialized(defaults, Some(once));
    assert twice.Keys == once.Keys;
  }

  /** Every count an initialized inventory holds comes from the player's
      own inventory or from the defaults, so none is negative when none of
      those was. */
  lemma {:induction false} InitializedNonNegative(defaults: Inventory, inv: Option<Inventory>)
    requires forall k :: k in defaults ==> defaults[k] >= 0
    requires inv.Some? ==> forall k :: k in inv.value ==> inv.value[k] >= 0
    ensures forall k :: k in Initialized(defaults, inv) ==> Initialized(defaults, inv)[k] >= 0
  {
    var r := Initialized(defaults, inv);
    forall k | k in r ensures r[k] >= 0 {
      if inv.Some? && k in inv.value {
        assert r[k] == inv.value[k];
      } else {
        assert r[k] == defaults[k];
      }
    }
  }

  /** An inventory with every count set to zero and the same items. */
  function Cleared(inv: Inventory): (r: Inventory)
    ensures r.Keys == inv.Keys && forall k :: k in r ==> r[k] == 0
  {
    map k | k in inv :: 0
  }

  /** The loop of initialize_player_inventory over the default items:
      the result has every key of both, the player's own counts where it
      had them and the default counts elsewhere. */
  method AddMissing(inv0: Inventory, defaults: Inventory) returns (inv: Inventory)
    ensures forall k :: k in inv <==> k in inv0 || k in defaults
    ensures forall k :: k in inv0 ==> inv[k] == inv0[k]
    ensures forall k :: k in inv && k !in inv0 ==> inv[k] == defaults[k]
  {
    inv := inv0;
    var todo := defaults.Keys;
    while todo != {}
      invariant todo <= defaults.Keys
      invariant forall k :: k in inv <==> k in inv0 || (k in defaults && k !in todo)
      invariant forall k :: k in inv0 ==> inv[k] == inv0[k]
      invariant forall k :: k in inv && k !in inv0 ==> inv[k] == defaults[k]
      decreases |todo|
    {
      var item :| item in todo;
      if item !in inv {
        inv := inv[item := defaults[item]];
      }
      todo := todo - {item};
    }
  }

  class InventoryManager {
    const defaults: Inventory

    /** `initial_items or {...}`: the given items unless absent or empty. */
    constructor (initialItems: Option<Inventory>)
      ensures initialItems.Some? && initialItems.value != map[] ==> defaults == initialItems.value
      ensures initialItems.None? || initialItems.value == map[] ==> defaults == DEFAULT_ITEMS
    {
      defaults := if initialItems.Some? && initialItems.value != map[] then initialItems.value else DEFAULT_ITEMS;
    }

    /** initialize_player_inventory: a player without an inventory gets
        a copy of the defaults, otherwise each missing default is added. */
    method Initialize(player: Carrier)
      modifies player`inventory
      ensures player.inventory == Some(Initialized(defaults, old(player.inventory)))
    {
      if player.inventory.None? {
        player.inventory := Some(defaults);
      } else {
        var inv := AddMissing(player.inventory.value, defaults);
        assert inv.Keys == old(player.inventory).value.Keys + defaults.Keys;
        MergedUnique(old(player.inventory).value, defaults, inv);
        player.inventory := Some(inv);
      }
    }

    /** add_item: always succeeds, adding to the initialized inventory. */
    method AddItem(player: Carrier, name: string, amount: int) returns (ok: bool)
      modifies player`inventory
      ensures ok
      ensures player.inventory == Some(Added(Initialized(defaults, old(player.inventory)), name, amount))
    {
      Initialize(player);
      var inv := player.inventory.value;
      if name in inv {
        player.inventory := Some(inv[name := inv[name] + amount]);
      } else {
        player.inventory := Some(inv[name := amount]);
      }
      return true;
    }

    /** remove_item: succeeds exactly when the item has an entry holding at
        least `amount`; a failed removal still leaves the inventory
        initialized. */
    method RemoveItem(player: Carrier, name: string, amount: int) returns (ok: bool)
      modifies player`inventory
      ensures var init := Initialized(defaults, old(player.inventory));
        && (ok <==> Removable(init, name, amount))
        && (ok ==> player.inventory == Some(Removed(init, name, amount)))
        && (!ok ==> player.inventory == Some(init))
    {
      Initialize(player);
      var inv := player.inventory.value;
      if name in inv && inv[name] >= amount {
        player.inventory := Some(inv[name := inv[name] - amount]);
        return true;
      }
      return false;
    }

    /** has_item: the count (zero when absent) is at least `amount`. */
    method HasItem(player: Carrier, name: string, amount: int) returns (has: bool)
      modifies player`inventory
      ensures player.inventory == Some(Initialized(defaults, old(player.inventory)))
      ensures has <==> Count(player.inventory.value, name) >= amount
    {
      Initialize(player);
      has := Count(player.inventory.value, name) >= amount;
    }

    /** get_item_count: the count, zero when absent. */
    method GetItemCount(player: Carrier, name: string) returns (n: int)
      modifies player`inventory
      ensures player.inventory == Some(Initialized(defaults, old(player.inventory)))
      ensures n == Count(player.inventory.value, name)
      ensures old(player.inventory).Some? && name in old(player.inventory).value ==> n == old(player.inventory).value[name]
    {
      Initialize(player);
      n := Count(player.inventory.value, name);
    }

    /** get_inventory_summary: a copy of the initialized inventory. A copy
        is a value here, so changing it cannot reach the player's. */
    method Summary(player: Carrier) returns (summary: Inventory)
      modifies player`inventory
      ensures player.inventory == Some(Initialized(defaults, old(player.inventory)))
      ensures summary == player.inventory.value
    {
      Initialize(player);
      summary := player.inventory.value;
    }

    /** clear_inventory: every item of the initialized inventory, the
        defaults included, is set to zero and kept. */
    method ClearInventory(player: Carrier)
      modifies player`inventory
      ensures player.inventory == Some(Cleared(Initialized(defaults, old(player.inventory))))
    {
      Initialize(player);
      ghost var init := player.inventory.value;
      var todo := player.inventory.value.Keys;
      while todo != {}
        invariant todo <= init.Keys
        invariant player.inventory.Some? && player.inventory.value.Keys == init.Keys
        invariant forall k :: k in todo ==> player.inventory.value[k] == init[k]
        invariant forall k :: k in init && k !in todo ==> player.inventory.value[k] == 0
        decreases |todo|
      {
        var item :| item in todo;
        player.inventory := Some(player.inventory.value[item := 0]);
        todo := todo - {item};
      }
      assert player.inventory.value == Cleared(init);
    }

    /** transfer_item: checks the source with has_item, removes from it
        and adds to the target. add_item never fails, so the source's
        rollback is never reached. The transfer happens exactly when the
        source holds enough; the two totals of the item are then
        conserved, and a player that gives to itself ends with its counts
        unchanged. On failure the target is untouched. */
    method Transfer(from: Carrier, to: Carrier, name: string, amount: int) returns (ok: bool)
      modifies from`inventory, to`inventory
      ensures var fromInit := Initialized(defaults, old(from.inventory));
        var toInit := Initialized(defaults, old(to.inventory));
        && (ok <==> Removable(fromInit, name, amount))
        && (!ok ==> from.inventory == Some(fromInit) && (from != to ==> to.inventory == old(to.inventory)))
        && (ok && from != to ==>
              && from.inventory == Some(Removed(fromInit, name, amount))
              && to.inventory == Some(Added(toInit, name, amount))
              && Count(from.inventory.value, name) + Count(to.inventory.value, name)
                 == Count(fromInit, name) + Count(toInit, name))
        && (ok && from == to ==> from.inventory == Some(fromInit))
    {
      ok := false;
      InitializedIdempotent(defaults, old(from.inventory));
      var has := HasItem(from, name, amount);
      if has {
        var removed := RemoveItem(from, name, amount);
        if removed {
          ok := AddItem(to, name, amount);
          if from == to {
            assert from.inventory.value == Initialized(defaults, old(from.inventory));
          }
        }
      }
    }
  }
}

=== FILE: items.dfy ===
/** Inventories: item name to count, as the Python dictionaries hold them. */
module Items {
  type Inventory = map<string, int>

  /** `inventory.get(item, 0)`: the count of an item, nothing for an absent one. */
  function Count(inv: Inventory, item: string): int {
    if item in inv then inv[item] else 0
  }

  /** The inventory with `amount` more of `item`; an absent item gets an
      entry holding `amount`. */
  function Added(inv: Inventory, item: string, amount: int): (r: Inventory)
    ensures item in r && r[item] == Count(inv, item) + amount
    ensures forall k :: k != item ==> (k in r <==> k in inv)
    ensures forall k :: k != item ==> Count(r, k) == Count(inv, k)
  {
    inv[item := Count(inv, item) + amount]
  }

  /** remove_item's test: the item has an entry holding at least `amount`. */
  predicate Removable(inv: Inventory, item: string, amount: int) {
    item in inv && inv[item] >= amount
  }

  /** The inventory with `amount` fewer of a removable item. */
  function Removed(inv: Inventory, item: string, amount: int): (r: Inventory)
    requires Removable(inv, item, amount)
    ensures r.Keys == inv.Keys
    ensures r[item] == inv[item] - amount >= 0
    ensures forall k :: k in r && k != item ==> r[k] == inv[k]
  {
    inv[item := inv[item] - amount]
  }

  /** Removing what was just added gives the old counts back. */
  lemma {:induction false} AddedThenRemoved(inv: Inventory, item: string, amount: int)
    requires Count(inv, item) >= 0
    ensures Removable(Added(inv, item, amount), item, amount)
    ensures var r := Removed(Added(inv, item, amount), item, amount);
      (forall k :: Count(r, k) == Count(inv, k)) && r.Keys == inv.Keys + {item}
    ensures item in inv ==> Removed(Added(inv, item, amount), item, amount) == inv
  {
    var r := Removed(Added(inv, item, amount), item, amount);
    if item in inv {
      assert r == inv;
    }
  }
}

=== FILE: movement.dfy ===
/** The movement rule shared by the player and the enemies: a move along one
    axis is taken whole when the destination rectangle covers only walkable
    tiles, and otherwise the sprite creeps one pixel at a time toward the
    destination until the next pixel would put it on a blocked tile. */
module Movement {
  import opened Geometry
  import opened TileMap

  datatype Axis = Horizontal | Vertical

  /** The rectangle moved by d pixels along the axis. */
  function Shift(r: Rect, axis: Axis, d: int): Rect {
    if axis == Horizontal then r.(x := r.x + d) else r.(y := r.y + d)
  }

  /** The rectangle's coordinate on the axis. */
  function Coord(r: Rect, axis: Axis): int {
    if axis == Horizontal then r.x else r.y
  }

  /** Number of successful one-pixel steps in direction s, at most n: each
      step is taken only while the stepped rectangle fits the map. */
  function UnitSteps(m: Grid, r: Rect, axis: Axis, s: int, n: nat, tile: Pos): nat
    decreases n
  {
    if n == 0 || !Fits(m, Shift(r, axis, s), tile) then 0
    else 1 + UnitSteps(m, Shift(r, axis, s), axis, s, n - 1, tile)
  }

  /** The pixel-by-pixel fallback: the rectangle after the unit steps. */
  function Creep(m: Grid, r: Rect, axis: Axis, d: int, tile: Pos): Rect {
    Shift(r, axis, Sign(d) * UnitSteps(m, r, axis, Sign(d), Abs(d), tile))
  }

  /** One axis of the enemy's intentar_mover_con_tiles: nothing for d = 0,
      the whole move when it fits, the pixel-by-pixel fallback otherwise. */
  function Slide(m: Grid, r: Rect, axis: Axis, d: int, tile: Pos): Rect {
    if d == 0 then r
    else if Fits(m, Shift(r, axis, d), tile) then Shift(r, axis, d)
    else Creep(m, r, axis, d, tile)
  }

  /** The player's intentar_mover_x / intentar_mover_y: as Slide, except that
      with a non-empty wall list a destination that overlaps no wall is also
      taken whole. */
  function PlayerSlide(m: Grid, walls: seq<Rect>, r: Rect, axis: Axis, d: int, tile: Pos): Rect {
    if d == 0 then r
    else if Fits(m, Shift(r, axis, d), tile) then Shift(r, axis, d)
    else if walls != [] && !OverlapsAny(Shift(r, axis, d), walls) then Shift(r, axis, d)
    else Creep(m, r, axis, d, tile)
  }

  /** The unit steps really are a walk: every intermediate rectangle fits,
      and when the walk stops short the next pixel is blocked. */
  lemma {:induction false} UnitStepsWalk(m: Grid, r: Rect, axis: Axis, s: int, n: nat, tile: Pos)
    requires s == 1 || s == -1
    ensures UnitSteps(m, r, axis, s, n, tile) <= n
    ensures forall j :: 1 <= j <= UnitSteps(m, r, axis, s, n, tile) ==> Fits(m, Shift(r, axis, s * j), tile)
    ensures UnitSteps(m, r, axis, s, n, tile) < n ==>
      !Fits(m, Shift(r, axis, s * (UnitSteps(m, r, axis, s, n, tile) + 1)), tile)
    decreases n
  {
    if n > 0 && Fits(m, Shift(r, axis, s), tile) {
      var r1 := Shift(r, axis, s);
      UnitStepsWalk(m, r1, axis, s, n - 1, tile);
      var k := UnitSteps(m, r1, axis, s, n - 1, tile);
      forall j | 1 <= j <= k + 1 ensures Fits(m, Shift(r, axis, s * j), tile) {
        if j > 1 {
          assert s * (j - 1) + s == s * j;
          assert Fits(m, Shift(r1, axis, s * (j - 1)), tile);
        }
      }
      assert s * (k + 1) + s == s * (k + 2);
    }
  }

  /** What a slide guarantees: it moves only along its axis, toward d and by
      at most |d| pixels; it moves by exactly d when the destination fits;
      a rectangle that moved ends on walkable tiles; and when it stops short
      of d, one more pixel toward d would be blocked. */
  lemma {:induction false} SlideSound(m: Grid, r: Rect, axis: Axis, d: int, tile: Pos)
    ensures var r' := Slide(m, r, axis, d, tile);
      && r' == Shift(r, axis, Coord(r', axis) - Coord(r, axis))
      && 0 <= Sign(d) * (Coord(r', axis) - Coord(r, axis)) <= Abs(d)
      && (d != 0 && Fits(m, Shift(r, axis, d), tile) ==> r' == Shift(r, axis, d))
      && (r' != r ==> Fits(m, r', tile))
      && (r' != Shift(r, axis, d) ==> !Fits(m, Shift(r', axis, Sign(d)), tile))
  {
    if d != 0 && !Fits(m, Shift(r, axis, d), tile) {
      CreepSound(m, r, axis, d, tile);
    }
  }

  lemma {:induction false} CreepSound(m: Grid, r: Rect, axis: Axis, d: int, tile: Pos)
    requires d != 0 && !Fits(m, Shift(r, axis, d), tile)
    ensures var r' := Creep(m, r, axis, d, tile);
      && r' == Shift(r, axis, Coord(r', axis) - Coord(r, axis))
      && 0 <= Sign(d) * (Coord(r', axis) - Coord(r, axis)) < Abs(d)
      && (r' != r ==> Fits(m, r', tile))
      && !Fits(m, Shift(r', axis, Sign(d)), tile)
  {
    var s := Sign(d);
    var k := UnitSteps(m, r, axis, s, Abs(d), tile);
    UnitStepsWalk(m, r, axis, s, Abs(d), tile);
    assert s * Abs(d) == d;
    assert Shift(Shift(r, axis, s * k), axis, s) == Shift(r, axis, s * (k + 1));
    if k > 0 {
      assert Fits(m, Shift(r, axis, s * k), tile);
    }
  }

  /** The player's slide has the same guarantees, except that a whole move
      may also be taken because it overlaps none of the given walls. */
  lemma {:induction false} PlayerSlideSound(m: Grid, walls: seq<Rect>, r: Rect, axis: Axis, d: int, tile: Pos)
    ensures var r' := PlayerSlide(m, walls, r, axis, d, tile);
      && r' == Shift(r, axis, Coord(r', axis) - Coord(r, axis))
      && 0 <= Sign(d) * (Coord(r', axis) - Coord(r, axis)) <= Abs(d)
      && (d != 0 && Fits(m, Shift(r, axis, d), tile) ==> r' == Shift(r, axis, d))
      && (r' != r ==> Fits(m, r', tile) || (walls != [] && !OverlapsAny(r', walls)))
      && (r' != Shift(r, axis, d) ==> !Fits(m, Shift(r', axis, Sign(d)), tile))
  {
    if d != 0 && !Fits(m, Shift(r, axis, d), tile) && !(walls != [] && !OverlapsAny(Shift(r, axis, d), walls)) {
      CreepSound(m, r, axis, d, tile);
    }
  }

  /** No corner cutting: when neither the whole move nor its first pixel
      fits on either axis, a diagonal move (horizontal slide, then vertical
      slide) leaves the sprite where it was. */
  lemma {:induction false} NoCornerCutting(m: Grid, r: Rect, dx: int, dy: int, tile: Pos)
    requires dx != 0 && dy != 0
    requires !Fits(m, Shift(r, Horizontal, dx), tile) && !Fits(m, Shift(r, Horizontal, Sign(dx)), tile)
    requires !Fits(m, Shift(r, Vertical, dy), tile) && !Fits(m, Shift(r, Vertical, Sign(dy)), tile)
    ensures Slide(m, Slide(m, r, Horizontal, dx, tile), Vertical, dy, tile) == r
  {
    FirstStepBlocksCreep(m, r, Horizontal, dx, tile);
    FirstStepBlocksCreep(m, r, Vertical, dy, tile);
  }

  /** When the first pixel toward d is blocked, the creep takes no step. */
  lemma {:induction false} FirstStepBlocksCreep(m: Grid, r: Rect, axis: Axis, d: int, tile: Pos)
    requires d != 0 && !Fits(m, Shift(r, axis, Sign(d)), tile)
    ensures Creep(m, r, axis, d, tile) == r
  {
    assert UnitSteps(m, r, axis, Sign(d), Abs(d), tile) == 0;
    assert Shift(r, axis, 0) == r;
  }
}

=== FILE: orders.dfy ===
/** The order system of the reusable game systems (games_systems/
    order_system.py): clients ask for dishes, an order has a reward and a
    time limit, and a player standing near the client with the dishes in
    the inventory completes it. Clock readings are the parameter `now`
    (milliseconds); the random choices are nondeterministic. */
module Orders {
  import opened Geometry
  import opened Items
  import opened Carriers

  /** The dishes an order asks for, in the order of the dictionary: item
      name and amount, each item once. */
  type Request = seq<(string, int)>

  /** The five order templates. */
  const TEMPLATES: seq<Request> := [
    [("empanada", 2), ("ron", 1)],
    [("lomito", 1), ("tabaco", 1)],
    [("pizza", 1), ("miel", 2)],
    [("hamburguesa", 2)],
    [("empanada", 1), ("lomito", 1), ("ron", 1)]
  ]

  /** A request as a dictionary can hold it, with amounts a debit can
      take from an inventory: each item once, each amount positive. */
  predicate WellFormed(req: Request) {
    && (forall i, j :: 0 <= i < j < |req| ==> req[i].0 != req[j].0)
    && (forall i :: 0 <= i < |req| ==> req[i].1 > 0)
  }

  /** `sum(items_requested.values())`. */
  function Total(req: Request): int
    decreases |req|
  {
    if req == [] then 0 else Total(req[..|req| - 1]) + req[|req| - 1].1
  }

  /** The amount of `item` the request asks for, 0 when it does not. */
  function Needed(req: Request, item: string): int
    decreases |req|
  {
    if req == [] then 0
    else Needed(req[..|req| - 1], item) + (if req[|req| - 1].0 == item then req[|req| - 1].1 else 0)
  }

  /** can_be_completed_by: every requested amount is in the inventory,
      an absent item counting as 0. */
  predicate Satisfies(inv: Inventory, req: Request) {
    forall i :: 0 <= i < |req| ==> Count(inv, req[i].0) >= req[i].1
  }

  /** The inventory after the debit loop of complete_order has taken each
      requested amount, in the order of the request. */
  function Debited(inv: Inventory, req: Request): Inventory
    decreases |req|
  {
    if req == [] then inv
    else
      var before := Debited(inv, req[..|req| - 1]);
      var (item, amount) := req[|req| - 1];
      before[item := Count(before, item) - amount]
  }

  /** Every template is well formed and asks for 2 or 3 dishes. */
  lemma TemplatesWellFormed()
    ensures forall t :: t in TEMPLATES ==> WellFormed(t) && 2 <= Total(t) <= 3
  {
    assert Total(TEMPLATES[0]) == 3 && Total(TEMPLATES[1]) == 2 && Total(TEMPLATES[2]) == 3;
    assert Total(TEMPLATES[3]) == 2 && Total(TEMPLATES[4]) == 3;
  }

  /** The debit takes exactly the requested amount of each item and
      leaves every other count alone. */
  lemma {:induction false} DebitedCounts(inv: Inventory, req: Request, item: string)
    ensures Count(Debited(inv, req), item) == Count(inv, item) - Needed(req, item)
    ensures item in Debited(inv, req) <==> item in inv || Needed(req, item) != 0 || exists i :: 0 <= i < |req| && req[i].0 == item
    decreases |req|
  {
    if req != [] {
      var pre := req[..|req| - 1];
      DebitedCounts(inv, pre, item);
      if exists i :: 0 <= i < |pre| && pre[i].0 == item {
        var i :| 0 <= i < |pre| && pre[i].0 == item;
        assert req[i].0 == item;
      }
      if exists i :: 0 <= i < |req| && req[i].0 == item {
        var i :| 0 <= i < |req| && req[i].0 == item;
        if i < |pre| {
          assert pre[i].0 == item;
        }
      }
    }
  }

  /** In a well-formed request, the amount needed of a listed item is its
      entry. */
  lemma {:induction false} NeededEntry(req: Request, i: nat)
    requires WellFormed(req) && i < |req|
    ensures Needed(req, req[i].0) == req[i].1
    decreases |req|
  {
    var pre := req[..|req| - 1];
    assert WellFormed(pre);
    if i < |pre| {
      NeededEntry(pre, i);
    } else {
      NeededAbsent(pre, req[i].0);
    }
  }

  lemma {:induction false} NeededAbsent(req: Request, item: string)
    requires forall j :: 0 <= j < |req| ==> req[j].0 != item
    ensures Needed(req, item) == 0
    decreases |req|
  {
    if req != [] {
      NeededAbsent(req[..|req| - 1], item);
    }
  }

  /** Completing a satisfiable well-formed request leaves no count
      negative and no other count changed. */
  lemma {:induction false} DebitNeverNegative(inv: Inventory, req: Request)
    requires WellFormed(req) && Satisfies(inv, req)
    ensures forall i :: 0 <= i < |req| ==> req[i].0 in Debited(inv, req) && Debited(inv, req)[req[i].0] >= 0
    ensures forall k :: k in inv ==> k in Debited(inv, req)
    ensures forall k :: (forall i :: 0 <= i < |req| ==> req[i].0 != k) ==> Count(Debited(inv, req), k) == Count(inv, k)
  {
    forall i | 0 <= i < |req|
      ensures req[i].0 in Debited(inv, req) && Debited(inv, req)[req[i].0] >= 0
    {
      DebitedCounts(inv, req, req[i].0);
      NeededEntry(req, i);
    }
    forall k | k in inv ensures k in Debited(inv, req) {
      DebitedCounts(inv, req, k);
    }
    forall k | forall i :: 0 <= i < |req| ==> req[i].0 != k
      ensures Count(Debited(inv, req), k) == Count(inv, k)
    {
      DebitedCounts(inv, req, k);
      NeededAbsent(req, k);
    }
  }

  datatype Status = Active | Completed | Expired | Cancelled

  class OrderRequest {
    const id: int
    const clientPos: (int, int)
    const items: Request
    const reward: int
    const timeLimit: int
    const createdTime: int
    var status: Status
    var completionTime: Option<int>

    constructor (id: int, clientPos: (int, int), items: Request, reward: int, timeLimit: int, now: int)
      ensures this.id == id && this.clientPos == clientPos && this.items == items
      ensures this.reward == reward && this.timeLimit == timeLimit && createdTime == now
      ensures status == Active && completionTime == None
    {
      this.id := id;
      this.clientPos := clientPos;
      this.items := items;
      this.reward := reward;
      this.timeLimit := timeLimit;
      createdTime := now;
      status := Active;
      completionTime := None;
    }

    /** The time limit has run out at `now`. */
    predicate Due(now: int) {
      now - createdTime >= timeLimit
    }

    /** get_remaining_time: what is left of the time limit, never
        negative, and nothing for an order that is no longer active. */
    function RemainingTime(now: int): (t: int)
      reads this
      ensures t >= 0
      ensures status != Active || Due(now) ==> t == 0
      ensures status == Active && !Due(now) ==> t == timeLimit - (now - createdTime) > 0
    {
      if status != Active then 0 else Max(0, timeLimit - (now - createdTime))
    }

    /** is_expired: exactly the active orders whose limit has run out. */
    predicate IsExpired(now: int): (r: bool)
      reads this
      ensures r <==> status == Active && Due(now)
    {
      RemainingTime(now) <= 0 && status == Active
    }

    /** complete_order. An order that is not active, or a player without
        every requested dish, gets False and nothing changes. Otherwise
        the dishes are debited, the reward goes to `coin` (or else to
        `coins`, or nowhere when the player has neither) and the order is
        completed at `now`. The player's inventory is read only for an
        active order. */
    method CompleteOrder(player: Carrier, now: int) returns (ok: bool)
      requires status == Active ==> player.inventory.Some? && WellFormed(items)
      modifies this`status, this`completionTime, player`inventory, player`coin, player`coins
      ensures ok <==> old(status) == Active && Satisfies(old(player.inventory).value, items)
      ensures !ok ==>
        && status == old(status) && completionTime == old(completionTime)
        && player.inventory == old(player.inventory) && player.coin == old(player.coin) && player.coins == old(player.coins)
      ensures ok ==>
        && status == Completed && completionTime == Some(now)
        && player.inventory == Some(Debited(old(player.inventory).value, items))
        && Paid(old(player.coin), old(player.coins), reward, player.coin, player.coins)
    {
      if status != Active {
        return false;
      }
      var inv := player.inventory.value;
      var can := CanBeCompletedBy(inv);
      if !can {
        return false;
      }
      inv := Debit(inv, items);
      player.inventory := Some(inv);
      if player.coin.Some? {
        player.coin := Some(player.coin.value + reward);
      } else if player.coins.Some? {
        player.coins := Some(player.coins.value + reward);
      }
      status := Completed;
      completionTime := Some(now);
      return true;
    }

    /** The loop of can_be_completed_by, returning at the first short item. */
    method CanBeCompletedBy(inv: Inventory) returns (can: bool)
      ensures can <==> Satisfies(inv, items)
    {
      for i := 0 to |items|
        invariant forall j :: 0 <= j < i ==> Count(inv, items[j].0) >= items[j].1
      {
        if Count(inv, items[i].0) < items[i].1 {
          return false;
        }
      }
      return true;
    }
  }

  /** The loop of complete_order taking each requested amount from the
      inventory; every item it debits is present, since the player holds
      a positive amount of it. */
  method Debit(inv0: Inventory, req: Request) returns (inv: Inventory)
    requires WellFormed(req) && Satisfies(inv0, req)
    ensures inv == Debited(inv0, req)
  {
    inv := inv0;
    for i := 0 to |req|
      invariant inv == Debited(inv0, req[..i])
    {
      var (item, amount) := req[i];
      assert req[..i + 1][..i] == req[..i];
      DebitedCounts(inv0, req[..i], item);
      NeededPrefix(req, i);
      inv := inv[item := inv[item] - amount];
    }
    assert req[..|req|] == req;
  }

  function Max(a: int, b: int): int { if a >= b then a else b }

  /** In a well-formed request, the entries before `i` never name the
      item of entry `i`. */
  lemma {:induction false} NeededPrefix(req: Request, i: nat)
    requires WellFormed(req) && i < |req|
    ensures Needed(req[..i], req[i].0) == 0
  {
    NeededAbsent(req[..i], req[i].0);
  }

  /** The reward rule of complete_order: `coin` when the player has it,
      else `coins`, else no payment. */
  predicate Paid(coin: Option<int>, coins: Option<int>, reward: int, coin': Option<int>, coins': Option<int>) {
    if coin.Some? then coin' == Some(coin.value + reward) && coins' == coins
    else if coins.Some? then coin' == coin && coins' == Some(coins.value + reward)
    else coin' == coin && coins' == coins
  }

  /** An order the player can complete from `pos`: the client is within
      the tolerance and the player holds every requested dish. */
  predicate Completable(o: OrderRequest, inv: Inventory, pos: (int, int), tolerance: int) {
    Within(pos.0, pos.1, o.clientPos.0, o.clientPos.1, tolerance) && Satisfies(inv, o.items)
  }

  /** Strictly increasing ids: a list of distinct keys in the order the
      dictionary holds them. */
  predicate Increasing(ids: seq<int>) {
    forall i, j :: 0 <= i < j < |ids| ==> ids[i] < ids[j]
  }

  /** `pop` of every id of `ids`, one after the other. */
  method PopAll(m0: map<int, OrderRequest>, ids: seq<int>) returns (m: map<int, OrderRequest>)
    requires Increasing(ids) && forall i :: 0 <= i < |ids| ==> ids[i] in m0
    ensures forall k :: k in m <==> k in m0 && k !in ids
    ensures forall k :: k in m ==> m[k] == m0[k]
    ensures |m| == |m0| - |ids|
  {
    m := m0;
    for i := 0 to |ids|
      invariant forall k :: k in m <==> k in m0 && k !in ids[..i]
      invariant forall k :: k in m ==> m[k] == m0[k]
      invariant |m| == |m0| - i
    {
      var k := ids[i];
      assert k !in ids[..i];
      assert m.Keys == (m - {k}).Keys + {k};
      m := m - {k};
      assert ids[..i + 1] == ids[..i] + [k];
    }
    assert ids[..|ids|] == ids;
  }

  /** The orders of os an inventory can complete, in their order. */
  function Completables(os: seq<OrderRequest>, inv: Inventory): seq<OrderRequest>
    decreases |os|
  {
    if os == [] then []
    else
      var last := os[|os| - 1];
      Completables(os[..|os| - 1], inv) + (if Satisfies(inv, last.items) then [last] else [])
  }

  /** Completables keeps exactly the orders the inventory satisfies, and
      keeps them in order. */
  lemma {:induction false} CompletablesMembers(os: seq<OrderRequest>, inv: Inventory)
    ensures forall o :: o in Completables(os, inv) ==> o in os && Satisfies(inv, o.items)
    ensures forall o :: o in os && Satisfies(inv, o.items) ==> o in Completables(os, inv)
    ensures (forall a, b :: 0 <= a < b < |os| ==> os[a].id < os[b].id) ==>
      forall a, b :: 0 <= a < b < |Completables(os, inv)| ==> Completables(os, inv)[a].id < Completables(os, inv)[b].id
    decreases |os|
  {
    if os != [] {
      var init, last := os[..|os| - 1], os[|os| - 1];
      CompletablesMembers(init, inv);
      assert os == init + [last];
      if forall a, b :: 0 <= a < b < |os| ==> os[a].id < os[b].id {
        var kept := Completables(init, inv);
        forall a | 0 <= a < |kept|
          ensures kept[a].id < last.id
        {
          assert kept[a] in kept;
          var k :| 0 <= k < |init| && init[k] == kept[a];
          assert os[k] == kept[a];
        }
      }
    }
  }

  class OrderSystem {
    const clients: seq<(int, int)>
    const maxActive: int
    const interval: int
    var active: map<int, OrderRequest>
    var completed: seq<OrderRequest>
    var nextId: int
    var lastGen: int
    /** How many orders have expired; no field of the source holds it. */
    ghost var expiredCount: nat

    /** The orders in `active`. */
    function Orders(): set<OrderRequest>
      reads this
    {
      set k | k in active :: active[k]
    }

    /** Each active order is stored under its own id, below the next id,
        is active and asks for a well-formed request; there are never more
        than the maximum; and every id handed out is active, completed or
        expired. */
    ghost predicate Valid()
      reads this, Orders()
    {
      && nextId >= 1
      && (forall k :: k in active ==>
            && 1 <= k < nextId && active[k].id == k
            && active[k].status == Active && WellFormed(active[k].items))
      && |active| <= Max(0, maxActive)
      && nextId - 1 == |active| + |completed| + expiredCount
    }

    constructor (clients: seq<(int, int)>, maxActive: int, interval: int)
      ensures this.clients == clients && this.maxActive == maxActive && this.interval == interval
      ensures active == map[] && completed == [] && nextId == 1 && lastGen == 0
      ensures Valid()
    {
      this.clients := clients;
      this.maxActive := maxActive;
      this.interval := interval;
      active := map[];
      completed := [];
      nextId := 1;
      lastGen := 0;
      expiredCount := 0;
    }

    /** generate_order. Nothing at capacity or without clients; otherwise
        a fresh active order under the next id, for the forced position
        or a client's, with a template's dishes, 50 coins per dish and
        30 s plus 5 s per dish. */
    method Generate(now: int, force: Option<(int, int)>) returns (order: OrderRequest?)
      requires Valid()
      modifies this`active, this`nextId
      ensures Valid()
      ensures |old(active)| >= maxActive || clients == [] ==>
        order == null && active == old(active) && nextId == old(nextId)
      ensures !(|old(active)| >= maxActive || clients == []) ==>
        && order != null && fresh(order)
        && order.id == old(nextId) && nextId == old(nextId) + 1
        && active == old(active)[old(nextId) := order]
        && order.status == Active && order.createdTime == now
        && (force.Some? ==> order.clientPos == force.value)
        && (force.None? ==> order.clientPos in clients)
        && order.items in TEMPLATES
        && order.reward == 50 * Total(order.items)
        && order.timeLimit == 30000 + 5000 * Total(order.items)
    {
      if |active| >= maxActive {
        return null;
      }
      if clients == [] {
        return null;
      }
      var pos: (int, int);
      if force.Some? {
        pos := force.value;
      } else {
        assert clients[0] in clients;
        pos :| pos in clients;
      }
      assert TEMPLATES[0] in TEMPLATES;
      var items :| items in TEMPLATES;
      TemplatesWellFormed();
      var total := Total(items);
      order := new OrderRequest(nextId, pos, items, total * 50, 30000 + total * 5000, now);
      active := active[nextId := order];
      nextId := nextId + 1;
    }

    /** The first loop of update, over the orders in the order they
        were created: every order whose limit has run out is marked
        expired, and its id collected. */
    method MarkExpired(now: int) returns (expired: seq<int>)
      requires Valid()
      modifies Orders()
      ensures Increasing(expired)
      ensures forall k :: k in expired <==> k in active && active[k].Due(now)
      ensures forall k :: k in active ==> active[k].status == (if k in expired then Expired else Active)
    {
      expired := [];
      for id := 1 to nextId
        invariant Increasing(expired) && forall i :: 0 <= i < |expired| ==> expired[i] < id
        invariant forall k :: k in expired <==> k in active && k < id && active[k].Due(now)
        invariant forall k :: k in active ==>
          active[k].status == (if k in expired then Expired else Active)
      {
        if id in active {
          var order := active[id];
          if order.IsExpired(now) {
            order.status := Expired;
            expired := expired + [id];
          }
        }
      }
    }

    /** The second loop of update: the collected ids leave `active`. */
    method RemoveExpired(expired: seq<int>)
      requires Increasing(expired) && forall i :: 0 <= i < |expired| ==> expired[i] in active
      modifies this`active, this`expiredCount
      ensures forall k :: k in active <==> k in old(active) && k !in expired
      ensures forall k :: k in active ==> active[k] == old(active)[k]
      ensures expiredCount == old(expiredCount) + |expired|
      ensures |active| == |old(active)| - |expired|
    {
      active := PopAll(active, expired);
      expiredCount := expiredCount + |expired|;
    }

    /** The first half of update: once the interval has passed, an order
        is generated when there is room, and the generation clock restarts
        even at capacity. */
    method GenerationTick(now: int)
      requires Valid()
      modifies this`active, this`nextId, this`lastGen
      ensures Valid()
      ensures lastGen == (if now - old(lastGen) >= interval then now else old(lastGen))
      ensures var gen := now - old(lastGen) >= interval && |old(active)| < maxActive && clients != [];
        && nextId == old(nextId) + (if gen then 1 else 0)
        && (gen ==> old(nextId) !in old(active) && old(nextId) in active
                    && active == old(active)[old(nextId) := active[old(nextId)]]
                    && fresh(active[old(nextId)]) && !active[old(nextId)].Due(now))
        && (!gen ==> active == old(active))
    {
      if now - lastGen >= interval {
        if |active| < maxActive {
          var order := Generate(now, None);
          if order != null {
            TemplatesWellFormed();
          }
        }
        lastGen := now;
      }
    }

    /** update. Once the interval has passed, an order is generated when
        there is room and the generation clock restarts, even at capacity;
        then every order whose limit has run out is marked expired and
        leaves `active`, and every other order stays. */
    method Update(now: int)
      requires Valid()
      modifies this, Orders()
      ensures Valid()
      ensures lastGen == (if now - old(lastGen) >= interval then now else old(lastGen))
      ensures nextId == old(nextId) + (if now - old(lastGen) >= interval && |old(active)| < maxActive && clients != [] then 1 else 0)
      ensures forall k :: k in old(active) ==>
        if old(active)[k].Due(now) then k !in active && old(active)[k].status == Expired
        else k in active && active[k] == old(active)[k]
      ensures forall k :: k in active && k !in old(active) ==> k == old(nextId) && !active[k].Due(now)
      ensures completed == old(completed)
    {
      GenerationTick(now);
      ghost var mid := active;
      var expired := MarkExpired(now);
      assert forall i :: 0 <= i < |expired| ==> expired[i] in expired;
      RemoveExpired(expired);
      assert forall k :: k in active ==> k in mid && active[k] == mid[k];
    }

    /** try_complete_order_at_position. The active orders are tried in
        the order they were created (increasing id); the first one within
        the tolerance whose dishes the player holds is completed, leaves
        `active` and joins `completed`, and the call reports True. When no
        order qualifies, nothing changes. */
    method TryCompleteAtPosition(player: Carrier, pos: (int, int), tolerance: int, now: int)
      returns (ok: bool, chosen: int)
      requires Valid()
      requires player.inventory.Some?
      modifies this`active, this`completed, Orders(), player`inventory, player`coin, player`coins
      ensures Valid()
      ensures ok <==> exists k :: k in old(active) && Completable(old(active)[k], old(player.inventory).value, pos, tolerance)
      ensures ok ==>
        && chosen in old(active)
        && Completable(old(active)[chosen], old(player.inventory).value, pos, tolerance)
        && (forall j :: j in old(active) && j < chosen ==>
              !Completable(old(active)[j], old(player.inventory).value, pos, tolerance))
        && active == old(active) - {chosen}
        && completed == old(completed) + [old(active)[chosen]]
        && old(active)[chosen].status == Completed
        && player.inventory == Some(Debited(old(player.inventory).value, old(active)[chosen].items))
        && Paid(old(player.coin), old(player.coins), old(active)[chosen].reward, player.coin, player.coins)
      ensures !ok ==>
        && active == old(active) && completed == old(completed)
        && player.inventory == old(player.inventory) && player.coin == old(player.coin) && player.coins == old(player.coins)
    {
      var order;
      ok, chosen, order := CompleteFirst(player, pos, tolerance, now);
      if ok {
        assert active.Keys == (active - {chosen}).Keys + {chosen};
        active := active - {chosen};
        completed := completed + [order];
      }
    }

    /** The loop of try_complete_order_at_position: the orders in the
        order they were created, each within the tolerance offered to
        complete_order, stopping at the first that completes. */
    method CompleteFirst(player: Carrier, pos: (int, int), tolerance: int, now: int)
      returns (ok: bool, chosen: int, order: OrderRequest?)
      requires Valid()
      requires player.inventory.Some?
      modifies Orders(), player`inventory, player`coin, player`coins
      ensures ok <==> exists k :: k in active && Completable(active[k], old(player.inventory).value, pos, tolerance)
      ensures ok ==>
        && chosen in active && order == active[chosen]
        && Completable(order, old(player.inventory).value, pos, tolerance)
        && (forall j :: j in active && j < chosen ==>
              !Completable(active[j], old(player.inventory).value, pos, tolerance))
        && order.status == Completed
        && (forall k :: k in active && k != chosen ==> active[k].status == Active)
        && player.inventory == Some(Debited(old(player.inventory).value, order.items))
        && Paid(old(player.coin), old(player.coins), order.reward, player.coin, player.coins)
      ensures !ok ==>
        && (forall k :: k in active ==> active[k].status == Active)
        && player.inventory == old(player.inventory) && player.coin == old(player.coin) && player.coins == old(player.coins)
    {
      ghost var inv0 := player.inventory.value;
      ok := false;
      chosen := 0;
      order := null;
      var id := 1;
      while id < nextId
        invariant 1 <= id <= nextId
        invariant forall j :: j in active && j < id ==> !Completable(active[j], inv0, pos, tolerance)
        invariant player.inventory == old(player.inventory) && player.coin == old(player.coin) && player.coins == old(player.coins)
        invariant forall k :: k in active ==> active[k].status == Active
      {
        if id in active {
          var o := active[id];
          if o.status != Active {
            id := id + 1;
            continue;
          }
          if Within(pos.0, pos.1, o.clientPos.0, o.clientPos.1, tolerance) {
            ok := o.CompleteOrder(player, now);
            if ok {
              chosen := id;
              order := o;
              assert forall k :: k in active && k != chosen ==> active[k] != o;
              return;
            }
          }
        }
        id := id + 1;
      }
    }

    /** The active orders with an id below n, by ascending id. */
    function ActiveBelow(n: nat): seq<OrderRequest>
      reads this, Orders()
    {
      if n == 0 then []
      else ActiveBelow(n - 1) + (if n - 1 in active && active[n - 1].status == Active then [active[n - 1]] else [])
    }

    /** ActiveBelow(n) lists each active order with an id below n once,
        under its own id, by ascending id. */
    lemma {:induction false} ActiveBelowMembers(n: nat)
      requires Valid()
      ensures forall i :: 0 <= i < |ActiveBelow(n)| ==>
        ActiveBelow(n)[i].id in active && active[ActiveBelow(n)[i].id] == ActiveBelow(n)[i]
        && ActiveBelow(n)[i].id < n && ActiveBelow(n)[i].status == Active
      ensures forall k :: k in active && k < n && active[k].status == Active ==> active[k] in ActiveBelow(n)
      ensures forall i, j :: 0 <= i < j < |ActiveBelow(n)| ==> ActiveBelow(n)[i].id < ActiveBelow(n)[j].id
    {
      if n > 0 {
        ActiveBelowMembers(n - 1);
      }
    }

    /** get_active_orders: the orders in `active` whose status is active,
        in the order they were generated. */
    method GetActiveOrders() returns (orders: seq<OrderRequest>)
      requires Valid()
      ensures orders == ActiveBelow(nextId)
    {
      orders := [];
      for id := 1 to nextId
        invariant orders == ActiveBelow(id)
      {
        if id in active && active[id].status == Active {
          orders := orders + [active[id]];
        }
      }
    }

    /** get_orders_for_player: the active orders the player's inventory
        can complete, in the same order. */
    method GetOrdersForPlayer(player: Carrier) returns (orders: seq<OrderRequest>)
      requires Valid() && player.inventory.Some?
      ensures orders == Completables(ActiveBelow(nextId), player.inventory.value)
    {
      var all := GetActiveOrders();
      orders := [];
      for i := 0 to |all|
        invariant unchanged(this, Orders())
        invariant orders == Completables(all[..i], player.inventory.value)
      {
        var can := all[i].CanBeCompletedBy(player.inventory.value);
        ghost var seen := all[..i + 1];
        assert seen[..i] == all[..i] && seen[i] == all[i];
        assert Completables(seen, player.inventory.value)
          == Completables(all[..i], player.inventory.value) + (if can then [all[i]] else []);
        if can {
          orders := orders + [all[i]];
        }
      }
      assert all[..|all|] == all;
    }

    /** get_statistics without the completion rate: active, completed and
        total orders. Every order handed out is counted once: the total
        is the active ones, the completed ones and the expired ones. */
    method Statistics() returns (activeCount: int, completedCount: int, total: int)
      requires Valid()
      ensures activeCount == |active| && completedCount == |completed| && total == nextId - 1
      ensures total == activeCount + completedCount + expiredCount
      ensures 0 <= activeCount <= Max(0, maxActive)
    {
      activeCount := |active|;
      completedCount := |completed|;
      total := nextId - 1;
    }
  }
}

=== FILE: pickups.dfy ===
/** The collectables of the chase game: coins (coin.py) and food (food.py).
    Touching one pays the player and removes the sprite from its group
    (pygame's kill); the flag `alive` is pygame's Sprite.alive(). A group
    is a sequence of distinct sprites, updated one after the other. */
module Pickups {
  import opened Geometry
  import opened Players
  import opened Items

  class Coin {
    const rect: Rect
    var alive: bool

    constructor (x: int, y: int, w: nat, h: nat)
      ensures rect == Rect(x, y, w, h) && alive
    {
      rect := Rect(x, y, w, h);
      alive := true;
    }

    /** Coin.update: with a player that touches the coin, one coin more for
        the player and the coin leaves its groups; otherwise nothing. */
    method Update(player: Player?)
      modifies this, player
      ensures player != null && Overlaps(rect, player.rect) ==>
        player.coin == old(player.coin) + 1 && !alive
      ensures !(player != null && Overlaps(rect, player.rect)) ==>
        alive == old(alive) && (player != null ==> player.coin == old(player.coin))
      ensures player != null ==>
        player.rect == old(player.rect) && player.vidas == old(player.vidas) && player.inventory == old(player.inventory)
        && player.Animation() == old(player.Animation())
    {
      if player != null {
        if Overlaps(rect, player.rect) {
          player.coin := player.coin + 1;
          alive := false;
        }
      }
    }
  }

  class Food {
    const rect: Rect
    const itemName: string
    var alive: bool

    constructor (x: int, y: int, w: nat, h: nat, itemName: string)
      ensures rect == Rect(x, y, w, h) && this.itemName == itemName && alive
    {
      rect := Rect(x, y, w, h);
      this.itemName := itemName;
      alive := true;
    }

    /** Food.update: with a player that touches the food, one item of its
        kind for the player (add_item) and the food leaves its groups. */
    method Update(player: Player?)
      modifies this, player
      ensures player != null && Overlaps(rect, player.rect) ==>
        player.inventory == old(player.inventory)[itemName := Count(old(player.inventory), itemName) + 1] && !alive
      ensures !(player != null && Overlaps(rect, player.rect)) ==>
        alive == old(alive) && (player != null ==> player.inventory == old(player.inventory))
      ensures player != null ==>
        player.rect == old(player.rect) && player.coin == old(player.coin) && player.vidas == old(player.vidas)
        && player.Animation() == old(player.Animation())
    {
      if player != null {
        if Overlaps(rect, player.rect) {
          player.AddItem(itemName, 1);
          alive := false;
        }
      }
    }
  }

  predicate Distinct<T(==)>(s: seq<T>) {
    forall i, j :: 0 <= i < j < |s| ==> s[i] != s[j]
  }

  /** The coins of group[..n] a rectangle does not touch, in group order. */
  function Untouched(group: seq<Coin>, n: nat, r: Rect): seq<Coin>
    requires n <= |group|
  {
    if n == 0 then []
    else Untouched(group, n - 1, r) + (if Overlaps(group[n - 1].rect, r) then [] else [group[n - 1]])
  }

  /** The coins left untouched are exactly the coins of group[..n] the
      rectangle misses, at most n of them. */
  lemma {:induction false} UntouchedMembers(group: seq<Coin>, n: nat, r: Rect)
    requires n <= |group| && Distinct(group)
    ensures |Untouched(group, n, r)| <= n
    ensures forall j :: 0 <= j < |group| ==> (group[j] in Untouched(group, n, r) <==> j < n && !Overlaps(group[j].rect, r))
  {
    if n > 0 {
      UntouchedMembers(group, n - 1, r);
    }
  }

  /** The food of group[..n] a rectangle does not touch, in group order. */
  function UntouchedFood(group: seq<Food>, n: nat, r: Rect): seq<Food>
    requires n <= |group|
  {
    if n == 0 then []
    else UntouchedFood(group, n - 1, r) + (if Overlaps(group[n - 1].rect, r) then [] else [group[n - 1]])
  }

  /** The food left untouched is exactly the food of group[..n] the
      rectangle misses. */
  lemma {:induction false} UntouchedFoodMembers(group: seq<Food>, n: nat, r: Rect)
    requires n <= |group| && Distinct(group)
    ensures |UntouchedFood(group, n, r)| <= n
    ensures forall j :: 0 <= j < |group| ==> (group[j] in UntouchedFood(group, n, r) <==> j < n && !Overlaps(group[j].rect, r))
  {
    if n > 0 {
      UntouchedFoodMembers(group, n - 1, r);
    }
  }

  /** The inventory after the touched food of group[..n] has been
      credited, one item each, in group order. */
  function Credited(inv: Inventory, group: seq<Food>, n: nat, r: Rect): Inventory
    requires n <= |group|
  {
    if n == 0 then inv
    else
      var before := Credited(inv, group, n - 1, r);
      var f := group[n - 1];
      if Overlaps(f.rect, r) then before[f.itemName := Count(before, f.itemName) + 1] else before
  }

  /** Each touched piece of food adds one of its item: the count of an item
      grows by the number of touched pieces of that item. */
  lemma {:induction false} CreditedCounts(inv: Inventory, group: seq<Food>, n: nat, r: Rect, item: string)
    requires n <= |group|
    ensures Count(Credited(inv, group, n, r), item) == Count(inv, item) + TouchedOf(group, n, r, item)
  {
    if n > 0 {
      CreditedCounts(inv, group, n - 1, r, item);
    }
  }

  /** How many pieces of group[..n] holding `item` a rectangle touches. */
  function TouchedOf(group: seq<Food>, n: nat, r: Rect, item: string): nat
    requires n <= |group|
  {
    if n == 0 then 0
    else TouchedOf(group, n - 1, r, item) + (if Overlaps(group[n - 1].rect, r) && group[n - 1].itemName == item then 1 else 0)
  }

  /** Group.update over a group of live coins, then the group as kill
      leaves it: each coin the player touches pays exactly once and is
      gone from the group, the others stay and pay nothing. So a coin pays
      at most once over any number of frames. */
  method UpdateCoins(group: seq<Coin>, player: Player?) returns (remaining: seq<Coin>)
    requires Distinct(group)
    requires forall i :: 0 <= i < |group| ==> group[i].alive
    modifies (set c | c in group), player
    ensures player == null ==> remaining == group
    ensures player != null ==>
      && remaining == Untouched(group, |group|, player.rect)
      && player.coin == old(player.coin) + (|group| - |remaining|)
      && player.rect == old(player.rect) && player.vidas == old(player.vidas)
      && player.inventory == old(player.inventory) && player.Animation() == old(player.Animation())
    ensures forall i :: 0 <= i < |group| ==> (group[i].alive <==> !(player != null && Overlaps(group[i].rect, player.rect)))
    ensures forall i :: 0 <= i < |group| ==> (group[i].alive <==> group[i] in remaining)
  {
    remaining := [];
    for i := 0 to |group|
      invariant player != null ==>
        && remaining == Untouched(group, i, player.rect)
        && player.coin == old(player.coin) + (i - |remaining|)
        && player.rect == old(player.rect) && player.vidas == old(player.vidas)
        && player.inventory == old(player.inventory) && player.Animation() == old(player.Animation())
      invariant player == null ==> remaining == group[..i]
      invariant forall j :: 0 <= j < i ==> (group[j].alive <==> !(player != null && Overlaps(group[j].rect, player.rect)))
      invariant forall j :: i <= j < |group| ==> group[j].alive
    {
      var c := group[i];
      c.Update(player);
      if c.alive {
        remaining := remaining + [c];
      }
    }
    if player != null {
      UntouchedMembers(group, |group|, player.rect);
    }
  }

  /** Group.update over a group of live food: each piece the player
      touches gives its item exactly once and is gone from the group. */
  method UpdateFoods(group: seq<Food>, player: Player?) returns (remaining: seq<Food>)
    requires Distinct(group)
    requires forall i :: 0 <= i < |group| ==> group[i].alive
    modifies (set f | f in group), player
    ensures player == null ==> remaining == group
    ensures player != null ==>
      && remaining == UntouchedFood(group, |group|, player.rect)
      && player.inventory == Credited(old(player.inventory), group, |group|, player.rect)
      && player.rect == old(player.rect) && player.coin == old(player.coin)
      && player.vidas == old(player.vidas) && player.Animation() == old(player.Animation())
    ensures forall i :: 0 <= i < |group| ==> (group[i].alive <==> !(player != null && Overlaps(group[i].rect, player.rect)))
    ensures forall i :: 0 <= i < |group| ==> (group[i].alive <==> group[i] in remaining)
  {
    remaining := [];
    for i := 0 to |group|
      invariant player != null ==>
        && remaining == UntouchedFood(group, i, player.rect)
        && player.inventory == Credited(old(player.inventory), group, i, player.rect)
        && player.rect == old(player.rect) && player.coin == old(player.coin)
        && player.vidas == old(player.vidas) && player.Animation() == old(player.Animation())
      invariant player == null ==> remaining == group[..i]
      invariant forall j :: 0 <= j < i ==> (group[j].alive <==> !(player != null && Overlaps(group[j].rect, player.rect)))
      invariant forall j :: i <= j < |group| ==> group[j].alive
    {
      var f := group[i];
      f.Update(player);
      if f.alive {
        remaining := remaining + [f];
      }
    }
    if player != null {
      UntouchedFoodMembers(group, |group|, player.rect);
    }
  }
}

=== FILE: player.dfy ===
/** The player of the chase game: a 12 x 24 collision rectangle steered by
    the arrow keys, with three lives, a coin counter and a food inventory.
    One call of Update is one frame; the clock reading of the frame is the
    parameter `now` (milliseconds). */
module Players {
  import opened Geometry
  import opened TileMap
  import opened Movement
  import opened Settings
  import opened Items

  /** Size of the collision rectangle (the 24 x 24 image is drawn around it). */
  const COLLISION_W: nat := 12
  const COLLISION_H: nat := 24
  /** Milliseconds between two animation frames (0.12 s). */
  const FRAME_DELAY: int := 120

  /** The animation state: standing still or walking. */
  datatype Anim = Idle | Walk

  /** The arrow keys held down during a frame. */
  datatype Keys = Keys(left: bool, right: bool, up: bool, down: bool)

  /** The displacement update asks for: LEFT is tested before RIGHT and UP
      before DOWN, so each of them wins over its opposite. */
  function Request(keys: Keys, speed: int): (int, int) {
    (if keys.left then -speed else if keys.right then speed else 0,
     if keys.up then -speed else if keys.down then speed else 0)
  }

  /** set_state_direction's new direction: a sprite that moves faces along
      its motion, a horizontal motion wins over a vertical one, and a sprite
      that does not move keeps its direction. */
  function NewDirection(moving: bool, dx: int, dy: int, dir: Facing): (f: Facing)
    ensures !moving || (dx == 0 && dy == 0) ==> f == dir
    ensures moving && (dx != 0 || dy != 0) ==> Dot(Unit(f), (dx, dy)) > 0
    ensures moving && dx != 0 ==> f == Left || f == Right
  {
    if !moving then dir
    else if dx < 0 then Left
    else if dx > 0 then Right
    else if dy < 0 then Up
    else if dy > 0 then Down
    else dir
  }

  /** The image after image i in a cycle of n images: the next one, and
      the first one again after the last. */
  function NextFrame(i: nat, n: nat): (j: nat)
    requires n > 0
    ensures j < n
    ensures i + 1 < n ==> j == i + 1
    ensures i + 1 == n ==> j == 0
  {
    (i + 1) % n
  }

  /** The rectangle after intentar_mover_x and then intentar_mover_y. */
  function Walked(m: Grid, walls: seq<Rect>, r: Rect, d: (int, int)): Rect {
    PlayerSlide(m, walls, PlayerSlide(m, walls, r, Horizontal, d.0, TILE), Vertical, d.1, TILE)
  }

  /** Walking keeps the size of the rectangle. */
  lemma {:induction false} WalkedKeepsSize(m: Grid, walls: seq<Rect>, r: Rect, d: (int, int))
    ensures Walked(m, walls, r, d).w == r.w && Walked(m, walls, r, d).h == r.h
  {
    PlayerSlideSound(m, walls, r, Horizontal, d.0, TILE);
    PlayerSlideSound(m, walls, PlayerSlide(m, walls, r, Horizontal, d.0, TILE), Vertical, d.1, TILE);
  }

  function Max(a: int, b: int): int { if a >= b then a else b }
  function Min(a: int, b: int): int { if a <= b then a else b }

  /** The four screen clamps of update, applied in order: left edge, right
      edge, top edge, bottom edge. The result never reaches past the right
      or bottom border, it lies wholly on the screen when it is no larger
      than the screen, and a rectangle already on the screen is kept. */
  function Clamp(r: Rect): (c: Rect)
    ensures c.w == r.w && c.h == r.h
    ensures c.Right() <= WIDTH && c.Bottom() <= HEIGHT
    ensures r.w <= WIDTH ==> 0 <= c.x
    ensures r.h <= HEIGHT ==> 0 <= c.y
    ensures 0 <= r.x && r.Right() <= WIDTH ==> c.x == r.x
    ensures 0 <= r.y && r.Bottom() <= HEIGHT ==> c.y == r.y
  {
    var x1 := Max(0, r.x);
    var x2 := Min(WIDTH, x1 + r.w) - r.w;
    var y1 := Max(0, r.y);
    var y2 := Min(HEIGHT, y1 + r.h) - r.h;
    Rect(x2, y2, r.w, r.h)
  }

  /** A clamped rectangle of at most screen size is a fixed point of the clamp. */
  lemma {:induction false} ClampIdempotent(r: Rect)
    requires r.w <= WIDTH && r.h <= HEIGHT
    ensures Clamp(Clamp(r)) == Clamp(r)
  {
    var c := Clamp(r);
    assert 0 <= c.x && c.Right() <= WIDTH;
    assert 0 <= c.y && c.Bottom() <= HEIGHT;
  }

  class Player {
    var rect: Rect
    var anim: Anim
    var direction: Facing
    var frameIndex: nat
    var lastFrameTime: int
    var coin: int
    var vidas: int
    var inventory: Inventory
    const spawn: (int, int)
    const speed: int

    ghost predicate Valid()
      reads this
    {
      rect.w == COLLISION_W && rect.h == COLLISION_H
    }

    /** The animation state: state, facing, frame and the frame clock. */
    function Animation(): (Anim, Facing, nat, int)
      reads this
    {
      (anim, direction, frameIndex, lastFrameTime)
    }

    constructor (x: int, y: int, now: int)
      ensures Valid() && rect == Rect(x, y, COLLISION_W, COLLISION_H)
      ensures anim == Idle && direction == Down && frameIndex == 0 && lastFrameTime == now
      ensures speed == 3 && coin == 0 && vidas == 3 && spawn == (x, y)
      ensures inventory == map["empanada" := 0, "lomito" := 0]
    {
      rect := Rect(x, y, COLLISION_W, COLLISION_H);
      anim := Idle;
      direction := Down;
      frameIndex := 0;
      lastFrameTime := now;
      speed := 3;
      coin := 0;
      vidas := 3;
      inventory := map["empanada" := 0, "lomito" := 0];
      spawn := (x, y);
    }

    /** intentar_mover_x (axis Horizontal) and intentar_mover_y (axis
        Vertical): the whole move when the moved rectangle lies on walkable
        tiles, or when there are walls and it overlaps none of them;
        otherwise one pixel at a time, checked against the tiles only,
        until the next pixel is blocked or |d| pixels are done. */
    method MoveAxis(axis: Axis, d: int, m: Grid, walls: seq<Rect>)
      modifies this
      ensures rect == PlayerSlide(m, walls, old(rect), axis, d, TILE)
      ensures anim == old(anim) && direction == old(direction) && frameIndex == old(frameIndex)
      ensures lastFrameTime == old(lastFrameTime) && coin == old(coin) && vidas == old(vidas)
      ensures inventory == old(inventory)
    {
      if d == 0 {
        return;
      }
      var nuevo := Shift(rect, axis, d);
      if Fits(m, nuevo, TILE) {
        rect := nuevo;
        return;
      }
      if walls != [] {
        var col := OverlapsAny(nuevo, walls);
        if !col {
          rect := nuevo;
          return;
        }
      }
      CreepAxis(axis, d, m);
    }

    /** The pixel-by-pixel part of intentar_mover_x / intentar_mover_y:
        single pixels toward d while the next one lies on walkable tiles,
        at most |d| of them. */
    method CreepAxis(axis: Axis, d: int, m: Grid)
      requires d != 0
      modifies this
      ensures rect == Creep(m, old(rect), axis, d, TILE)
      ensures anim == old(anim) && direction == old(direction) && frameIndex == old(frameIndex)
      ensures lastFrameTime == old(lastFrameTime) && coin == old(coin) && vidas == old(vidas)
      ensures inventory == old(inventory)
    {
      var step := if d > 0 then 1 else -1;
      var moved := 0;
      ghost var r0 := rect;
      while Abs(moved) < Abs(d)
        invariant moved == step * Abs(moved) && Abs(moved) <= Abs(d)
        invariant rect == Shift(r0, axis, moved)
        invariant UnitSteps(m, r0, axis, step, Abs(d), TILE)
                  == Abs(moved) + UnitSteps(m, rect, axis, step, Abs(d) - Abs(moved), TILE)
        invariant anim == old(anim) && direction == old(direction) && frameIndex == old(frameIndex)
        invariant lastFrameTime == old(lastFrameTime) && coin == old(coin) && vidas == old(vidas)
        invariant inventory == old(inventory)
        decreases Abs(d) - Abs(moved)
      {
        var test := Shift(rect, axis, step);
        if Fits(m, test, TILE) {
          rect := test;
          moved := moved + step;
        } else {
          break;
        }
      }
      assert Sign(d) == step;
    }

    /** set_state_direction: walking when moving, idle otherwise, facing
        as NewDirection says; the animation restarts (frame 0, clock reset)
        exactly when the state or the direction changes. */
    method SetStateDirection(moving: bool, dx: int, dy: int, now: int)
      modifies this
      ensures anim == (if moving then Walk else Idle)
      ensures direction == NewDirection(moving, dx, dy, old(direction))
      ensures anim != old(anim) || direction != old(direction) ==>
        frameIndex == 0 && lastFrameTime == now
      ensures anim == old(anim) && direction == old(direction) ==>
        frameIndex == old(frameIndex) && lastFrameTime == old(lastFrameTime)
      ensures rect == old(rect) && coin == old(coin) && vidas == old(vidas) && inventory == old(inventory)
    {
      var newState := if moving then Walk else Idle;
      var newDir := NewDirection(moving, dx, dy, direction);
      if newState != anim || newDir != direction {
        anim := newState;
        direction := newDir;
        frameIndex := 0;
        lastFrameTime := now;
      }
    }

    /** advance_frame for an animation of `frames` images: nothing without
        images; otherwise the next image, cyclically, once FRAME_DELAY has
        passed since the last change. */
    method AdvanceFrame(now: int, frames: nat)
      modifies this
      ensures frames > 0 && now - old(lastFrameTime) >= FRAME_DELAY ==>
        frameIndex == NextFrame(old(frameIndex), frames) && lastFrameTime == now
      ensures !(frames > 0 && now - old(lastFrameTime) >= FRAME_DELAY) ==>
        frameIndex == old(frameIndex) && lastFrameTime == old(lastFrameTime)
      ensures rect == old(rect) && anim == old(anim) && direction == old(direction)
      ensures coin == old(coin) && vidas == old(vidas) && inventory == old(inventory)
    {
      if frames == 0 {
        return;
      }
      if now - lastFrameTime >= FRAME_DELAY {
        frameIndex := NextFrame(frameIndex, frames);
        lastFrameTime := now;
      }
    }

    /** intentar_mover_x and then intentar_mover_y; the size of the
        rectangle is kept. */
    method MoveBoth(d: (int, int), m: Grid, walls: seq<Rect>)
      requires Valid()
      modifies this
      ensures Valid() && rect == Walked(m, walls, old(rect), d)
      ensures anim == old(anim) && direction == old(direction) && frameIndex == old(frameIndex)
      ensures lastFrameTime == old(lastFrameTime) && coin == old(coin) && vidas == old(vidas)
      ensures inventory == old(inventory)
    {
      ghost var r0 := rect;
      MoveAxis(Horizontal, d.0, m, walls);
      MoveAxis(Vertical, d.1, m, walls);
      WalkedKeepsSize(m, walls, r0, d);
    }

    /** The four screen clamps of update. */
    method ClampToScreen()
      requires Valid()
      modifies this
      ensures Valid() && rect == Clamp(old(rect))
      ensures 0 <= rect.x && rect.Right() <= WIDTH && 0 <= rect.y && rect.Bottom() <= HEIGHT
      ensures anim == old(anim) && direction == old(direction)
      ensures frameIndex == old(frameIndex) && lastFrameTime == old(lastFrameTime)
      ensures coin == old(coin) && vidas == old(vidas) && inventory == old(inventory)
    {
      rect := Clamp(rect);
    }

    /** One frame of update. The keys give the request, the player walks,
        and touching an enemy costs exactly one life and puts the player
        back on the spawn point. The result says that no life is left (the
        source ends the program). */
    method Update(keys: Keys, m: Grid, walls: seq<Rect>, enemies: seq<Rect>, now: int, frames: nat)
      returns (gameOver: bool)
      requires Valid()
      modifies this
      ensures Valid()
      ensures var d := Request(keys, speed);
        var onScreen := Clamp(Walked(m, walls, old(rect), d));
        && (OverlapsAny(onScreen, enemies) ==>
              vidas == old(vidas) - 1 && rect == Rect(spawn.0, spawn.1, COLLISION_W, COLLISION_H))
        && (!OverlapsAny(onScreen, enemies) ==> vidas == old(vidas) && rect == onScreen)
        && anim == (if d != (0, 0) then Walk else Idle)
        && direction == NewDirection(d != (0, 0), d.0, d.1, old(direction))
      ensures rect == Rect(spawn.0, spawn.1, COLLISION_W, COLLISION_H) ||
        (0 <= rect.x && rect.Right() <= WIDTH && 0 <= rect.y && rect.Bottom() <= HEIGHT)
      ensures gameOver <==> vidas <= 0
      ensures coin == old(coin) && inventory == old(inventory)
      ensures var restart := anim != old(anim) || direction != old(direction);
        var f0 := if restart then 0 else old(frameIndex);
        var t0 := if restart then now else old(lastFrameTime);
        && (frames > 0 && now - t0 >= FRAME_DELAY ==> frameIndex == NextFrame(f0, frames) && lastFrameTime == now)
        && (!(frames > 0 && now - t0 >= FRAME_DELAY) ==> frameIndex == f0 && lastFrameTime == t0)
    {
      var d := Request(keys, speed);
      SetStateDirection(d.0 != 0 || d.1 != 0, d.0, d.1, now);
      MoveBoth(d, m, walls);
      AdvanceFrame(now, frames);
      ClampToScreen();
      var hit := OverlapsAny(rect, enemies);
      if hit {
        vidas := vidas - 1;
        rect := rect.(x := spawn.0, y := spawn.1);
      }
      gameOver := vidas <= 0;
    }

    /** add_item: the count of the item grows by amount, an absent item
        starting from nothing; every other item is left alone. */
    method AddItem(name: string, amount: int)
      modifies this
      ensures name in inventory
      ensures inventory[name] == Count(old(inventory), name) + amount
      ensures forall k :: k != name ==> (k in inventory <==> k in old(inventory))
      ensures forall k :: k in old(inventory) && k != name ==> inventory[k] == old(inventory)[k]
      ensures rect == old(rect) && coin == old(coin) && vidas == old(vidas)
      ensures anim == old(anim) && direction == old(direction)
      ensures frameIndex == old(frameIndex) && lastFrameTime == old(lastFrameTime)
    {
      if name in inventory {
        inventory := inventory[name := inventory[name] + amount];
      } else {
        inventory := inventory[name := amount];
      }
    }
  }
}

=== FILE: settings.dfy ===
/** The game's global settings that the modelled code reads. */
module Settings {
  import opened Geometry

  /** Screen size in pixels. */
  const WIDTH: int := 1024
  const HEIGHT: int := 768
  /** Pixels per tile of the path grid. */
  const TILE_SIZE: Pos := 32
}

=== FILE: snap.dfy ===
/** The older player of test.py (Jugador): a 30 x 30 square that moves
    five pixels per frame and resolves collisions by snapping flush against
    the walls it ends up inside, first for the horizontal move and then for
    the vertical one. */
module Snapping {
  import opened Geometry
  import opened Movement
  import Players

  /** The displacement Jugador.update asks for: each key is tested in turn
      and a later assignment wins, so RIGHT overrides LEFT and DOWN
      overrides UP. */
  function SnapRequest(keys: Players.Keys, speed: int): (int, int) {
    (if keys.right then speed else if keys.left then -speed else 0,
     if keys.down then speed else if keys.up then -speed else 0)
  }

  /** Low and high edge of a rectangle on an axis. */
  function Lo(r: Rect, axis: Axis): int { Coord(r, axis) }
  function Hi(r: Rect, axis: Axis): int { if axis == Horizontal then r.Right() else r.Bottom() }

  /** The correction for one wall: inside it after moving toward +, the
      high edge is put on the wall's low edge; after moving toward -, the
      low edge on the wall's high edge; otherwise nothing. */
  function SnapOne(r: Rect, wall: Rect, axis: Axis, d: int): Rect {
    if !Overlaps(r, wall) then r
    else if d > 0 then Shift(r, axis, Lo(wall, axis) - Hi(r, axis))
    else if d < 0 then Shift(r, axis, Hi(wall, axis) - Lo(r, axis))
    else r
  }

  /** The corrections for the first k walls, in the order of the group. */
  function SnapPrefix(r: Rect, walls: seq<Rect>, axis: Axis, d: int, k: nat): Rect
    requires k <= |walls|
    decreases k
  {
    if k == 0 then r else SnapOne(SnapPrefix(r, walls, axis, d, k - 1), walls[k - 1], axis, d)
  }

  class Jugador {
    var rect: Rect
    const speed: int

    constructor (x: int, y: int)
      ensures rect == Rect(x, y, 30, 30) && speed == 5
    {
      rect := Rect(x, y, 30, 30);
      speed := 5;
    }

    /** One loop over the walls for one axis. */
    method SnapAxis(walls: seq<Rect>, axis: Axis, d: int)
      modifies this
      ensures rect == SnapPrefix(old(rect), walls, axis, d, |walls|)
    {
      ghost var r0 := rect;
      for i := 0 to |walls|
        invariant rect == SnapPrefix(r0, walls, axis, d, i)
      {
        if Overlaps(rect, walls[i]) {
          if d > 0 {
            rect := Shift(rect, axis, Lo(walls[i], axis) - Hi(rect, axis));
          }
          if d < 0 {
            rect := Shift(rect, axis, Hi(walls[i], axis) - Lo(rect, axis));
          }
        }
      }
    }

    /** Jugador.update: move by dx and snap, then move by dy and snap. */
    method Update(keys: Players.Keys, walls: seq<Rect>)
      modifies this
      ensures var d := SnapRequest(keys, speed);
        rect == SnapPrefix(Shift(SnapPrefix(Shift(old(rect), Horizontal, d.0), walls, Horizontal, d.0, |walls|),
                                 Vertical, d.1),
                           walls, Vertical, d.1, |walls|)
    {
      var d := SnapRequest(keys, speed);
      rect := rect.(x := rect.x + d.0);
      SnapAxis(walls, Horizontal, d.0);
      rect := rect.(y := rect.y + d.1);
      SnapAxis(walls, Vertical, d.1);
    }
  }

  /** A snap leaves the sprite flush against the wall it was inside: after
      a move toward +, its high edge is the wall's low edge; after a move
      toward -, its low edge is the wall's high edge; either way the two no
      longer overlap, and only the moving coordinate changed. */
  lemma {:induction false} SnapOneFlush(r: Rect, wall: Rect, axis: Axis, d: int)
    requires Overlaps(r, wall) && d != 0
    ensures var s := SnapOne(r, wall, axis, d);
      && s == Shift(r, axis, Lo(s, axis) - Lo(r, axis))
      && (d > 0 ==> Hi(s, axis) == Lo(wall, axis) && Lo(s, axis) < Lo(r, axis))
      && (d < 0 ==> Lo(s, axis) == Hi(wall, axis) && Lo(s, axis) > Lo(r, axis))
      && !Overlaps(s, wall)
  {
  }

  /** Without motion on an axis there is no correction on it, even for a
      sprite that is inside a wall. */
  lemma {:induction false} NoMotionNoSnap(r: Rect, walls: seq<Rect>, axis: Axis, k: nat)
    requires k <= |walls|
    ensures SnapPrefix(r, walls, axis, 0, k) == r
    decreases k
  {
    if k > 0 {
      NoMotionNoSnap(r, walls, axis, k - 1);
    }
  }

  /** The corrections only push the sprite back against its motion and
      only along the axis: after a move toward + the coordinate never
      grows, after a move toward - it never shrinks; the other coordinate
      and the size are kept. */
  lemma {:induction false} SnapBacksOff(r: Rect, walls: seq<Rect>, axis: Axis, d: int, k: nat)
    requires k <= |walls|
    ensures var s := SnapPrefix(r, walls, axis, d, k);
      && s == Shift(r, axis, Lo(s, axis) - Lo(r, axis))
      && (d >= 0 ==> Lo(s, axis) <= Lo(r, axis))
      && (d <= 0 ==> Lo(s, axis) >= Lo(r, axis))
    decreases k
  {
    if k > 0 {
      SnapBacksOff(r, walls, axis, d, k - 1);
      var p := SnapPrefix(r, walls, axis, d, k - 1);
      if Overlaps(p, walls[k - 1]) && d != 0 {
        SnapOneFlush(p, walls[k - 1], axis, d);
      }
    }
  }

  /** The vertical phase of the update never changes x. */
  lemma {:induction false} VerticalKeepsX(r: Rect, walls: seq<Rect>, dy: int)
    ensures SnapPrefix(Shift(r, Vertical, dy), walls, Vertical, dy, |walls|).x == r.x
  {
    SnapBacksOff(Shift(r, Vertical, dy), walls, Vertical, dy, |walls|);
  }

  /** The two players read the keys differently exactly when two opposite
      keys are held together: the player of player.py lets LEFT and UP win,
      Jugador lets RIGHT and DOWN win. */
  lemma {:induction false} KeyRulesDiffer(keys: Players.Keys, speed: int)
    requires speed > 0
    ensures SnapRequest(keys, speed) != Players.Request(keys, speed) <==>
      (keys.left && keys.right) || (keys.up && keys.down)
  {
  }
}

=== FILE: spawn.dfy ===
/** spawn_on_path: a random top-left corner for a sprite such that every
    tile the sprite would cover is a path tile. The random draws are
    nondeterministic choices. */
module Spawning {
  import opened Geometry
  import opened TileMap

  datatype SpawnError = InvalidMap | NoPosition
  datatype SpawnResult = Found(x: int, y: int) | Failed(error: SpawnError)

  /** The largest corner coordinate that is drawn: `max(0, cells * TILE - size)`. */
  function MaxCorner(cells: nat, size: nat): (r: nat)
    ensures size <= cells * TILE ==> r + size == cells * TILE
    ensures size > cells * TILE ==> r == 0
  {
    if cells * TILE - size > 0 then cells * TILE - size else 0
  }

  /** The test applied to each draw: the sprite covers at least one tile,
      and every tile it covers is walkable. */
  predicate Spawnable(m: Grid, r: Rect) {
    RectTiles(r, TILE) != [] && Fits(m, r, TILE)
  }

  /** At most max_attempts corners are drawn, each uniformly in
      [0, MaxCorner] on both axes; the first spawnable one is returned. An
      empty map, or no spawnable draw, is an error (ValueError). `draws`
      counts the corners drawn. */
  method SpawnOnPath(mapa: Grid, spriteW: nat, spriteH: nat, maxAttempts: int)
    returns (res: SpawnResult, ghost draws: nat)
    ensures res == Failed(InvalidMap) <==> |mapa| == 0 || Width(mapa) == 0
    ensures res.Found? ==>
      && 0 <= res.x <= MaxCorner(Width(mapa), spriteW)
      && 0 <= res.y <= MaxCorner(|mapa|, spriteH)
      && Spawnable(mapa, Rect(res.x, res.y, spriteW, spriteH))
      && 1 <= draws <= maxAttempts
    ensures res == Failed(NoPosition) ==> draws == (if maxAttempts > 0 then maxAttempts else 0)
  {
    var h := |mapa|;
    var w := if h > 0 then |mapa[0]| else 0;
    if w == 0 || h == 0 {
      return Failed(InvalidMap), 0;
    }
    var maxX := MaxCorner(w, spriteW);
    var maxY := MaxCorner(h, spriteH);
    draws := 0;
    var attempt := 0;
    while attempt < maxAttempts
      invariant draws == attempt
      invariant maxAttempts > 0 ==> attempt <= maxAttempts
      invariant maxAttempts <= 0 ==> attempt == 0
    {
      var x :| 0 <= x <= maxX;
      var y :| 0 <= y <= maxY;
      draws := draws + 1;
      var rect := Rect(x, y, spriteW, spriteH);
      var tiles := RectTiles(rect, TILE);
      if tiles != [] && Fits(mapa, rect, TILE) {
        return Found(x, y), draws;
      }
      attempt := attempt + 1;
    }
    return Failed(NoPosition), draws;
  }

  /** A spawned sprite of positive size lies wholly inside the map's pixel
      area, on path tiles only. */
  lemma {:induction false} SpawnInsideMap(m: Grid, x: int, y: int, w: nat, h: nat)
    requires w > 0 && h > 0 && Spawnable(m, Rect(x, y, w, h))
    ensures 0 <= x && x + w <= Width(m) * TILE
    ensures 0 <= y && y + h <= |m| * TILE
    ensures forall px, py :: x <= px < x + w && y <= py < y + h ==>
      IsWalkable(m, PixelToTile(px, py, TILE).0, PixelToTile(px, py, TILE).1)
  {
    FitsInsideMap(m, Rect(x, y, w, h), TILE);
  }
}

=== FILE: tilemap.dfy ===
/** The tile map: a rectangular grid of integer codes where 1 is a walkable
    path tile and every other code (0 in particular) is an obstacle; the
    conversion between pixels and tiles; the list of tiles a rectangle
    covers; wall generation; and the validation done when a map is loaded. */
module TileMap {
  import opened Geometry

  /** A tile coordinate (column, row). */
  type Cell = (int, int)

  /** Pixels per tile of the tile map. */
  const TILE: Pos := 16

  predicate Rectangular(m: seq<seq<int>>) {
    forall i :: 0 <= i < |m| ==> |m[i]| == |m[0]|
  }

  /** A loaded map: every row has the width of the first one. */
  type Grid = m: seq<seq<int>> | Rectangular(m) witness []

  /** Number of columns (`len(mapa[0]) if h else 0`). */
  function Width(m: Grid): nat {
    if |m| == 0 then 0 else |m[0]|
  }

  predicate InBounds(m: Grid, c: Cell) {
    0 <= c.1 < |m| && 0 <= c.0 < Width(m)
  }

  /** pixel_a_tile: the tile whose pixel span contains the point. */
  function PixelToTile(px: int, py: int, tile: Pos): (t: Cell)
    ensures t.0 * tile <= px < t.0 * tile + tile
    ensures t.1 * tile <= py < t.1 * tile + tile
  {
    (px / tile, py / tile)
  }

  /** Consecutive multiples of a positive size are a full size apart. */
  lemma {:induction false} MulLess(a: int, b: int, k: Pos)
    requires a < b
    ensures a * k + k <= b * k
    decreases b - a
  {
    assert (a + 1) * k == a * k + k;
    if a + 1 < b {
      MulLess(a + 1, b, k);
    }
  }

  /** The tile that owns a pixel is unique: any tile whose span holds the
      pixel is the one PixelToTile names. */
  lemma {:induction false} PixelToTileUnique(p: int, k: int, tile: Pos)
    requires k * tile <= p < k * tile + tile
    ensures PixelToTile(p, 0, tile).0 == k
  {
    var q := PixelToTile(p, 0, tile).0;
    if q < k {
      MulLess(q, k, tile);
    } else if k < q {
      MulLess(k, q, tile);
    }
  }

  /** Cells (tx, ty) for tx in [tx1, tx2], in increasing tx. */
  function Row(tx: int, tx2: int, ty: int): seq<Cell>
    decreases tx2 - tx
  {
    if tx > tx2 then [] else [(tx, ty)] + Row(tx + 1, tx2, ty)
  }

  /** Cells of the block [tx1, tx2] x [ty, ty2], row after row. */
  function Rows(tx1: int, tx2: int, ty: int, ty2: int): seq<Cell>
    decreases ty2 - ty
  {
    if ty > ty2 then [] else Row(tx1, tx2, ty) + Rows(tx1, tx2, ty + 1, ty2)
  }

  /** rect_a_tiles: every tile the rectangle covers, from the tile of its
      top-left pixel to the tile of its bottom-right pixel inclusive. */
  function RectTiles(r: Rect, tile: Pos): seq<Cell> {
    var a := PixelToTile(r.x, r.y, tile);
    var b := PixelToTile(r.Right() - 1, r.Bottom() - 1, tile);
    Rows(a.0, b.0, a.1, b.1)
  }

  /** Row-major order: by row, then by column. */
  predicate Before(a: Cell, b: Cell) {
    a.1 < b.1 || (a.1 == b.1 && a.0 < b.0)
  }

  lemma {:induction false} RowMember(tx: int, tx2: int, ty: int, c: Cell)
    ensures c in Row(tx, tx2, ty) <==> tx <= c.0 <= tx2 && c.1 == ty
    decreases tx2 - tx
  {
    if tx <= tx2 {
      RowMember(tx + 1, tx2, ty, c);
    }
  }

  lemma {:induction false} RowsMember(tx1: int, tx2: int, ty: int, ty2: int, c: Cell)
    ensures c in Rows(tx1, tx2, ty, ty2) <==> tx1 <= c.0 <= tx2 && ty <= c.1 <= ty2
    decreases ty2 - ty
  {
    if ty <= ty2 {
      RowMember(tx1, tx2, ty, c);
      RowsMember(tx1, tx2, ty + 1, ty2, c);
    }
  }

  lemma {:induction false} RowSorted(tx: int, tx2: int, ty: int)
    ensures forall i, j :: 0 <= i < j < |Row(tx, tx2, ty)| ==> Before(Row(tx, tx2, ty)[i], Row(tx, tx2, ty)[j])
    decreases tx2 - tx
  {
    if tx <= tx2 {
      var rest := Row(tx + 1, tx2, ty);
      RowSorted(tx + 1, tx2, ty);
      forall k | 0 <= k < |rest| ensures rest[k].1 == ty && tx < rest[k].0 {
        RowMember(tx + 1, tx2, ty, rest[k]);
      }
    }
  }

  lemma {:induction false} RowsSorted(tx1: int, tx2: int, ty: int, ty2: int)
    ensures forall i, j :: 0 <= i < j < |Rows(tx1, tx2, ty, ty2)| ==>
      Before(Rows(tx1, tx2, ty, ty2)[i], Rows(tx1, tx2, ty, ty2)[j])
    decreases ty2 - ty
  {
    if ty <= ty2 {
      var row := Row(tx1, tx2, ty);
      var rest := Rows(tx1, tx2, ty + 1, ty2);
      RowSorted(tx1, tx2, ty);
      RowsSorted(tx1, tx2, ty + 1, ty2);
      forall k | 0 <= k < |row| ensures row[k].1 == ty {
        RowMember(tx1, tx2, ty, row[k]);
      }
      forall k | 0 <= k < |rest| ensures rest[k].1 > ty {
        RowsMember(tx1, tx2, ty + 1, ty2, rest[k]);
      }
    }
  }

  /** rect_a_tiles lists exactly the tiles that share a pixel with the
      rectangle, each once, in row-major order. */
  lemma {:induction false} RectTilesExact(r: Rect, tile: Pos, c: Cell)
    requires r.w > 0 && r.h > 0
    ensures c in RectTiles(r, tile) <==>
      (exists px, py :: r.x <= px < r.Right() && r.y <= py < r.Bottom() && PixelToTile(px, py, tile) == c)
    ensures forall i, j :: 0 <= i < j < |RectTiles(r, tile)| ==> Before(RectTiles(r, tile)[i], RectTiles(r, tile)[j])
  {
    var a := PixelToTile(r.x, r.y, tile);
    var b := PixelToTile(r.Right() - 1, r.Bottom() - 1, tile);
    RowsMember(a.0, b.0, a.1, b.1, c);
    RowsSorted(a.0, b.0, a.1, b.1);
    if a.0 <= c.0 <= b.0 && a.1 <= c.1 <= b.1 {
      // a pixel of the rectangle inside tile c: clamp the tile's span to the rectangle
      var px := if c.0 * tile < r.x then r.x else c.0 * tile;
      var py := if c.1 * tile < r.y then r.y else c.1 * tile;
      MulLe(c.0, b.0, tile);
      MulLe(c.1, b.1, tile);
      MulLe(a.0, c.0, tile);
      MulLe(a.1, c.1, tile);
      PixelToTileUnique(px, c.0, tile);
      PixelToTileUnique(py, c.1, tile);
      assert PixelToTile(px, py, tile) == c;
    }
    if exists px, py :: r.x <= px < r.Right() && r.y <= py < r.Bottom() && PixelToTile(px, py, tile) == c {
      var px, py :| r.x <= px < r.Right() && r.y <= py < r.Bottom() && PixelToTile(px, py, tile) == c;
      TileMonotone(r.x, px, tile);
      TileMonotone(px, r.Right() - 1, tile);
      TileMonotone(r.y, py, tile);
      TileMonotone(py, r.Bottom() - 1, tile);
    }
  }

  lemma {:induction false} MulLe(a: int, b: int, k: Pos)
    requires a <= b
    ensures a * k <= b * k
  {
    if a < b {
      MulLess(a, b, k);
    }
  }

  lemma {:induction false} TileMonotone(p: int, q: int, tile: Pos)
    requires p <= q
    ensures PixelToTile(p, 0, tile).0 <= PixelToTile(q, 0, tile).0
  {
    var a := PixelToTile(p, 0, tile).0;
    var b := PixelToTile(q, 0, tile).0;
    if b < a {
      MulLess(b, a, tile);
    }
  }

  /** es_tile_transitable: inside the map and coded 1. */
  predicate IsWalkable(m: Grid, tx: int, ty: int) {
    if ty < 0 || ty >= |m| || tx < 0 || tx >= |m[0]| then false else m[ty][tx] == 1
  }

  /** `all(es_tile_transitable(...) for tx, ty in rect_a_tiles(rect))`. */
  predicate Fits(m: Grid, r: Rect, tile: Pos) {
    forall i :: 0 <= i < |RectTiles(r, tile)| ==> IsWalkable(m, RectTiles(r, tile)[i].0, RectTiles(r, tile)[i].1)
  }

  /** A non-empty rectangle accepted by the walkability test lies wholly
      inside the map's pixel area, and every pixel of it is on a path tile. */
  lemma {:induction false} FitsInsideMap(m: Grid, r: Rect, tile: Pos)
    requires r.w > 0 && r.h > 0 && Fits(m, r, tile)
    ensures 0 <= r.x && r.Right() <= Width(m) * tile
    ensures 0 <= r.y && r.Bottom() <= |m| * tile
    ensures forall px, py :: r.x <= px < r.Right() && r.y <= py < r.Bottom() ==>
      IsWalkable(m, PixelToTile(px, py, tile).0, PixelToTile(px, py, tile).1)
  {
    forall px, py | r.x <= px < r.Right() && r.y <= py < r.Bottom()
      ensures IsWalkable(m, PixelToTile(px, py, tile).0, PixelToTile(px, py, tile).1)
    {
      FitsPixel(m, r, tile, px, py);
    }
    FitsBounds(m, r, tile);
  }

  lemma {:induction false} FitsPixel(m: Grid, r: Rect, tile: Pos, px: int, py: int)
    requires r.w > 0 && r.h > 0 && Fits(m, r, tile)
    requires r.x <= px < r.Right() && r.y <= py < r.Bottom()
    ensures IsWalkable(m, PixelToTile(px, py, tile).0, PixelToTile(px, py, tile).1)
  {
    var ts := RectTiles(r, tile);
    var c := PixelToTile(px, py, tile);
    RectTilesExact(r, tile, c);
    var i :| 0 <= i < |ts| && ts[i] == c;
  }

  lemma {:induction false} FitsBounds(m: Grid, r: Rect, tile: Pos)
    requires r.w > 0 && r.h > 0 && Fits(m, r, tile)
    ensures 0 <= r.x && r.Right() <= Width(m) * tile
    ensures 0 <= r.y && r.Bottom() <= |m| * tile
  {
    FitsPixel(m, r, tile, r.x, r.y);
    FitsPixel(m, r, tile, r.Right() - 1, r.Bottom() - 1);
    var a := PixelToTile(r.x, r.y, tile);
    var b := PixelToTile(r.Right() - 1, r.Bottom() - 1, tile);
    assert IsWalkable(m, a.0, a.1);
    assert IsWalkable(m, b.0, b.1);
    MulLe(0, a.0, tile);
    MulLe(0, a.1, tile);
    MulLe(b.0 + 1, Width(m), tile);
    MulLe(b.1 + 1, |m|, tile);
    assert (b.0 + 1) * tile == b.0 * tile + tile;
    assert (b.1 + 1) * tile == b.1 * tile + tile;
  }

  // ---------------------------------------------------------------- walls

  function WallAt(x: int, y: int, tile: Pos): Rect {
    Rect(x * tile, y * tile, tile, tile)
  }

  /** Walls of row y for the columns before x. */
  function RowWalls(m: Grid, y: nat, x: nat, tile: Pos): seq<Rect>
    requires y < |m| && x <= Width(m)
  {
    if x == 0 then []
    else RowWalls(m, y, x - 1, tile) + (if m[y][x - 1] == 0 then [WallAt(x - 1, y, tile)] else [])
  }

  /** Walls of the rows before y, row-major. */
  function WallsBefore(m: Grid, y: nat, tile: Pos): seq<Rect>
    requires y <= |m|
  {
    if y == 0 then [] else WallsBefore(m, y - 1, tile) + RowWalls(m, y - 1, Width(m), tile)
  }

  /** generar_muros: one tile-sized rectangle per cell coded 0, row by row. */
  method GenerateWalls(m: Grid, tile: Pos) returns (walls: seq<Rect>)
    ensures walls == WallsBefore(m, |m|, tile)
  {
    walls := [];
    var h := |m|;
    var w := if h > 0 then |m[0]| else 0;
    for y := 0 to h
      invariant walls == WallsBefore(m, y, tile)
    {
      for x := 0 to w
        invariant walls == WallsBefore(m, y, tile) + RowWalls(m, y, x, tile)
      {
        if m[y][x] == 0 {
          walls := walls + [WallAt(x, y, tile)];
        }
      }
    }
  }

  lemma {:induction false} RowWallsMember(m: Grid, y: nat, x: nat, tile: Pos, r: Rect)
    requires y < |m| && x <= Width(m)
    ensures r in RowWalls(m, y, x, tile) <==> exists cx :: 0 <= cx < x && m[y][cx] == 0 && r == WallAt(cx, y, tile)
  {
    if x > 0 {
      RowWallsMember(m, y, x - 1, tile, r);
    }
  }

  /** Every wall of the first y rows stands on a cell coded 0 of those rows. */
  lemma {:induction false} WallsBeforeSound(m: Grid, y: nat, tile: Pos, r: Rect)
    requires y <= |m| && r in WallsBefore(m, y, tile)
    ensures exists cx, cy :: 0 <= cy < y && 0 <= cx < Width(m) && m[cy][cx] == 0 && r == WallAt(cx, cy, tile)
  {
    var before, row := WallsBefore(m, y - 1, tile), RowWalls(m, y - 1, Width(m), tile);
    assert WallsBefore(m, y, tile) == before + row;
    if r in row {
      RowWallsMember(m, y - 1, Width(m), tile, r);
      var cx :| 0 <= cx < Width(m) && m[y - 1][cx] == 0 && r == WallAt(cx, y - 1, tile);
      assert 0 <= y - 1 < y;
    } else {
      WallsBeforeSound(m, y - 1, tile, r);
      var cx, cy :| 0 <= cy < y - 1 && 0 <= cx < Width(m) && m[cy][cx] == 0 && r == WallAt(cx, cy, tile);
      assert 0 <= cy < y;
    }
  }

  /** Every cell coded 0 of the first y rows has its wall. */
  lemma {:induction false} WallsBeforeComplete(m: Grid, y: nat, tile: Pos, cx: nat, cy: nat)
    requires y <= |m| && cy < y && cx < Width(m) && m[cy][cx] == 0
    ensures WallAt(cx, cy, tile) in WallsBefore(m, y, tile)
  {
    var before, row := WallsBefore(m, y - 1, tile), RowWalls(m, y - 1, Width(m), tile);
    assert WallsBefore(m, y, tile) == before + row;
    if cy == y - 1 {
      RowWallsMember(m, y - 1, Width(m), tile, WallAt(cx, cy, tile));
      assert WallAt(cx, cy, tile) in row;
    } else {
      WallsBeforeComplete(m, y - 1, tile, cx, cy);
    }
  }

  /** The generated walls are exactly the obstacle cells coded 0: a wall
      sits on a tile the walkability test rejects, and on a map of 0/1
      codes every in-bounds cell is either walkable or covered by a wall. */
  lemma {:induction false} WallsMatchObstacles(m: Grid, tile: Pos, cx: int, cy: int)
    requires InBounds(m, (cx, cy))
    ensures WallAt(cx, cy, tile) in WallsBefore(m, |m|, tile) <==> m[cy][cx] == 0
    ensures WallAt(cx, cy, tile) in WallsBefore(m, |m|, tile) ==> !IsWalkable(m, cx, cy)
    ensures m[cy][cx] in {0, 1} ==> (IsWalkable(m, cx, cy) <==> WallAt(cx, cy, tile) !in WallsBefore(m, |m|, tile))
  {
    if m[cy][cx] == 0 {
      WallsBeforeComplete(m, |m|, tile, cx, cy);
    }
    if WallAt(cx, cy, tile) in WallsBefore(m, |m|, tile) {
      WallsBeforeSound(m, |m|, tile, WallAt(cx, cy, tile));
      var x, y :| 0 <= y < |m| && 0 <= x < Width(m) && m[y][x] == 0 && WallAt(cx, cy, tile) == WallAt(x, y, tile);
      assert x * tile == cx * tile && y * tile == cy * tile;
      MulCancel(x, cx, tile);
      MulCancel(y, cy, tile);
    }
  }

  lemma {:induction false} MulCancel(a: int, b: int, k: Pos)
    requires a * k == b * k
    ensures a == b
  {
    PixelToTileUnique(a * k, a, k);
    PixelToTileUnique(b * k, b, k);
  }

  // ------------------------------------------------------------- loading

  /** A CSV cell after stripping spaces: empty, an integer literal, or text
      that int() rejects. */
  datatype RawCell = Blank | Number(n: int) | NotNumber

  datatype LoadError =
    | BadCell                                   // int() raised ValueError
    | EmptyMap                                  // no non-empty row
    | RaggedRow(row: nat, len: nat, expected: nat)

  datatype Loaded = Loaded(grid: Grid, width: nat, height: nat)

  datatype LoadResult = Ok(value: Loaded) | Err(error: LoadError)

  /** The numbers of a row, blanks dropped. */
  function Numbers(row: seq<RawCell>): seq<int> {
    if row == [] then []
    else (if row[0].Number? then [row[0].n] else []) + Numbers(row[1..])
  }

  predicate HasBadCell(rows: seq<seq<RawCell>>) {
    exists i, j :: 0 <= i < |rows| && 0 <= j < |rows[i]| && rows[i][j].NotNumber?
  }

  /** The rows that hold at least one number, blanks dropped. */
  function Cleaned(rows: seq<seq<RawCell>>): seq<seq<int>> {
    if rows == [] then []
    else
      var last := Numbers(rows[|rows| - 1]);
      Cleaned(rows[..|rows| - 1]) + (if last != [] then [last] else [])
  }

  function FirstRagged(rows: seq<seq<int>>, width: nat, i: nat): (k: nat)
    requires i <= |rows|
    ensures i <= k <= |rows|
    ensures k < |rows| ==> |rows[k]| != width
    ensures forall j :: i <= j < k ==> |rows[j]| == width
    decreases |rows| - i
  {
    if i == |rows| then i else if |rows[i]| != width then i else FirstRagged(rows, width, i + 1)
  }

  /** cargar_mapa_csv, after the file has been split into cells: blank cells
      and rows are skipped, a cell that is not an integer aborts, an empty
      map aborts, and so does the first row whose width differs from the
      first row's. */
  method LoadMap(rows: seq<seq<RawCell>>) returns (res: LoadResult)
    ensures res == Err(BadCell) <==> HasBadCell(rows)
    ensures !HasBadCell(rows) && Cleaned(rows) == [] ==> res == Err(EmptyMap)
    ensures res == Err(EmptyMap) ==> !HasBadCell(rows) && Cleaned(rows) == []
    ensures res.Ok? ==>
      res.value.grid == Cleaned(rows) && res.value.grid != [] &&
      res.value.height == |res.value.grid| && res.value.width == |res.value.grid[0]|
    ensures res.Err? && res.error.RaggedRow? ==>
      var c := Cleaned(rows);
      !HasBadCell(rows) && c != [] && res.error.row == FirstRagged(c, |c[0]|, 0) < |c|
      && res.error.len == |c[res.error.row]| && res.error.expected == |c[0]|
    ensures !HasBadCell(rows) && Cleaned(rows) != [] ==>
      (res.Ok? <==> Rectangular(Cleaned(rows)))
  {
    var mapa: seq<seq<int>> := [];
    for i := 0 to |rows|
      invariant mapa == Cleaned(rows[..i])
      invariant !HasBadCell(rows[..i])
    {
      var fila: seq<int> := [];
      var row := rows[i];
      for j := 0 to |row|
        invariant fila == Numbers(row[..j])
        invariant forall k :: 0 <= k < j ==> !row[k].NotNumber?
      {
        match row[j] {
          case Blank =>
          case NotNumber =>
            assert rows[i][j].NotNumber?;
            return Err(BadCell);
          case Number(n) =>
            fila := fila + [n];
        }
        NumbersSnoc(row[..j], row[j]);
        assert row[..j + 1] == row[..j] + [row[j]];
      }
      assert row[..|row|] == row;
      if fila != [] {
        mapa := mapa + [fila];
      }
      assert rows[..i + 1][..i] == rows[..i];
      assert forall a, b :: 0 <= a < i && 0 <= b < |rows[a]| ==> !rows[a][b].NotNumber? by {
        forall a, b | 0 <= a < i && 0 <= b < |rows[a]| ensures !rows[a][b].NotNumber? {
          assert rows[..i][a] == rows[a];
        }
      }
    }
    assert rows[..|rows|] == rows;
    if mapa == [] {
      return Err(EmptyMap);
    }
    var width := |mapa[0]|;
    for i := 0 to |mapa|
      invariant forall k :: 0 <= k < i ==> |mapa[k]| == width
    {
      if |mapa[i]| != width {
        assert FirstRagged(mapa, width, 0) == i by { FirstRaggedIs(mapa, width, 0, i); }
        return Err(RaggedRow(i, |mapa[i]|, width));
      }
    }
    return Ok(Loaded(mapa, width, |mapa|));
  }

  lemma {:induction false} FirstRaggedIs(rows: seq<seq<int>>, width: nat, i: nat, k: nat)
    requires i <= k < |rows| && |rows[k]| != width
    requires forall j :: i <= j < k ==> |rows[j]| == width
    ensures FirstRagged(rows, width, i) == k
    decreases k - i
  {
    if i < k {
      FirstRaggedIs(rows, width, i + 1, k);
    }
  }

  lemma {:induction false} NumbersSnoc(row: seq<RawCell>, c: RawCell)
    ensures Numbers(row + [c]) == Numbers(row) + (if c.Number? then [c.n] else [])
  {
    if row == [] {
      assert [c][1..] == [];
    } else {
      var head := if row[0].Number? then [row[0].n] else [];
      var last := if c.Number? then [c.n] else [];
      assert (row + [c])[0] == row[0];
      assert (row + [c])[1..] == row[1..] + [c];
      NumbersSnoc(row[1..], c);
      calc {
        Numbers(row + [c]);
        head + Numbers(row[1..] + [c]);
        head + (Numbers(row[1..]) + last);
        (head + Numbers(row[1..])) + last;
      }
    }
  }
}
